=== FILE: README.md ===
# Jaipur traffic dashboard: the data layer in Dafny

This project models the pure data layer of the Jaipur traffic dashboard, a
React front end. The dashboard shows incident counts for a grid of city cells
and statistics derived from them. A cell record carries:

- three incident buckets: yellow, red and dark red;
- the cell's latest severity and its P95 and P99 percentiles;
- a timestamp.

The model covers these parts of the dashboard:

- **Classifiers.** Each turns a record into a level or a colour:
  - the percentile level, `calculateSeverityLevel`;
  - the bucket level, `getTrafficSeverityLevel`;
  - the compact grid's button classes (`GridCell`);
  - the map tile colours (`getCellColor`);
  - the counters of the stats bar.
- **Top-10 selection.** There are two selections:
  - Traffic mode: cells with a positive total, stably sorted by total, first ten.
  - Severity mode: a tier above P99, then a tier above P95 only that fills the rest.

  Either result is a duplicate-free list of `"x-y"` keys in insertion order. That order is where the rank badges come from.
- **Map geometry.** The boxes and centers of the 16 by 24 map grid, over exact reals.
- **Time text.**
  - The string dispatch of `parseISTTimestamp`.
  - The `getHoursAgo` wording.
  - `formatChartTime`.
  - The slash and " IST" post-processing of the two localized formats.
- **Input checks.**
  - The three response schemas and their validators.
  - The guarded construction of the history URL, including `encodeURIComponent`.
- **Series.**
  - The chart series (`processChartData`, `getChartLines`).
  - The daily averages.
  - The history page's hour and weekday filter, with optional per-hour averaging.
  - The page's hour slider and weekday multi-select.

The host's `Date` and `Intl` behaviour enters as given functions of an integer
instant (module `HostCalendar`). That covers parsing, local hour and weekday,
date strings and the start of an hour. Number printing inside hover titles
is also a given function.

Layout: one module per source file, plus shared helpers:

- `Wrappers`: Option and Result.
- `Seqs`: filter, take, de-duplication, sums and rounding.
- `Sorting`: a stable insertion sort, proved sorted, a permutation and stable.
- `Grouping`: group-by in first-occurrence order.
- `Strings`: decimal text, split, replace and padding.

## Model

| member | source | states |
|---|---|---|
| TrafficUtils.CalculateSeverityLevel | src/lib/trafficUtils.ts:3-15 | a cell missing any of latest severity, P95, P99 (absent or zero) is Normal; otherwise High exactly when latest > P99 (strict), Moderate exactly when P95 < latest <= P99 |
| TrafficUtils.CalculateSeverityDifferences | src/lib/trafficUtils.ts:17-28 | (0, 0) under the same guard, otherwise latest minus P95 and latest minus P99 |
| TrafficUtils.SeverityLevelFromDifferences | src/lib/trafficUtils.ts:3-28 | the level is High exactly when the P99 difference is positive and Moderate exactly when only the P95 difference is |
| TrafficUtils.AllZeroTripleIsNormal | src/lib/trafficUtils.ts:6-10 | an all-zero triple is Normal with zero differences, so the explicit all-zero test can never decide anything |
| TrafficUtils.CalculateTotalTraffic | src/lib/trafficUtils.ts:30-32 | for non-negative counts the total is non-negative, at least each bucket, and zero exactly when all buckets are |
| TrafficUtils.GetTrafficSeverityLevel | src/lib/trafficUtils.ts:34-42 | Normal iff the total is zero; Critical iff nonzero total and dark red > 0; High iff nonzero total, no dark red, red > 0; Medium implies only yellow incidents |
| TrafficUtils.TrafficLevelByBuckets | src/lib/trafficUtils.ts:34-42 | with non-negative counts the level is decided by the buckets alone, most severe non-empty bucket first |
| GridUtils.CreateCellKey | src/lib/gridUtils.ts:7 | for non-negative coordinates, splitting the key on '-' gives exactly the decimal x and the decimal y |
| GridUtils.CellKeyRoundTrip | src/lib/gridUtils.ts:7 | splitting a key of non-negative coordinates on '-' and reading numbers gives back exactly x and y |
| GridUtils.CellKeyInjective | src/lib/gridUtils.ts:7 | distinct non-negative positions have distinct keys |
| GridUtils.CreateDefaultCell | src/lib/gridUtils.ts:9-20 | the default cell sits at (x, y), has no incidents and no timestamp, and both classifiers call it Normal |
| GridUtils.TrafficRanking | src/lib/gridUtils.ts:49-53 | the ranking holds min(10, number of cells with positive total) input cells with positive total, in non-increasing total order |
| GridUtils.TrafficRankingStable | src/lib/gridUtils.ts:52 | cells with equal totals keep their input order: for each total, the ranked cells are a prefix of the input's cells with that total |
| GridUtils.TrafficRankingComplete | src/lib/gridUtils.ts:49-53 | a cell with positive total that is left out means ten cells were chosen, each with a total at least as large |
| GridUtils.GetTop10TrafficCells | src/lib/gridUtils.ts:49-56 | at most ten keys, no key twice, the key of every ranked cell present, and keys in the order of their first ranked cell (`new Set` keeps first-insertion order) |
| GridUtils.Top10TrafficCellsSound | src/lib/gridUtils.ts:49-56 | every returned key names an input cell with a positive total |
| GridUtils.Top10TrafficCellsInRankOrder | src/lib/gridUtils.ts:49-56 | when the ranked cells lie at distinct positions, the keys list them in rank order |
| GridUtils.ProcessedSound | src/lib/gridUtils.ts:23-28 | every severity candidate is an input record with latest severity, P95 and P99 all nonzero, carrying its own differences |
| GridUtils.ProcessedComplete | src/lib/gridUtils.ts:23-28 | every input record passing that test is a candidate |
| GridUtils.P99Tier | src/lib/gridUtils.ts:30-33 | min(10, candidates above P99) candidates above P99, largest P99 difference first, cells of equal difference being the first such candidates in input order (stable) |
| GridUtils.P99TierStable | src/lib/gridUtils.ts:30-33 | for every P99 difference, the tier's cells with that difference are a prefix of the candidates with it, in input order |
| GridUtils.P95Tier | src/lib/gridUtils.ts:39-42 | min(room, candidates above P95 only) such candidates, largest P95 difference first, cells of equal difference being the first such candidates in input order (stable) |
| GridUtils.P95TierStable | src/lib/gridUtils.ts:39-42 | for every P95 difference, the tier's cells with that difference are a prefix of the P95-only candidates with it, in input order |
| GridUtils.Tiers | src/lib/gridUtils.ts:30-46 | at most ten candidates, each above P99 or above P95 only |
| GridUtils.TiersOrdered | src/lib/gridUtils.ts:30-46 | the P99 cells precede the P95-only cells, each group in descending order of its own difference |
| GridUtils.TiersShape | src/lib/gridUtils.ts:35-46 | the P99 tier is a prefix of the result, and the P95 tier adds nothing when the P99 tier is full and at most 10 minus its size otherwise |
| GridUtils.TiersCompleteP99 | src/lib/gridUtils.ts:30-37 | an unchosen candidate above P99 means ten chosen cells above P99, none with a smaller P99 difference |
| GridUtils.TiersCompleteP95 | src/lib/gridUtils.ts:39-46 | an unchosen P95-only candidate means ten chosen cells, each above P99 or with at least its P95 difference |
| GridUtils.SeverityRankingFromInput | src/lib/gridUtils.ts:22-46 | the severity selection has at most ten cells, each a qualifying input record above its P95 or P99 |
| GridUtils.SeverityRankingCompleteP99 | src/lib/gridUtils.ts:22-37 | a qualifying record above P99 that is left out means ten records above P99 were chosen, none with a smaller difference |
| GridUtils.SeverityRankingCompleteP95 | src/lib/gridUtils.ts:22-46 | a qualifying P95-only record that is left out means the ten places went to cells above P99 or with at least its P95 difference |
| GridUtils.GetTop10SeverityCells | src/lib/gridUtils.ts:22-47 | at most ten keys, no key twice, the key of every chosen cell present, and keys in the order of their first chosen cell (`new Set` keeps first-insertion order) |
| GridUtils.Top10SeverityCellsSound | src/lib/gridUtils.ts:22-47 | every returned key names an input record with all three statistics nonzero whose level is not Normal |
| GridUtils.Top10SeverityCellsInRankOrder | src/lib/gridUtils.ts:22-47 | when the chosen cells lie at distinct positions, the keys list them in selection order |
| GridBoundaries.GetCellBounds | src/lib/gridBoundaries.ts:32-44 | each box is one cell width wide and one cell height tall, cell (0, 0) starts at WEST and NORTH, and boxes of grid cells lie inside the bounding box |
| GridBoundaries.CellsTile | src/lib/gridBoundaries.ts:38-41 | neighbouring boxes share their edges, so the grid has no gaps or overlaps |
| GridBoundaries.GridEdges | src/lib/gridBoundaries.ts:14-23 | the last column ends exactly on EAST, but the rounded cell height leaves the last row 0.00001 degrees short of SOUTH |
| GridBoundaries.GetCellCenter | src/lib/gridBoundaries.ts:52-58 | the center is the midpoint of the cell's box and lies strictly inside it |
| GridBoundaries.CenterSeparable | src/lib/gridBoundaries.ts:52-58 | a center's latitude depends on the row alone and its longitude on the column alone |
| GridBoundaries.CenterMonotonic | src/lib/gridBoundaries.ts:52-58 | centers move strictly south with the row and strictly east with the column |
| GridBoundaries.CenterSteps | src/lib/gridBoundaries.ts:52-58 | adjacent centers are exactly one cell height or one cell width apart |
| GridBoundaries.CenterInBox | src/lib/gridBoundaries.ts:52-58 | every center of the 16 by 24 grid lies strictly inside the bounding box |
| GridBoundaries.GetGridCenter | src/lib/gridBoundaries.ts:63-68 | the grid center is equidistant from opposite edges of the bounding box |
| GridBoundaries.GridCenterOnMiddleEdge | src/lib/gridBoundaries.ts:63-68 | the grid center's longitude is the western edge of column 8 |
| TimeUtils.DateArgument | src/lib/timeUtils.ts:1-23 | the current time exactly for a missing or empty timestamp; a timestamp with a 'T' is parsed without its trailing 'Z' when it has one and unchanged otherwise; one without a 'T' is parsed with its first space turned into 'T' and nothing else changed |
| TimeUtils.ParseISTTimestamp | src/lib/timeUtils.ts:1-23 | a missing timestamp gives the current instant; otherwise the host parser reads the dispatched text |
| TimeUtils.IsoShape | src/lib/timeUtils.ts:6-12 | "date T time Z" reaches the parser with its trailing Z removed |
| TimeUtils.SpacedShape | src/lib/timeUtils.ts:15-18 | "date time" without a 'T' reaches the parser with its first space replaced by 'T' |
| TimeUtils.TimestampShapesAgree | src/lib/timeUtils.ts:1-23 | both server shapes of one moment parse to the same instant |
| TimeUtils.GetHoursAgo | src/lib/timeUtils.ts:25-42 | "Just now" exactly when under one whole minute has elapsed; every other text ends in " ago" |
| TimeUtils.HoursFromMinutes | src/lib/timeUtils.ts:27-34 | whole hours are whole minutes divided by 60, and the leftover minutes are the minutes modulo 60 |
| TimeUtils.MinutesAgo | src/lib/timeUtils.ts:31-32 | 1 to 59 minutes read "1 minute ago" or "N minutes ago" |
| TimeUtils.WholeHoursAgo | src/lib/timeUtils.ts:33-35 | whole hours under a day read "1 hour ago" or "N hours ago" |
| TimeUtils.HoursAndMinutesAgo | src/lib/timeUtils.ts:33-36 | hours with leftover minutes under a day read "Nh Mm ago" |
| TimeUtils.DaysAgo | src/lib/timeUtils.ts:39-41 | a day or more reads "1 day ago" or "N days ago" with the whole days elapsed |
| TimeFormat.TwoDigitsRoundTrip | src/lib/timeFormat.ts:93-96 | a number below 100 pads to exactly two digits that read back as that number |
| TimeFormat.FormatChartTime | src/lib/timeFormat.ts:92-99 | every field is padded to at least two digits, so the label has at least 11 characters |
| TimeFormat.ChartTimeLayout | src/lib/timeFormat.ts:92-99 | for calendar fields the label has 11 characters, "DD/MM HH:MM", with the month one more than the zero-based month |
| TimeFormat.ChartTimeInjective | src/lib/timeFormat.ts:92-99 | the label determines day, month, hour and minute |
| TimeFormat.PostProcess | src/lib/timeFormat.ts:36-44 | every slash becomes a dash and nothing else changes; with the time zone requested the result contains "IST" |
| TimeFormat.FormatDetailedTime | src/lib/timeFormat.ts:14-47 | the detailed format has no '/' and always contains "IST" |
| TimeFormat.FormatRangeTime | src/lib/timeFormat.ts:53-86 | the range format has no '/' and never grows, so " IST" is never appended |
| TimeFormat.PostProcessIdempotent | src/lib/timeFormat.ts:36-44 | post-processing formatted text again changes nothing |
| TimeFormat.DetailedAppendsOnlyWhenAbsent | src/lib/timeFormat.ts:41-44 | " IST" is appended exactly when the dashed text lacks "IST" |
| Validation.ValidateArray | src/lib/validation.ts:47-49 | an array validates iff every element does; the result is the element-wise decoding, and any failure is the one fixed message |
| Validation.ValidateCurrent | src/lib/validation.ts:61-68 | succeeds exactly on arrays of current records; fails with "Invalid current traffic data received from API" |
| Validation.ValidateHistorical | src/lib/validation.ts:74-81 | succeeds exactly on arrays of historical records; fails with its own fixed message |
| Validation.ValidateSustained | src/lib/validation.ts:87-94 | succeeds exactly on arrays of sustained records; fails with its own fixed message |
| Validation.ValidHistorical | src/lib/validation.ts:4-15 | an accepted record has x in [0, 14], y in [0, 20], non-negative counts and a `ts` key |
| Validation.ValidCurrent | src/lib/validation.ts:18-29 | an accepted current record is also an accepted historical record and carries numeric latest severity, P95 and P99 |
| Validation.ValidSustained | src/lib/validation.ts:32-44 | an accepted sustained record is in the grid ranges and carries numeric latest severity, P95 threshold and a `latest_ts` key |
| Validation.CurrentRecordInSchema | src/lib/validation.ts:18-29 | a validated current record has x an integer in [0, 14], y in [0, 20], non-negative integer counts and present non-negative statistics |
| Validation.HistoricalRecordInSchema | src/lib/validation.ts:4-15 | a validated historical record has the same ranges with optional statistics |
| Validation.SustainedRecordInSchema | src/lib/validation.ts:32-44 | a validated sustained record is in range and carries its latest severity and P95 threshold |
| Validation.ValidatedCurrentInSchema | src/lib/validation.ts:61-68 | every record of a successful current validation is in range |
| Validation.CurrentIsHistorical | src/lib/validation.ts:4-29 | data the current schema accepts, the historical schema accepts with the same result |
| Validation.EncodeRecord | src/lib/validation.ts:18-29 | the server's JSON object for a record carries each field under its own key |
| Validation.DecodeEncode | src/lib/validation.ts:18-29 | parsing the server's encoding of a record gives back that record |
| Validation.EncodeHistorical | src/lib/validation.ts:4-15 | the historical schema accepts an encoded record iff the record is in its ranges |
| Validation.EncodeCurrent | src/lib/validation.ts:18-29 | the current schema accepts an encoded record iff the record is in its ranges |
| Validation.ValidateEncoded | src/lib/validation.ts:47-68 | validating the encodings of in-range records returns exactly those records |
| Validation.ValidatedCellHasHistoryUrl | src/lib/constants.ts:28-46 | any validated record's cell, with any whitelisted window, yields a history URL |
| Validation.ValidatedCellOnMap | src/lib/gridBoundaries.ts:8-9 | the validated 15 by 21 cells lie inside the 16 by 24 map grid, short of its last column and last three rows |
| Constants.EncodeComponent | src/lib/constants.ts:45 | the encoding is never shorter than its input and holds only '%' and unreserved characters |
| Constants.EncodeUnreserved | src/lib/constants.ts:45 | text of unreserved characters is encoded unchanged |
| Constants.EncodedHasNoDelimiters | src/lib/constants.ts:45 | encoded text never contains '&', '=', '#' or '?' |
| Constants.BuildHistoryUrl | src/lib/constants.ts:28-46 | succeeds iff x is an integer in [0, 14], y an integer in [0, 20] and the duration whitelisted; checks run x, y, duration, and the first failure decides the error: an invalid x gives the x error, a valid x with an invalid y the y error, and valid coordinates with an unlisted duration the duration error |
| Constants.DurationsUnreserved | src/lib/constants.ts:13 | every whitelisted duration consists of unreserved characters |
| Constants.HistoryUrlVerbatim | src/lib/constants.ts:45 | for checked values the URL is the history prefix and the query with the values written verbatim |
| Constants.HistoryUrlRoundTrip | src/lib/constants.ts:28-46 | reading a built URL back gives exactly the cell and window it was built for |
| Constants.ThirtyDaysRejected | src/pages/History.tsx:20 | the "30d" window the history page offers is refused for every valid cell |
| ChartData.FindLine | src/components/chart/ChartDataProcessor.tsx:46 | a found line is one of the lines and has the requested key; nothing is found only when no line has it |
| ChartData.ToPoint | src/components/chart/ChartDataProcessor.tsx:13-25 | a point keeps the parsed instant and counts, its total is the bucket sum, and its severity is the given one when present (0 included), else the weighted sum |
| ChartData.ProcessChartData | src/components/chart/ChartDataProcessor.tsx:6-27 | one point per sample, in non-decreasing order of parsed instant |
| ChartData.ProcessChartDataSpec | src/components/chart/ChartDataProcessor.tsx:6-27 | the series is the image of a stable sort of the samples: a permutation, in instant order, equal instants in input order |
| ChartData.ZeroSeverityKept | src/components/chart/ChartDataProcessor.tsx:23-24 | a present latest severity of 0 is kept, not replaced by the weighted sum |
| ChartData.ShiftPreservesSeries | src/utils/timeUtils.ts:2-6 | shifting every parsed instant by a constant leaves the order of the series unchanged |
| ChartData.GetChartLines | src/components/chart/ChartDataProcessor.tsx:29-54 | "all" gives the five lines in legend order; any other key gives one line with that key, the total colour when the key is unknown |
| ChartData.ChartLinesSelectKnown | src/components/chart/ChartDataProcessor.tsx:46-53 | selecting a known line's key draws exactly that line |
| DailyAverage.Summarize | src/components/DailyAverageTraffic.tsx:26-34 | a day's average is within one half of the mean of its weighted severities, the lower end excluded (`Math.round`), and lies between its smallest and largest |
| DailyAverage.DayGroups | src/components/DailyAverageTraffic.tsx:10-23 | one group per distinct date, each holding exactly that date's samples, with group sizes summing to the input length |
| DailyAverage.DailyAverages | src/components/DailyAverageTraffic.tsx:10-35 | exactly the day summaries, one per day group with none lost or duplicated (a permutation), no more than samples, empty for empty input, sorted oldest first, with days of equal instant in their group order (stable) |
| DailyAverage.DailyAverageOfDay | src/components/DailyAverageTraffic.tsx:10-35 | every entry summarizes one day group, which holds exactly the samples of its date |
| History.ToSample | src/pages/History.tsx:302-313 | a sample carries the parsed instant, total = y + r + dr and severity = y + 2r + 3dr |
| History.Keep | src/pages/History.tsx:314-321 | a sample can be kept only when the hour range is not inverted and some day is selected |
| History.FilteredSamples | src/pages/History.tsx:314-322 | a permutation of exactly the samples whose hour is in the inclusive range and whose weekday is selected, in ascending instant order, with samples of equal instant in input order (stable) |
| History.FilteredComplete | src/pages/History.tsx:314-321 | a sample that passes the filter is in the series as many times as it is in the history |
| History.HourBuckets | src/pages/History.tsx:326-352 | one bucket per (date, hour) key, holding exactly that key's samples |
| History.HourlyAverages | src/pages/History.tsx:354-363 | a permutation of exactly one point per hour bucket, ascending by the start of the bucket's hour, with points of equal start in bucket order (stable) |
| History.HourlyAverageOfBucket | src/pages/History.tsx:326-363 | each averaged point is at its bucket's start of hour and holds the mean of each metric over exactly that bucket |
| History.BucketKeyDeterminesHour | src/pages/History.tsx:327-330 | samples sharing a bucket key share their local date and hour |
| History.ProcessedData | src/pages/History.tsx:299-367 | absent or empty history gives no points; without averaging the kept samples as they are; with averaging the hourly points; always in ascending time |
| History.DragValue | src/pages/History.tsx:197-198 | the dragged value lies within the slider's [min, max] and is `Math.round` of min plus the clamped fraction of the span: within one half of it, the lower end excluded |
| History.MoveHandle | src/pages/History.tsx:200-204 | the start handle never passes the end handle and never lands above the requested value; the end never falls below the start nor below the requested value; the other handle stays put |
| History.DragKeepsRange | src/pages/History.tsx:197-204 | a drag keeps an ordered range inside the slider's bounds |
| History.Without | src/pages/History.tsx:82-85 | every copy of the removed value is gone; every other value stays, as many times as before, and nothing new appears |
| History.Toggle | src/pages/History.tsx:64-70 | the toggled value's membership flips; an absent value is appended at the end |
| History.ToggleOthers | src/pages/History.tsx:64-70 | toggling leaves the membership of every other value unchanged |
| History.ToggleTwice | src/pages/History.tsx:64-70 | toggling an unselected value twice restores the selection |
| History.RemoveKeepsOthers | src/pages/History.tsx:82-85 | removing a value keeps every other value's membership |
| History.SelectAll | src/pages/History.tsx:72-75 | select-all yields every option key in option order |
| History.ClearAll | src/pages/History.tsx:77-80 | clear-all yields the empty selection |
| History.InitialSelectionKeepsAll | src/pages/History.tsx:278-279 | with all weekdays and hours 0 to 23 selected, every sample passes the filter |
| TrafficMapGrid.GetCellColor | src/components/TrafficMapGrid.tsx:25-94 | a missing cell is neutral (#f1f5f9 at 0.15); severity mode colours by the percentile level; a tile is drawn with the neutral fill exactly when it is entirely neutral |
| TrafficMapGrid.TrafficColorByLevel | src/components/TrafficMapGrid.tsx:63-93 | with non-negative counts the traffic-mode fill is the bucket level's colour: dark red, red, yellow, or neutral for no incidents |
| TrafficMapGrid.Top10OnlyRaisesOpacity | src/components/TrafficMapGrid.tsx:45-93 | being a top-10 cell never changes the fill, raises a coloured tile's opacity by 0.1, and leaves neutral tiles as they are |
| TrafficMapGrid.DataMap | src/components/TrafficMapGrid.tsx:107-113 | every record's cell key has an entry, and each entry is a record of the input stored under its own key |
| TrafficMapGrid.LastByKey | src/components/TrafficMapGrid.tsx:107-113 | the map has an entry for every item's key, and each entry is an item of the input stored under its own key |
| TrafficMapGrid.LastByKeyWins | src/components/TrafficMapGrid.tsx:107-113 | a key's entry is the last record with that key |
| TrafficMapGrid.LastByKeyAbsent | src/components/TrafficMapGrid.tsx:107-113 | a key no record has is absent from the map |
| TrafficMapGrid.RankBadge | src/components/TrafficMapGrid.tsx:269 | a selected key's badge is its 1-based place in the selection, so the selection at that place is the key |
| TrafficMapGrid.RankBadgeInjective | src/components/TrafficMapGrid.tsx:269 | different selected keys get different badges |
| TrafficMapGrid.RenderTile | src/components/TrafficMapGrid.tsx:197-205 | a tile is ranked iff highlighting is on and its key is selected, and is coloured from the record under its key with that top-10 flag |
| TrafficMapGrid.RenderGrid | src/components/TrafficMapGrid.tsx:194-205 | one tile per grid cell, all on the grid, every badge within the selection's length |
| TrafficMapGrid.SelectTop10 | src/components/FullTrafficGrid.tsx:35-40 | the selection given to the map has at most ten distinct keys and is empty when highlighting is off |
| TrafficMapGrid.TileAt | src/components/TrafficMapGrid.tsx:195-205 | cell (x, y) is drawn at row-major position y * COLS + x |
| TrafficMapGrid.AbsentCellNeutral | src/components/TrafficMapGrid.tsx:33-38 | a grid cell no record names is drawn neutral, whatever its rank |
| TrafficMapGrid.PresentCellColor | src/components/TrafficMapGrid.tsx:107-113 | a grid cell is coloured from the last record that names it |
| TrafficMapGrid.RanksDistinct | src/components/TrafficMapGrid.tsx:268-269 | no two tiles show the same rank badge |
| GridCell.GetSeverity | src/components/GridCell.tsx:16-24 | a missing cell is Normal; otherwise the most severe bucket with a positive count, Normal when none |
| GridCell.SeverityMatchesTrafficLevel | src/components/GridCell.tsx:16-24 | with non-negative counts the button class is the bucket level: dark red for Critical, red for High, yellow for Medium, Normal for Normal |
| GridCell.GetSeverityStyles | src/components/GridCell.tsx:26-39 | the muted styles are used exactly for Normal |
| GridCell.GetSeverityLevelStyles | src/components/GridCell.tsx:41-50 | the muted styles are used exactly for the Normal level |
| GridCell.SeverityStylesInjective | src/components/GridCell.tsx:26-39 | different classes get different styles |
| GridCell.Title | src/components/GridCell.tsx:65-84 | the title starts with "Grid [col, row]" and is just that for a missing cell |
| GridCell.Top10TitleMarked | src/components/GridCell.tsx:72-83 | a present top-10 cell's title ends with " - TOP 10!" |
| GridCell.FlaggedIffTinted | src/components/GridCell.tsx:67-81 | a cell's class in the current mode is not Normal exactly when it is drawn with tinted styles |
| GridCell.RenderCell | src/components/GridCell.tsx:61-111 | a top-10 cell is always highlighted and has a ring and its rank badge; any other cell is highlighted exactly when its styles are tinted |
| GridCell.HighlightMatchesMapColor | src/components/GridCell.tsx:67-85 | with non-negative counts a button is highlighted exactly when it is a top-10 cell or the map paints the same cell with a colour |
| StatsBar.GetStats | src/components/StatsBar.tsx:13-26 | the total is the number of cells; severity-mode counts sum to it; in traffic mode the three counts and the cells none counts sum to it |
| StatsBar.SeverityStatsByDifferences | src/components/StatsBar.tsx:17-18 | the high count is the cells with a positive P99 difference and the moderate count those with only a positive P95 difference |
| StatsBar.TrafficStatsByLevel | src/components/StatsBar.tsx:22-25 | with non-negative counts the traffic figures count the Critical, High and Medium cells, and the rest are exactly the cells with no incidents |
| Sorting.SortByCorrect | src/components/chart/ChartDataProcessor.tsx:7-11 | the stable sort returns a permutation of its input, sorted by key, with equal keys in input order |
| Grouping.GroupBy | src/components/DailyAverageTraffic.tsx:10-23 | groups with distinct keys, each non-empty and holding exactly the items with its key in input order; every item's key has a group and the sizes sum to the input length |
| Seqs.MeanBounds | src/components/DailyAverageTraffic.tsx:33 | the mean of a non-empty list lies between any lower and upper bound of its elements |
| Seqs.Dedup | src/lib/gridUtils.ts:55 | `Array.from(new Set(s))` holds each value of s exactly once, nothing else, in the order of first occurrences in s |

## Left out

- Rendering is not modelled: JSX, class-name joining, Leaflet map setup and layers, recharts, and the header, legend, info, tooltip, chart-config and duration-selector components. These lay out values the model computes and decide nothing.
- Network fetching, react-query caching and the mock data page are not modelled.
- JavaScript `Date` and `Intl` are parameters, not models: string parsing, local hour, weekday, date strings, start of hour and `toLocaleString`. The catch branch of `parseISTTimestamp` is left out because `new Date` returns an Invalid Date rather than throwing.
- Floating point is not modelled. Coordinates and statistics are exact reals, and counts are integers. Number printing inside hover titles is a given function.
- `getGoogleMapsUrl` is left out; it prints reals as decimal text.
- `src/lib/coordinateUtils.ts`, `src/utils/coordinateUtils.ts` (trigonometry) and `src/lib/useRowHeight.ts` (a resize observer) are not part of this model.
- `src/utils/timeUtils.ts` is modelled only as a constant shift of the parser (ChartData.ShiftPreservesSeries).
- The `chartData` of `HistoricalChart.tsx` duplicates `processChartData` and is not modelled.
- Zod's internals are not modelled, including unknown-key stripping. A JSON number is a real, and `Number.isInteger` is the floor test on it.
- The error text of `buildHistoryUrl` is reduced to which check failed and the offending value.
- The slider's pixel geometry is reduced to a fraction of the track in [0, 1].
- The click handlers of the grid, the cells and the multi-select are not modelled.
- `GridCell.tsx` imports `calculateSeverityLevel` from `src/utils/trafficUtils`, which is not part of this model; the model uses the one in `src/lib/trafficUtils.ts`.
- ChartData.ToPoint: `ChartDataProcessor.tsx` imports `calculateTotalTraffic` from `src/utils/trafficUtils`, which is not part of this model; the model uses the one in `src/lib/trafficUtils.ts`.
- The `console.error` logging of the three validators is not modelled; it is output only and does not change the result.
- Strings are sequences of Unicode scalar values, so JavaScript strings holding lone surrogates are not modelled.
- Sorting.SortByCorrect: the key order is over exact reals, so `NaN` keys produced by Invalid Dates are not modelled.
- GridUtils.GetTop10TrafficCells and GridUtils.GetTop10SeverityCells: the `Set` is a duplicate-free list in insertion order; only the operations the dashboard uses (membership, order of iteration) are modelled.

=== FILE: calendar.dfy ===
/** The host's date functions the history views depend on, given as
    parameters rather than modelled: how a timestamp text parses, and the
    local-time calendar fields of an instant in milliseconds. A view's
    instant of a record is `parseISTTimestamp` of src/lib/timeUtils.ts applied
    with this calendar's clock and parser. */
module HostCalendar {
  import opened Wrappers
  import TimeUtils

  /** `Date.prototype.getHours`. */
  type Hour = h: int | 0 <= h < 24

  /** `Date.prototype.getDay`, 0 for Sunday. */
  type Weekday = d: int | 0 <= d < 7

  datatype Calendar = Calendar(
    now: int,                    // `Date.now()` while the view computes
    parse: string -> int,        // the host's `new Date(text).getTime()`
    hourOf: int -> Hour,         // `getHours` of an instant
    weekdayOf: int -> Weekday,   // `getDay` of an instant
    dateString: int -> string,   // `toDateString` of an instant
    hourStart: int -> int,       // the instant after `setMinutes(0, 0, 0)`
    dateTime: string -> int,     // `new Date(dateString).getTime()`
    dateLabel: string -> string) // `toLocaleDateString("en-US", …)` of a date string

  /** The instant a view assigns to a record's timestamp. */
  function Instant(cal: Calendar, ts: Option<string>): int {
    TimeUtils.ParseISTTimestamp(ts, cal.now, cal.parse)
  }
}

=== FILE: chart_data.dfy ===
/** The chart series of src/components/chart/ChartDataProcessor.tsx: the
    samples of one cell, stably sorted by their parsed timestamp, each turned
    into a chart point with its total and its severity; and the line set a
    metric selection draws. The timestamp parser is a given function from the
    record's timestamp text to an instant in milliseconds. */
module ChartData {
  import opened Wrappers
  import opened Seqs
  import opened Sorting
  import opened Traffic
  import opened TrafficUtils

  /** One point of the chart series. */
  datatype ChartPoint = ChartPoint(
    timestamp: int,
    yellow: int,
    red: int,
    darkRed: int,
    total: int,
    latestSeverity: real)

  /** The sort key: the parsed instant of a sample. */
  function TimeKey(instant: Option<string> -> int): TrafficData -> real {
    (c: TrafficData) => instant(c.ts) as real
  }

  /** The per-point record: the parsed instant, the counts, their total, and
      the latest severity, which `??` keeps whenever it is present (0
      included), falling back to the weighted severity of the counts. */
  function ToPoint(c: TrafficData, instant: Option<string> -> int): (p: ChartPoint)
    ensures p.timestamp == instant(c.ts)
    ensures p.yellow == c.yellow && p.red == c.red && p.darkRed == c.darkRed
    ensures p.total == CalculateTotalTraffic(c)
    ensures c.latestSeverity.Some? ==> p.latestSeverity == c.latestSeverity.value
    ensures c.latestSeverity.None? ==> p.latestSeverity == WeightedSeverity(c) as real
  {
    ChartPoint(
      instant(c.ts), c.yellow, c.red, c.darkRed, CalculateTotalTraffic(c),
      c.latestSeverity.GetOr(WeightedSeverity(c) as real))
  }

  /** `processChartData`: sorts a copy of the samples by parsed instant (the
      input sequence is a value and so is never changed) and maps each sample
      to its point. */
  function ProcessChartData(data: seq<TrafficData>, instant: Option<string> -> int): (r: seq<ChartPoint>)
    ensures |r| == |data|
    ensures forall i, j :: 0 <= i < j < |r| ==> r[i].timestamp <= r[j].timestamp
  {
    var sorted := SortBy(data, TimeKey(instant), Ascending);
    SortByCorrect(data, TimeKey(instant), Ascending);
    Map(sorted, (c: TrafficData) => ToPoint(c, instant))
  }

  /** A stable sort of data by key: a permutation in key order in which the
      elements of every key class keep their input order. */
  ghost predicate StableSortOf<T>(sorted: seq<T>, data: seq<T>, key: T -> real, dir: Direction) {
    && multiset(sorted) == multiset(data)
    && Sorted(sorted, key, dir)
    && forall k :: KeyClass(sorted, key, k) == KeyClass(data, key, k)
  }

  /** The series is the point-by-point image of a stable sort of the samples
      by parsed instant: every sample appears once, and samples with equal
      instants keep their input order. */
  lemma ProcessChartDataSpec(data: seq<TrafficData>, instant: Option<string> -> int)
    ensures exists sorted ::
      && StableSortOf(sorted, data, TimeKey(instant), Ascending)
      && |sorted| == |ProcessChartData(data, instant)|
      && forall i :: 0 <= i < |sorted| ==> ProcessChartData(data, instant)[i] == ToPoint(sorted[i], instant)
  {
    var sorted := SortBy(data, TimeKey(instant), Ascending);
    SortByCorrect(data, TimeKey(instant), Ascending);
    assert StableSortOf(sorted, data, TimeKey(instant), Ascending);
  }

  /** A present latest severity of 0 is kept: `??` is not `||`. */
  lemma ZeroSeverityKept(c: TrafficData, instant: Option<string> -> int)
    requires c.latestSeverity == Some(0.0)
    ensures ToPoint(c, instant).latestSeverity == 0.0
  {
  }

  /** A parser that reads every timestamp a fixed amount earlier, as the
      parser this chart uses does with its 5.5-hour IST offset. */
  function Shifted(instant: Option<string> -> int, shift: int): Option<string> -> int {
    (t: Option<string>) => instant(t) - shift
  }

  /** A constant shift of the parser does not change the order of the series:
      point i is the same sample, only with its instant shifted. */
  lemma ShiftPreservesSeries(data: seq<TrafficData>, instant: Option<string> -> int, shift: int)
    ensures var r1, r2 := ProcessChartData(data, instant), ProcessChartData(data, Shifted(instant, shift));
      forall i :: 0 <= i < |r1| ==> r2[i] == r1[i].(timestamp := r1[i].timestamp - shift)
  {
    var k1, k2 := TimeKey(instant), TimeKey(Shifted(instant, shift));
    assert SameOrder(k1, k2) by {
      forall a, b ensures k1(a) <= k1(b) <==> k2(a) <= k2(b) {
        assert k2(a) == k1(a) - shift as real && k2(b) == k1(b) - shift as real;
      }
    }
    SortBySameOrder(data, k1, k2, Ascending);
  }

  /** A line of the chart: the point field it draws, its colour and its
      legend name. */
  datatype ChartLine = ChartLine(dataKey: string, stroke: string, name: string)

  const TotalColor: string := "hsl(var(--foreground))"

  /** The five lines, in legend order. */
  const AllLines: seq<ChartLine> := [
    ChartLine("yellow", "hsl(var(--traffic-yellow))", "Yellow"),
    ChartLine("red", "hsl(var(--traffic-red))", "Red"),
    ChartLine("dark_red", "hsl(var(--traffic-dark-red))", "Dark Red"),
    ChartLine("total", TotalColor, "Total"),
    ChartLine("latest_severity", "#8b5cf6", "Latest Severity")]

  /** `Array.prototype.find` by data key. */
  function FindLine(lines: seq<ChartLine>, key: string): (r: Option<ChartLine>)
    ensures r.Some? ==> r.value in lines && r.value.dataKey == key
    ensures r.None? ==> forall i :: 0 <= i < |lines| ==> lines[i].dataKey != key
  {
    if |lines| == 0 then None
    else if lines[0].dataKey == key then Some(lines[0])
    else FindLine(lines[1..], key)
  }

  /** `getChartLines`: all five lines for "all"; otherwise the one line with
      that data key, or, for a key no line has, a line named after it in the
      total colour. */
  function GetChartLines(selected: string): (r: seq<ChartLine>)
    ensures selected == "all" ==> r == AllLines
    ensures selected != "all" ==> |r| == 1 && r[0].dataKey == selected
    ensures selected != "all" && (forall i :: 0 <= i < |AllLines| ==> AllLines[i].dataKey != selected) ==>
      r == [ChartLine(selected, TotalColor, selected)]
  {
    if selected == "all" then AllLines
    else
      var line := FindLine(AllLines, selected);
      if line.Some? then [line.value] else [ChartLine(selected, TotalColor, selected)]
  }

  /** Selecting the data key of any of the five lines draws exactly that line. */
  lemma ChartLinesSelectKnown(i: nat)
    requires i < |AllLines|
    ensures GetChartLines(AllLines[i].dataKey) == [AllLines[i]]
  {
  }
}

=== FILE: constants.dfy ===
/** The API endpoints of src/lib/constants.ts and the guarded construction of
    the history URL: the column must be an integer in [0, 14], the row an
    integer in [0, 20] and the duration one of the whitelisted options, checked
    in that order; each query value is then percent-encoded as
    `encodeURIComponent` does. */
module Constants {
  import opened Wrappers
  import opened Strings

  const ApiBase: string := "https://traffic-worker.mangalaman93.workers.dev"
  const CurrentEndpoint: string := ApiBase + "/current"
  const SustainedEndpoint: string := ApiBase + "/sustained"
  const HistoryPrefix: string := ApiBase + "/history?"

  /** `DURATION_OPTIONS`, the whitelist of history windows. */
  const DurationOptions: seq<string> := ["1h", "6h", "12h", "24h", "3d", "7d", "14d"]

  /** Why `buildHistoryUrl` throws; the first failing check wins. */
  datatype UrlError = InvalidX(x: real) | InvalidY(y: real) | InvalidDuration(duration: string)

  /** The parameters a history URL carries. */
  datatype HistoryQuery = HistoryQuery(x: int, y: int, duration: string)

  /** `Number.isInteger` of a finite number. */
  predicate IsInteger(n: real) {
    n.Floor as real == n
  }

  /** The characters `encodeURIComponent` leaves alone. */
  predicate Unreserved(c: char) {
    ('A' <= c <= 'Z') || ('a' <= c <= 'z') || ('0' <= c <= '9') || c in "-_.!~*'()"
  }

  function HexDigit(d: nat): (c: char)
    requires d < 16
    ensures Unreserved(c)
  {
    "0123456789ABCDEF"[d]
  }

  /** "%XX" for one byte. */
  function PercentByte(b: nat): (r: string)
    requires b < 256
    ensures |r| == 3 && r[0] == '%' && Unreserved(r[1]) && Unreserved(r[2])
  {
    ['%', HexDigit(b / 16), HexDigit(b % 16)]
  }

  /** The UTF-8 bytes of a Unicode scalar value. */
  function Utf8(n: nat): (bytes: seq<nat>)
    requires n < 0x11_0000
    ensures 1 <= |bytes| <= 4
    ensures forall i :: 0 <= i < |bytes| ==> bytes[i] < 256
  {
    if n < 0x80 then [n]
    else if n < 0x800 then [0xC0 + n / 0x40, 0x80 + n % 0x40]
    else if n < 0x1_0000 then [0xE0 + n / 0x1000, 0x80 + (n / 0x40) % 0x40, 0x80 + n % 0x40]
    else [0xF0 + n / 0x4_0000, 0x80 + (n / 0x1000) % 0x40, 0x80 + (n / 0x40) % 0x40, 0x80 + n % 0x40]
  }

  function PercentBytes(bytes: seq<nat>): (r: string)
    requires forall i :: 0 <= i < |bytes| ==> bytes[i] < 256
    ensures |r| == 3 * |bytes|
    ensures forall i :: 0 <= i < |r| ==> r[i] == '%' || Unreserved(r[i])
  {
    if |bytes| == 0 then [] else PercentByte(bytes[0]) + PercentBytes(bytes[1..])
  }

  /** The encoding of one character: itself when unreserved, otherwise the
      percent-encoded bytes of its UTF-8 form. */
  function EncodeChar(c: char): (r: string)
    ensures |r| >= 1
    ensures Unreserved(c) ==> r == [c]
    ensures forall i :: 0 <= i < |r| ==> r[i] == '%' || Unreserved(r[i])
  {
    if Unreserved(c) then [c] else PercentBytes(Utf8(c as int))
  }

  /** `encodeURIComponent`. */
  function EncodeComponent(s: string): (r: string)
    ensures |r| >= |s|
    ensures forall i :: 0 <= i < |r| ==> r[i] == '%' || Unreserved(r[i])
  {
    if |s| == 0 then "" else EncodeChar(s[0]) + EncodeComponent(s[1..])
  }

  /** Encoding leaves text of unreserved characters unchanged. */
  lemma {:induction false} EncodeUnreserved(s: string)
    requires forall i :: 0 <= i < |s| ==> Unreserved(s[i])
    ensures EncodeComponent(s) == s
  {
    if |s| > 0 {
      EncodeUnreserved(s[1..]);
    }
  }

  /** A character that is neither '%' nor unreserved never appears in
      encoded text. */
  lemma NotInEncoded(s: string, c: char)
    requires c != '%' && !Unreserved(c)
    ensures c !in EncodeComponent(s)
  {
    var r := EncodeComponent(s);
    forall i | 0 <= i < |r| ensures r[i] != c {
    }
  }

  /** Encoded text cannot contain the URL's own delimiters, so a query value
      never spills into the next parameter. */
  lemma EncodedHasNoDelimiters(s: string)
    ensures '&' !in EncodeComponent(s) && '=' !in EncodeComponent(s)
    ensures '#' !in EncodeComponent(s) && '?' !in EncodeComponent(s)
  {
    NotInEncoded(s, '&');
    NotInEncoded(s, '=');
    NotInEncoded(s, '#');
    NotInEncoded(s, '?');
  }

  /** The query of a history URL from the text of its three values. */
  function QueryText(xs: string, ys: string, d: string): string {
    ("x=" + xs) + ['&'] + (("y=" + ys) + ['&'] + ("duration=" + d))
  }

  /** The URL text for already-checked parameters. */
  function HistoryUrl(x: int, y: int, duration: string): string {
    HistoryPrefix + QueryText(EncodeComponent(IntToString(x)), EncodeComponent(IntToString(y)), EncodeComponent(duration))
  }

  /** `buildHistoryUrl`. */
  function BuildHistoryUrl(x: real, y: real, duration: string): (r: Result<string, UrlError>)
    ensures r.Success? <==>
      IsInteger(x) && 0.0 <= x <= 14.0 && IsInteger(y) && 0.0 <= y <= 20.0 && duration in DurationOptions
    ensures !(IsInteger(x) && 0.0 <= x <= 14.0) ==> r == Failure(InvalidX(x))
    ensures IsInteger(x) && 0.0 <= x <= 14.0 && !(IsInteger(y) && 0.0 <= y <= 20.0) ==> r == Failure(InvalidY(y))
    ensures r.Failure? && r.error.InvalidDuration? ==> duration !in DurationOptions
    ensures IsInteger(x) && 0.0 <= x <= 14.0 && IsInteger(y) && 0.0 <= y <= 20.0 && duration !in DurationOptions ==>
      r == Failure(InvalidDuration(duration))
  {
    if !IsInteger(x) || x < 0.0 || x > 14.0 then Failure(InvalidX(x))
    else if !IsInteger(y) || y < 0.0 || y > 20.0 then Failure(InvalidY(y))
    else if duration !in DurationOptions then Failure(InvalidDuration(duration))
    else Success(HistoryUrl(x.Floor, y.Floor, duration))
  }

  /** Every whitelisted duration is made of letters and digits. */
  lemma DurationsUnreserved(d: string)
    requires d in DurationOptions
    ensures forall i :: 0 <= i < |d| ==> Unreserved(d[i])
  {
  }

  /** The checked values need no escaping: the URL carries them verbatim. */
  lemma HistoryUrlVerbatim(x: nat, y: nat, duration: string)
    requires duration in DurationOptions
    ensures HistoryUrl(x, y, duration) == HistoryPrefix + QueryText(IntToString(x), IntToString(y), duration)
  {
    EncodeUnreserved(IntToString(x));
    EncodeUnreserved(IntToString(y));
    DurationsUnreserved(duration);
    EncodeUnreserved(duration);
  }

  /** Reads the parameters back out of the query of a history URL. */
  function ParseQuery(query: string): Option<HistoryQuery> {
    var parts := Split(query, '&');
    if |parts| != 3 then None
    else if |parts[0]| < 2 || parts[0][..2] != "x=" then None
    else if |parts[1]| < 2 || parts[1][..2] != "y=" then None
    else if |parts[2]| < 9 || parts[2][..9] != "duration=" then None
    else
      var x, y := Strings.NumberOf(parts[0][2..]), Strings.NumberOf(parts[1][2..]);
      if x.None? || y.None? then None
      else Some(HistoryQuery(x.value, y.value, parts[2][9..]))
  }

  /** Reads the parameters back out of a history URL. */
  function ParseHistoryUrl(url: string): Option<HistoryQuery> {
    if |url| < |HistoryPrefix| || url[..|HistoryPrefix|] != HistoryPrefix then None
    else ParseQuery(url[|HistoryPrefix|..])
  }

  lemma ParsePrefixed(p: string, query: string)
    requires p == HistoryPrefix
    ensures ParseHistoryUrl(p + query) == ParseQuery(query)
  {
    assert (p + query)[..|p|] == p;
    assert (p + query)[|p|..] == query;
  }

  /** Prefixing a parameter name keeps a text free of '&'. */
  lemma NamedWithoutAmpersand(name: string, v: string)
    requires '&' !in name && '&' !in v
    ensures '&' !in name + v
  {
  }

  /** Three '&'-free pieces joined by '&' split back into those pieces. */
  lemma SplitThree(a: string, b: string, c: string)
    requires '&' !in a && '&' !in b && '&' !in c
    ensures Split(a + ['&'] + (b + ['&'] + c), '&') == [a, b, c]
  {
    SplitAfterPiece(a, '&', b + ['&'] + c);
    SplitAfterPiece(b, '&', c);
    SplitWithoutSeparator(c, '&');
  }

  lemma ParseQueryOf(xs: string, ys: string, d: string, x: int, y: int)
    requires Strings.NumberOf(xs) == Some(x) && Strings.NumberOf(ys) == Some(y)
    requires '&' !in xs && '&' !in ys && '&' !in d
    ensures ParseQuery(QueryText(xs, ys, d)) == Some(HistoryQuery(x, y, d))
  {
    var a, b, c := "x=" + xs, "y=" + ys, "duration=" + d;
    NamedWithoutAmpersand("x=", xs);
    NamedWithoutAmpersand("y=", ys);
    NamedWithoutAmpersand("duration=", d);
    SplitThree(a, b, c);
    assert a[..2] == "x=" && a[2..] == xs;
    assert b[..2] == "y=" && b[2..] == ys;
    assert c[..9] == "duration=" && c[9..] == d;
  }

  /** A built URL names exactly the cell and window it was built for. */
  lemma HistoryUrlRoundTrip(x: real, y: real, duration: string)
    requires BuildHistoryUrl(x, y, duration).Success?
    ensures ParseHistoryUrl(BuildHistoryUrl(x, y, duration).value) == Some(HistoryQuery(x.Floor, y.Floor, duration))
  {
    var xs, ys := IntToString(x.Floor), IntToString(y.Floor);
    HistoryUrlVerbatim(x.Floor, y.Floor, duration);
    var query := QueryText(xs, ys, duration);
    assert BuildHistoryUrl(x, y, duration).value == HistoryPrefix + query;
    ParsePrefixed(HistoryPrefix, query);
    NumberOfIntToString(x.Floor);
    NumberOfIntToString(y.Floor);
    DurationsUnreserved(duration);
    ParseQueryOf(xs, ys, duration, x.Floor, y.Floor);
  }

  /** The history view offers a "30d" window that is not on the whitelist. */
  lemma ThirtyDaysRejected(x: real, y: real)
    requires IsInteger(x) && 0.0 <= x <= 14.0 && IsInteger(y) && 0.0 <= y <= 20.0
    ensures BuildHistoryUrl(x, y, "30d") == Failure(InvalidDuration("30d"))
  {
  }
}

=== FILE: daily_average.dfy ===
/** The day summary of src/components/DailyAverageTraffic.tsx: the samples
    are grouped by the date of their instant, each day's weighted severities
    are averaged and rounded, and the days are listed oldest first. */
module DailyAverage {
  import opened Seqs
  import opened Sorting
  import opened Grouping
  import opened Traffic
  import opened HostCalendar

  /** One day of the summary: its label, the instant its date string parses
      to, and the rounded mean severity of its samples. */
  datatype DayAverage = DayAverage(date: string, time: int, average: int)

  /** The grouping key: the date string of a sample's instant. */
  function DayKey(cal: Calendar): TrafficData -> string {
    (c: TrafficData) => cal.dateString(Instant(cal, c.ts))
  }

  /** The severity a sample contributes, always recomputed from the counts;
      a latest severity the record carries is ignored. */
  function SampleSeverity(c: TrafficData): int {
    WeightedSeverity(c)
  }

  function Severities(items: seq<TrafficData>): (r: seq<real>)
    ensures |r| == |items|
    ensures forall i :: 0 <= i < |items| ==> r[i] == SampleSeverity(items[i]) as real
  {
    if |items| == 0 then [] else [SampleSeverity(items[0]) as real] + Severities(items[1..])
  }

  /** The smallest and largest severity of a day's samples. */
  function MinSeverity(items: seq<TrafficData>): (m: int)
    requires |items| > 0
    ensures exists i :: 0 <= i < |items| && SampleSeverity(items[i]) == m
    ensures forall i :: 0 <= i < |items| ==> m <= SampleSeverity(items[i])
  {
    if |items| == 1 then SampleSeverity(items[0])
    else
      var rest := MinSeverity(items[1..]);
      if SampleSeverity(items[0]) <= rest then SampleSeverity(items[0])
      else
        assert forall i :: 1 <= i < |items| ==> items[i] == items[1..][i - 1];
        rest
  }

  function MaxSeverity(items: seq<TrafficData>): (m: int)
    requires |items| > 0
    ensures exists i :: 0 <= i < |items| && SampleSeverity(items[i]) == m
    ensures forall i :: 0 <= i < |items| ==> SampleSeverity(items[i]) <= m
  {
    if |items| == 1 then SampleSeverity(items[0])
    else
      var rest := MaxSeverity(items[1..]);
      if SampleSeverity(items[0]) >= rest then SampleSeverity(items[0])
      else
        assert forall i :: 1 <= i < |items| ==> items[i] == items[1..][i - 1];
        rest
  }

  /** One day's entry: `Math.round(total / count)` of its severities. */
  function Summarize(g: Group<string, TrafficData>, cal: Calendar): (d: DayAverage)
    requires |g.items| > 0
    ensures d.date == cal.dateLabel(g.key) && d.time == cal.dateTime(g.key)
    ensures MinSeverity(g.items) <= d.average <= MaxSeverity(g.items)
    ensures Mean(Severities(g.items)) - 0.5 < d.average as real <= Mean(Severities(g.items)) + 0.5
  {
    var sev := Severities(g.items);
    MeanBounds(sev, MinSeverity(g.items) as real, MaxSeverity(g.items) as real);
    RoundBetween(Mean(sev), MinSeverity(g.items), MaxSeverity(g.items));
    DayAverage(cal.dateLabel(g.key), cal.dateTime(g.key), Round(Mean(sev)))
  }

  function Summaries(gs: seq<Group<string, TrafficData>>, cal: Calendar): (r: seq<DayAverage>)
    requires forall i :: 0 <= i < |gs| ==> |gs[i].items| > 0
    ensures |r| == |gs|
    ensures forall i :: 0 <= i < |gs| ==> r[i] == Summarize(gs[i], cal)
  {
    if |gs| == 0 then [] else [Summarize(gs[0], cal)] + Summaries(gs[1..], cal)
  }

  /** The sort key of a day: the instant of its date. */
  function DayTime(d: DayAverage): real {
    d.time as real
  }

  /** The reduce into per-day groups. */
  function DayGroups(data: seq<TrafficData>, cal: Calendar): (gs: seq<Group<string, TrafficData>>)
    ensures GroupsOf(gs, data, DayKey(cal))
    ensures SumSizes(gs) == |data|
  {
    GroupBy(data, DayKey(cal))
  }

  /** The summary: one entry per day, sorted by date, oldest first. */
  function DailyAverages(data: seq<TrafficData>, cal: Calendar): (r: seq<DayAverage>)
    ensures |r| == |DayGroups(data, cal)| <= |data|
    ensures multiset(r) == multiset(Summaries(DayGroups(data, cal), cal))
    ensures |data| == 0 ==> r == []
    ensures forall i, j :: 0 <= i < j < |r| ==> r[i].time <= r[j].time
    ensures forall k :: KeyClass(r, DayTime, k) == KeyClass(Summaries(DayGroups(data, cal), cal), DayTime, k)
  {
    var gs := DayGroups(data, cal);
    SizesBound(gs);
    var days := Summaries(gs, cal);
    SortByCorrect(days, DayTime, Ascending);
    SortBy(days, DayTime, Ascending)
  }

  /** Non-empty groups are no more numerous than their items. */
  lemma {:induction false} SizesBound<K, T>(gs: seq<Group<K, T>>)
    requires forall i :: 0 <= i < |gs| ==> |gs[i].items| > 0
    ensures |gs| <= SumSizes(gs)
  {
    if |gs| > 0 {
      SizesBound(gs[1..]);
    }
  }

  /** Every entry of the summary is the summary of one of the day groups:
      its average is the rounded mean of exactly the samples of one date,
      and lies between their smallest and largest severity. */
  lemma DailyAverageOfDay(data: seq<TrafficData>, cal: Calendar, i: nat)
    requires i < |DailyAverages(data, cal)|
    ensures exists j ::
      && 0 <= j < |DayGroups(data, cal)|
      && DailyAverages(data, cal)[i] == Summarize(DayGroups(data, cal)[j], cal)
      && DayGroups(data, cal)[j].items == ItemsWithKey(data, DayKey(cal), DayGroups(data, cal)[j].key)
  {
    var gs := DayGroups(data, cal);
    var days := Summaries(gs, cal);
    assert DailyAverages(data, cal) == SortBy(days, DayTime, Ascending);
    SortByElement(days, DayTime, Ascending, i);
    var j :| 0 <= j < |days| && SortBy(days, DayTime, Ascending)[i] == days[j];
    assert days[j] == Summarize(gs[j], cal);
    assert gs[j].items == ItemsWithKey(data, DayKey(cal), gs[j].key);
  }
}

=== FILE: grid_boundaries.dfy ===
/** The geographic layout of the 24-row by 16-column map grid
    (src/lib/gridBoundaries.ts): the bounding box, the cell size in degrees,
    and the affine maps from a cell's column x and row y to its latitude and
    longitude box and its center. Arithmetic is over exact reals. Row 0 is the
    northern edge and column 0 the western one. */
module GridBoundaries {
  const Rows: int := 24
  const Cols: int := 16

  const North: real := 26.99
  const South: real := 26.752846
  const West: real := 75.65
  const East: real := 75.94032

  const CellWidth: real := 0.018145
  const CellHeight: real := 0.009881

  datatype CellBounds = CellBounds(north: real, south: real, west: real, east: real)

  datatype LatLng = LatLng(lat: real, lng: real)

  /** Column x and row y name a cell of the map grid. */
  predicate InGrid(x: int, y: int) {
    0 <= x < Cols && 0 <= y < Rows
  }

  /** `getCellBounds`: the cell's western edge lies x cell widths east of WEST,
      its northern edge y cell heights south of NORTH. */
  function GetCellBounds(x: int, y: int): (b: CellBounds)
    ensures b.east - b.west == CellWidth
    ensures b.north - b.south == CellHeight
    ensures x == 0 ==> b.west == West
    ensures y == 0 ==> b.north == North
    ensures InGrid(x, y) ==> West <= b.west < b.east <= East
    ensures InGrid(x, y) ==> South <= b.south < b.north <= North
  {
    var west := West + (x as real) * CellWidth;
    var east := west + CellWidth;
    var north := North - (y as real) * CellHeight;
    var south := north - CellHeight;
    CellBounds(north, south, west, east)
  }

  /** Neighbouring cells share their edges: the grid is tiled without gaps or
      overlaps, columns share their latitudes and rows their longitudes. */
  lemma CellsTile(x: int, y: int)
    ensures GetCellBounds(x, y).east == GetCellBounds(x + 1, y).west
    ensures GetCellBounds(x, y).south == GetCellBounds(x, y + 1).north
    ensures GetCellBounds(x, y).north == GetCellBounds(x + 1, y).north
    ensures GetCellBounds(x, y).west == GetCellBounds(x, y + 1).west
  {
  }

  /** The last column ends exactly on EAST, but the rounded cell height makes
      the last row end 0.00001 degrees north of SOUTH: the cells cover the
      bounding box except for that thin southern strip. */
  lemma GridEdges()
    ensures GetCellBounds(Cols - 1, 0).east == East
    ensures GetCellBounds(0, Rows - 1).south == South + 0.00001
    ensures (Rows as real) * CellHeight < North - South
  {
  }

  /** `getCellCenter`: the midpoint of the cell's box. */
  function GetCellCenter(x: int, y: int): (c: LatLng)
    ensures var b := GetCellBounds(x, y);
      && b.south < c.lat < b.north && b.west < c.lng < b.east
      && c.lat - b.south == b.north - c.lat
      && c.lng - b.west == b.east - c.lng
  {
    var b := GetCellBounds(x, y);
    LatLng((b.north + b.south) / 2.0, (b.west + b.east) / 2.0)
  }

  /** A center's latitude is decided by the row alone and its longitude by the
      column alone. */
  lemma CenterSeparable(x1: int, y1: int, x2: int, y2: int)
    ensures y1 == y2 ==> GetCellCenter(x1, y1).lat == GetCellCenter(x2, y2).lat
    ensures x1 == x2 ==> GetCellCenter(x1, y1).lng == GetCellCenter(x2, y2).lng
  {
  }

  /** Centers move strictly south as the row grows and strictly east as the
      column grows. */
  lemma CenterMonotonic(x1: int, y1: int, x2: int, y2: int)
    ensures y1 < y2 ==> GetCellCenter(x1, y1).lat > GetCellCenter(x2, y2).lat
    ensures x1 < x2 ==> GetCellCenter(x1, y1).lng < GetCellCenter(x2, y2).lng
  {
  }

  /** Adjacent centers lie exactly one cell height or one cell width apart. */
  lemma CenterSteps(x: int, y: int)
    ensures GetCellCenter(x, y).lat - GetCellCenter(x, y + 1).lat == CellHeight
    ensures GetCellCenter(x + 1, y).lng - GetCellCenter(x, y).lng == CellWidth
  {
  }

  /** Every center of the grid lies inside the bounding box. */
  lemma CenterInBox(x: int, y: int)
    requires InGrid(x, y)
    ensures South < GetCellCenter(x, y).lat < North
    ensures West < GetCellCenter(x, y).lng < East
  {
  }

  /** `getGridCenter`: the midpoint of the bounding box. */
  function GetGridCenter(): (c: LatLng)
    ensures South < c.lat < North && West < c.lng < East
    ensures c.lat - South == North - c.lat && c.lng - West == East - c.lng
  {
    LatLng((North + South) / 2.0, (West + East) / 2.0)
  }

  /** The grid center lies on the shared edge of the two middle columns. */
  lemma GridCenterOnMiddleEdge()
    ensures GetGridCenter().lng == GetCellBounds(Cols / 2, 0).west
  {
  }
}

=== FILE: grid_cell.dfy ===
/** One button of the compact grid (src/components/GridCell.tsx): its style
    classes, whether it is highlighted, its hover title and its top-10 rank
    badge. Traffic mode classifies the cell by its most severe positive
    bucket, severity mode by `calculateSeverityLevel`. How a number is printed
    inside the title is a given function. */
module GridCell {
  import opened Wrappers
  import opened Seqs
  import opened Strings
  import opened Traffic
  import TrafficUtils
  import GridUtils
  import TrafficMapGrid

  /** `getSeverity`'s classes. */
  datatype CellSeverity = Normal | Yellow | Red | DarkRed

  /** `getSeverity`: a missing cell is Normal; otherwise the most severe
      bucket with a positive count. */
  function GetSeverity(cell: Option<TrafficData>): (r: CellSeverity)
    ensures cell.None? ==> r == Normal
    ensures r == DarkRed ==> cell.Some? && cell.value.darkRed > 0
    ensures r == Red ==> cell.Some? && cell.value.red > 0 && cell.value.darkRed <= 0
    ensures r == Yellow ==> cell.Some? && cell.value.yellow > 0 && cell.value.red <= 0 && cell.value.darkRed <= 0
    ensures r == Normal && cell.Some? ==> cell.value.yellow <= 0 && cell.value.red <= 0 && cell.value.darkRed <= 0
  {
    if cell.None? then Normal
    else if cell.value.darkRed > 0 then DarkRed
    else if cell.value.red > 0 then Red
    else if cell.value.yellow > 0 then Yellow
    else Normal
  }

  /** The class of each level of `getTrafficSeverityLevel`. */
  function OfTrafficLevel(l: TrafficUtils.TrafficLevel): CellSeverity {
    match l
    case Critical => DarkRed
    case High => Red
    case Medium => Yellow
    case Normal => Normal
  }

  /** With non-negative counts the button's class is the level
      `getTrafficSeverityLevel` gives the cell. */
  lemma SeverityMatchesTrafficLevel(c: TrafficData)
    requires NonNegativeCounts(c)
    ensures GetSeverity(Some(c)) == OfTrafficLevel(TrafficUtils.GetTrafficSeverityLevel(c))
  {
    TrafficUtils.TrafficLevelByBuckets(c);
  }

  /** The classes of a cell with nothing to show. */
  const MutedStyles: string := "bg-muted/20 border-border/50"

  /** `getSeverityStyles`: a tinted background and border per class. */
  function GetSeverityStyles(s: CellSeverity): (r: string)
    ensures r == MutedStyles <==> s == Normal
  {
    match s
    case DarkRed => "bg-traffic-dark-red/60 border-traffic-dark-red"
    case Red => "bg-traffic-red/50 border-traffic-red"
    case Yellow => "bg-traffic-yellow/40 border-traffic-yellow"
    case Normal => MutedStyles
  }

  /** `getSeverityLevelStyles`: a tinted background and border per level. */
  function GetSeverityLevelStyles(l: TrafficUtils.SeverityLevel): (r: string)
    ensures r == MutedStyles <==> l == TrafficUtils.SeverityLevel.Normal
  {
    match l
    case High => "bg-red-600/50 border-red-600"
    case Moderate => "bg-yellow-600/40 border-yellow-600"
    case Normal => MutedStyles
  }

  /** Different classes get different styles, so the styles show the class. */
  lemma SeverityStylesInjective(a: CellSeverity, b: CellSeverity)
    ensures GetSeverityStyles(a) == GetSeverityStyles(b) <==> a == b
  {
  }

  /** "Grid [col, row]". */
  function GridLabel(col: int, row: int): string {
    "Grid [" + IntToString(col) + ", " + IntToString(row) + "]"
  }

  const Top10Suffix: string := " - TOP 10!"

  /** `m || "N/A"` inside a template: the number when truthy. */
  function OrNA(m: Option<real>, show: real -> string): string {
    if Truthy(m) then show(m.value) else "N/A"
  }

  /** What the title says about a present cell, before the top-10 mark. */
  function Details(c: TrafficData, mode: ViewMode, show: real -> string): string {
    match mode
    case SeverityView =>
      " - Severity: " + OrNA(c.latestSeverity, show) + " (P95: " + OrNA(c.p95, show)
        + ", P99: " + OrNA(c.p99, show) + ")"
    case TrafficView =>
      " - Y:" + IntToString(c.yellow) + " R:" + IntToString(c.red) + " DR:" + IntToString(c.darkRed)
  }

  /** A head, details and a closing mark, in that order. */
  function Framed(head: string, details: string, mark: string): (t: string)
    ensures |head| <= |t| && t[..|head|] == head
    ensures |mark| <= |t| && t[|t| - |mark|..] == mark
  {
    PrefixAndSuffix(head, details, mark);
    head + (details + mark)
  }

  /** The hover title: the grid label, then for a present cell its details
      and, for a top-10 cell, the top-10 mark at the very end. */
  function Title(cell: Option<TrafficData>, col: int, row: int, mode: ViewMode, isTop10: bool, show: real -> string): (t: string)
    ensures |GridLabel(col, row)| <= |t| && t[..|GridLabel(col, row)|] == GridLabel(col, row)
    ensures cell.None? ==> t == GridLabel(col, row)
  {
    if cell.None? then GridLabel(col, row)
    else Framed(GridLabel(col, row), Details(cell.value, mode, show), if isTop10 then Top10Suffix else "")
  }

  /** The title of a present top-10 cell ends with the top-10 mark. */
  lemma Top10TitleMarked(c: TrafficData, col: int, row: int, mode: ViewMode, show: real -> string)
    ensures EndsWith(Title(Some(c), col, row, mode, true, show), Top10Suffix)
  {
    var head, details := GridLabel(col, row), Details(c, mode, show);
    assert Title(Some(c), col, row, mode, true, show) == Framed(head, details, Top10Suffix);
  }

  /** The style classes of a button: by `getSeverityLevelStyles` in severity
      mode, by `getSeverityStyles` in traffic mode. */
  function CellStyles(cell: Option<TrafficData>, mode: ViewMode): string {
    match mode
    case SeverityView => GetSeverityLevelStyles(TrafficUtils.CalculateSeverityLevel(cell))
    case TrafficView => GetSeverityStyles(GetSeverity(cell))
  }

  /** The cell's class in the current mode is not Normal. */
  predicate Flagged(cell: Option<TrafficData>, mode: ViewMode) {
    match mode
    case SeverityView => TrafficUtils.CalculateSeverityLevel(cell) != TrafficUtils.SeverityLevel.Normal
    case TrafficView => GetSeverity(cell) != Normal
  }

  /** A cell is flagged exactly when it is drawn with tinted styles. */
  lemma FlaggedIffTinted(cell: Option<TrafficData>, mode: ViewMode)
    ensures Flagged(cell, mode) <==> CellStyles(cell, mode) != MutedStyles
  {
  }

  /** The rendered button. */
  datatype CellView = CellView(styles: string, highlighted: bool, ring: bool, badge: Option<int>, title: string)

  /** `GridCell`. A cell is highlighted when its class is not Normal or it is
      a top-10 cell; a top-10 cell gets a ring and a badge with the 1-based
      position of its key in the selection. */
  function RenderCell(cell: Option<TrafficData>, col: int, row: int, mode: ViewMode, isTop10: bool,
                      top10Cells: seq<string>, show: real -> string): (v: CellView)
    ensures v.ring == isTop10 && (v.badge.Some? <==> isTop10)
    ensures isTop10 ==> v.highlighted
    ensures !isTop10 ==> (v.highlighted <==> v.styles != MutedStyles)
    ensures cell.None? ==> v.styles == MutedStyles && (v.highlighted <==> isTop10)
    ensures isTop10 ==> v.badge == Some(TrafficMapGrid.RankBadge(top10Cells, GridUtils.CreateCellKey(col, row)))
    ensures v.title == Title(cell, col, row, mode, isTop10, show)
  {
    FlaggedIffTinted(cell, mode);
    CellView(CellStyles(cell, mode), Flagged(cell, mode) || isTop10, isTop10,
             if isTop10 then Some(TrafficMapGrid.RankBadge(top10Cells, GridUtils.CreateCellKey(col, row))) else None,
             Title(cell, col, row, mode, isTop10, show))
  }

  /** The button and the map tile agree: with non-negative counts, a button is
      highlighted exactly when it is a top-10 cell or the map paints the same
      cell with a colour. */
  lemma HighlightMatchesMapColor(cell: Option<TrafficData>, col: int, row: int, mode: ViewMode, isTop10: bool,
                                 top10Cells: seq<string>, show: real -> string)
    requires cell.Some? ==> NonNegativeCounts(cell.value)
    ensures RenderCell(cell, col, row, mode, isTop10, top10Cells, show).highlighted <==>
      isTop10 || TrafficMapGrid.GetCellColor(cell, mode, false) != TrafficMapGrid.Neutral
  {
    var color := TrafficMapGrid.GetCellColor(cell, mode, false);
    match mode
    case SeverityView =>
      assert color.fill == TrafficMapGrid.SeverityFill(TrafficUtils.CalculateSeverityLevel(cell));
    case TrafficView =>
      if cell.Some? {
        SeverityMatchesTrafficLevel(cell.value);
        TrafficMapGrid.TrafficColorByLevel(cell.value, false);
      }
  }
}

=== FILE: grid_utils.dfy ===
/** Cell keys, the default cell, and the two top-10 selections
    (src/lib/gridUtils.ts). A selection returns a JavaScript `Set<string>` of
    "x-y" keys; callers read it back with `Array.from`, in insertion order, to
    number the rank badges, so the model returns the keys as a duplicate-free
    sequence in insertion order. */
module GridUtils {
  import opened Wrappers
  import opened Seqs
  import opened Sorting
  import opened Strings
  import opened Traffic
  import opened TrafficUtils

  /** How many cells a selection may return. */
  const TopCount: nat := 10

  /** `createCellKey`: the decimal x and y joined by '-'. For non-negative
      coordinates the '-' is the only separator, so splitting the key on it
      gives back the two decimal strings. */
  function CreateCellKey(x: int, y: int): (k: string)
    ensures 0 <= x && 0 <= y ==> Split(k, '-') == [IntToString(x), IntToString(y)]
  {
    var sx, sy := IntToString(x), IntToString(y);
    var k := sx + "-" + sy;
    if 0 <= x && 0 <= y then
      assert '-' !in sx && '-' !in sy by {
        assert AllDigits(sx) && AllDigits(sy);
      }
      SplitAfterPiece(sx, '-', sy);
      SplitWithoutSeparator(sy, '-');
      assert k == sx + ['-'] + sy;
      k
    else
      k
  }

  function CellKeyOf(c: TrafficData): string {
    CreateCellKey(c.x, c.y)
  }

  /** How the top-10 list reads a key back: `key.split("-").map(Number)`. */
  function ParseCellKey(key: string): seq<Option<int>> {
    Map(Split(key, '-'), NumberOf)
  }

  /** For non-negative coordinates, reading a key back yields exactly [x, y]. */
  lemma CellKeyRoundTrip(x: nat, y: nat)
    ensures ParseCellKey(CreateCellKey(x, y)) == [Some(x), Some(y)]
  {
    NumberOfIntToString(x);
    NumberOfIntToString(y);
  }

  /** Distinct non-negative positions get distinct keys, so collecting keys in a
      set only ever merges records of the same position. */
  lemma CellKeyInjective(x1: nat, y1: nat, x2: nat, y2: nat)
    requires CreateCellKey(x1, y1) == CreateCellKey(x2, y2)
    ensures x1 == x2 && y1 == y2
  {
    CellKeyRoundTrip(x1, y1);
    CellKeyRoundTrip(x2, y2);
  }

  /** `createDefaultCell`: the all-zero record standing in for a position the
      API did not report. */
  function CreateDefaultCell(x: int, y: int): (c: TrafficData)
    ensures c.x == x && c.y == y
    ensures NonNegativeCounts(c) && CalculateTotalTraffic(c) == 0
    ensures GetTrafficSeverityLevel(c) == TrafficLevel.Normal
    ensures !HasAllMetrics(Some(c)) && CalculateSeverityLevel(Some(c)) == SeverityLevel.Normal
    ensures c.ts.None?
  {
    TrafficData(x, y, 0, 0, 0, Some(0.0), Some(0.0), Some(0.0), Some(0.0), None)
  }

  // ---------------------------------------------------------------------------
  // Traffic mode

  predicate HasTraffic(c: TrafficData) {
    CalculateTotalTraffic(c) > 0
  }

  function TotalKey(c: TrafficData): real {
    CalculateTotalTraffic(c) as real
  }

  /** The cells behind `getTop10TrafficCells`: cells with a positive total,
      stably sorted by total, largest first, cut to ten. */
  function TrafficRanking(data: seq<TrafficData>): (r: seq<TrafficData>)
    ensures |r| == if |Filter(data, HasTraffic)| < TopCount then |Filter(data, HasTraffic)| else TopCount
    ensures forall i :: 0 <= i < |r| ==> r[i] in data && HasTraffic(r[i])
    ensures forall i, j :: 0 <= i < j < |r| ==> CalculateTotalTraffic(r[i]) >= CalculateTotalTraffic(r[j])
  {
    var r := TopN(Filter(data, HasTraffic), TotalKey, Descending, TopCount);
    assert forall i, j :: 0 <= i < j < |r| ==> InOrder(TotalKey(r[i]), TotalKey(r[j]), Descending);
    r
  }

  /** Equal totals keep their input order: for every total t, the ranked cells
      with total t are the first cells with total t among the candidates, in
      input order. */
  lemma TrafficRankingStable(data: seq<TrafficData>, t: real)
    ensures IsPrefix(KeyClass(TrafficRanking(data), TotalKey, t), KeyClass(Filter(data, HasTraffic), TotalKey, t))
  {
    TopNStable(Filter(data, HasTraffic), TotalKey, Descending, TopCount, t);
  }

  /** A candidate left out of the ranking means the ranking is full and every
      ranked cell has at least its total. */
  lemma TrafficRankingComplete(data: seq<TrafficData>, c: TrafficData)
    requires c in data && HasTraffic(c) && c !in TrafficRanking(data)
    ensures |TrafficRanking(data)| == TopCount
    ensures forall i :: 0 <= i < TopCount ==> CalculateTotalTraffic(TrafficRanking(data)[i]) >= CalculateTotalTraffic(c)
  {
    FilterComplete(data, HasTraffic, c);
    TopNDominates(Filter(data, HasTraffic), TotalKey, Descending, TopCount, c);
  }

  /** `getTop10TrafficCells`: the keys of the ranked cells, each once. */
  function GetTop10TrafficCells(data: seq<TrafficData>): (keys: seq<string>)
    ensures |keys| <= TopCount
    ensures NoDuplicates(keys)
    ensures forall i :: 0 <= i < |TrafficRanking(data)| ==> CellKeyOf(TrafficRanking(data)[i]) in keys
    ensures InFirstOccurrenceOrder(keys, Map(TrafficRanking(data), CellKeyOf))
  {
    var ranking := TrafficRanking(data);
    var mapped := Map(ranking, CellKeyOf);
    assert forall i :: 0 <= i < |ranking| ==> mapped[i] in mapped;
    Dedup(mapped)
  }

  /** Every key names a cell of the input with a positive total. */
  lemma Top10TrafficCellsSound(data: seq<TrafficData>, k: string)
    requires k in GetTop10TrafficCells(data)
    ensures exists c :: c in data && HasTraffic(c) && CellKeyOf(c) == k
  {
    var ranking := TrafficRanking(data);
    var mapped := Map(ranking, CellKeyOf);
    var i :| 0 <= i < |mapped| && mapped[i] == k;
    assert ranking[i] in data && HasTraffic(ranking[i]);
  }

  /** When the ranked cells lie at distinct positions, the keys list them in
      rank order, so a key's index is its cell's rank. */
  lemma Top10TrafficCellsInRankOrder(data: seq<TrafficData>)
    requires forall i, j :: 0 <= i < j < |TrafficRanking(data)| ==>
      CellKeyOf(TrafficRanking(data)[i]) != CellKeyOf(TrafficRanking(data)[j])
    ensures |GetTop10TrafficCells(data)| == |TrafficRanking(data)|
    ensures forall i :: 0 <= i < |TrafficRanking(data)| ==> GetTop10TrafficCells(data)[i] == CellKeyOf(TrafficRanking(data)[i])
  {
    DedupOfDistinct(Map(TrafficRanking(data), CellKeyOf));
  }

  // ---------------------------------------------------------------------------
  // Severity mode

  /** A cell with its distances above P95 and P99 attached. */
  datatype RankedCell = RankedCell(cell: TrafficData, p95Diff: real, p99Diff: real)

  predicate Qualifies(c: TrafficData) {
    HasAllMetrics(Some(c))
  }

  function WithDiffs(c: TrafficData): (r: RankedCell)
    ensures r.cell == c
  {
    var d := CalculateSeverityDifferences(Some(c));
    RankedCell(c, d.p95Diff, d.p99Diff)
  }

  /** The first tier: the latest severity is above P99. */
  predicate AboveP99(r: RankedCell) {
    r.p99Diff > 0.0
  }

  /** The second tier: above P95 but not above P99. */
  predicate AboveP95Only(r: RankedCell) {
    r.p95Diff > 0.0 && r.p99Diff <= 0.0
  }

  function P99Key(r: RankedCell): real {
    r.p99Diff
  }

  function P95Key(r: RankedCell): real {
    r.p95Diff
  }

  /** rc is a qualifying record of data with its own differences attached. */
  predicate FromInput(rc: RankedCell, data: seq<TrafficData>) {
    rc.cell in data && Qualifies(rc.cell) && rc == WithDiffs(rc.cell)
  }

  /** The qualifying cells with their differences, in input order. */
  function Processed(data: seq<TrafficData>): seq<RankedCell> {
    Map(Filter(data, Qualifies), WithDiffs)
  }

  /** Every candidate is a qualifying record of the input. */
  lemma ProcessedSound(data: seq<TrafficData>, rc: RankedCell)
    requires rc in Processed(data)
    ensures FromInput(rc, data)
  {
    var q := Filter(data, Qualifies);
    var i :| 0 <= i < |Processed(data)| && Processed(data)[i] == rc;
    assert rc == WithDiffs(q[i]);
  }

  /** Every qualifying record of the input is a candidate. */
  lemma ProcessedComplete(data: seq<TrafficData>, c: TrafficData)
    requires c in data && Qualifies(c)
    ensures WithDiffs(c) in Processed(data)
  {
    var q := Filter(data, Qualifies);
    FilterComplete(data, Qualifies, c);
    var i :| 0 <= i < |q| && q[i] == c;
    assert Processed(data)[i] == WithDiffs(c);
  }

  /** The first tier: up to ten candidates above P99, largest P99 difference
      first. */
  function P99Tier(cands: seq<RankedCell>): (r: seq<RankedCell>)
    ensures |r| == if |Filter(cands, AboveP99)| < TopCount then |Filter(cands, AboveP99)| else TopCount
    ensures forall i :: 0 <= i < |r| ==> r[i] in cands && AboveP99(r[i])
    ensures forall i, j :: 0 <= i < j < |r| ==> r[i].p99Diff >= r[j].p99Diff
    ensures forall t :: IsPrefix(KeyClass(r, P99Key, t), KeyClass(Filter(cands, AboveP99), P99Key, t))
  {
    var r := TopN(Filter(cands, AboveP99), P99Key, Descending, TopCount);
    assert forall i, j :: 0 <= i < j < |r| ==> InOrder(P99Key(r[i]), P99Key(r[j]), Descending);
    assert forall t :: IsPrefix(KeyClass(r, P99Key, t), KeyClass(Filter(cands, AboveP99), P99Key, t)) by {
      forall t ensures IsPrefix(KeyClass(r, P99Key, t), KeyClass(Filter(cands, AboveP99), P99Key, t)) {
        TopNStable(Filter(cands, AboveP99), P99Key, Descending, TopCount, t);
      }
    }
    r
  }

  /** Cells tied on their P99 difference keep their input order: for every
      difference t, the tier's cells with difference t are the first such
      candidates, in input order. */
  lemma P99TierStable(cands: seq<RankedCell>, t: real)
    ensures IsPrefix(KeyClass(P99Tier(cands), P99Key, t), KeyClass(Filter(cands, AboveP99), P99Key, t))
  {
    TopNStable(Filter(cands, AboveP99), P99Key, Descending, TopCount, t);
  }

  /** The second tier: up to `room` candidates above P95 only, largest P95
      difference first. */
  function P95Tier(cands: seq<RankedCell>, room: nat): (r: seq<RankedCell>)
    ensures |r| == if |Filter(cands, AboveP95Only)| < room then |Filter(cands, AboveP95Only)| else room
    ensures forall i :: 0 <= i < |r| ==> r[i] in cands && AboveP95Only(r[i])
    ensures forall i, j :: 0 <= i < j < |r| ==> r[i].p95Diff >= r[j].p95Diff
    ensures forall t :: IsPrefix(KeyClass(r, P95Key, t), KeyClass(Filter(cands, AboveP95Only), P95Key, t))
  {
    var r := TopN(Filter(cands, AboveP95Only), P95Key, Descending, room);
    assert forall i, j :: 0 <= i < j < |r| ==> InOrder(P95Key(r[i]), P95Key(r[j]), Descending);
    assert forall t :: IsPrefix(KeyClass(r, P95Key, t), KeyClass(Filter(cands, AboveP95Only), P95Key, t)) by {
      forall t ensures IsPrefix(KeyClass(r, P95Key, t), KeyClass(Filter(cands, AboveP95Only), P95Key, t)) {
        TopNStable(Filter(cands, AboveP95Only), P95Key, Descending, room, t);
      }
    }
    r
  }

  /** Cells tied on their P95 difference keep their input order. */
  lemma P95TierStable(cands: seq<RankedCell>, room: nat, t: real)
    ensures IsPrefix(KeyClass(P95Tier(cands, room), P95Key, t), KeyClass(Filter(cands, AboveP95Only), P95Key, t))
  {
    TopNStable(Filter(cands, AboveP95Only), P95Key, Descending, room, t);
  }

  /** The P99 tier, and when it has fewer than ten cells, the P95-only tier
      filling the remaining places. */
  function Tiers(cands: seq<RankedCell>): (r: seq<RankedCell>)
    ensures |r| <= TopCount
    ensures forall i :: 0 <= i < |r| ==> r[i] in cands
    ensures forall i :: 0 <= i < |r| ==> AboveP99(r[i]) || AboveP95Only(r[i])
  {
    var p99 := P99Tier(cands);
    if |p99| >= TopCount then p99
    else
      var p95 := P95Tier(cands, TopCount - |p99|);
      var r := p99 + p95;
      assert forall i :: 0 <= i < |r| ==> r[i] in cands && (AboveP99(r[i]) || AboveP95Only(r[i])) by {
        forall i | 0 <= i < |r|
          ensures r[i] in cands && (AboveP99(r[i]) || AboveP95Only(r[i]))
        {
          if i < |p99| {
            assert r[i] == p99[i];
          } else {
            assert r[i] == p95[i - |p99|];
          }
        }
      }
      r
  }

  /** The cells behind `getTop10SeverityCells`. */
  function SeverityRanking(data: seq<TrafficData>): seq<RankedCell> {
    Tiers(Processed(data))
  }

  /** Every chosen cell is a qualifying record of the input with its own
      differences attached, above P99 or above P95 only. */
  lemma SeverityRankingFromInput(data: seq<TrafficData>)
    ensures |SeverityRanking(data)| <= TopCount
    ensures forall i :: 0 <= i < |SeverityRanking(data)| ==>
      FromInput(SeverityRanking(data)[i], data) && (AboveP99(SeverityRanking(data)[i]) || AboveP95Only(SeverityRanking(data)[i]))
  {
    forall i | 0 <= i < |SeverityRanking(data)| {
      ProcessedSound(data, SeverityRanking(data)[i]);
    }
  }

  /** Cells above P99 come first, each tier in descending order of its own
      difference. */
  lemma TiersOrdered(cands: seq<RankedCell>)
    ensures var r := Tiers(cands);
      forall i, j :: 0 <= i < j < |r| ==>
        && (AboveP99(r[j]) ==> AboveP99(r[i]))
        && (AboveP99(r[i]) && AboveP99(r[j]) ==> r[i].p99Diff >= r[j].p99Diff)
        && (AboveP95Only(r[i]) && AboveP95Only(r[j]) ==> r[i].p95Diff >= r[j].p95Diff)
  {
    var r := Tiers(cands);
    var p99 := P99Tier(cands);
    if |p99| < TopCount {
      var p95 := P95Tier(cands, TopCount - |p99|);
      assert r == p99 + p95;
      forall i, j | 0 <= i < j < |r|
        ensures AboveP99(r[j]) ==> AboveP99(r[i])
        ensures AboveP99(r[i]) && AboveP99(r[j]) ==> r[i].p99Diff >= r[j].p99Diff
        ensures AboveP95Only(r[i]) && AboveP95Only(r[j]) ==> r[i].p95Diff >= r[j].p95Diff
      {
        if j < |p99| {
          assert r[i] == p99[i] && r[j] == p99[j];
        } else if i < |p99| {
          assert r[i] == p99[i] && r[j] == p95[j - |p99|];
        } else {
          assert r[i] == p95[i - |p99|] && r[j] == p95[j - |p99|];
        }
      }
    }
  }

  /** The P99 tier is a prefix of the ranking, the P95 tier fills at most the
      places the P99 tier left free, and with ten or more candidates above P99
      no P95-only cell is chosen. */
  lemma TiersShape(cands: seq<RankedCell>)
    ensures var r := Tiers(cands); var p99 := P99Tier(cands);
      && IsPrefix(p99, r)
      && |r| == |p99| + |P95Tier(cands, TopCount - |p99|)|
      && (|Filter(cands, AboveP99)| >= TopCount ==> r == p99)
  {
    var r := Tiers(cands);
    var p99 := P99Tier(cands);
    if |p99| < TopCount {
      assert r[..|p99|] == p99;
    } else {
      assert P95Tier(cands, 0) == [];
    }
  }

  /** A candidate above P99 that is not chosen means ten candidates above P99
      were, each at least as far above its P99. */
  lemma TiersCompleteP99(cands: seq<RankedCell>, rc: RankedCell)
    requires rc in cands && AboveP99(rc) && rc !in Tiers(cands)
    ensures |Tiers(cands)| == TopCount
    ensures forall i :: 0 <= i < TopCount ==> AboveP99(Tiers(cands)[i]) && Tiers(cands)[i].p99Diff >= rc.p99Diff
  {
    var p99 := P99Tier(cands);
    FilterComplete(cands, AboveP99, rc);
    if |p99| < TopCount {
      assert Tiers(cands)[..|p99|] == p99;
    }
    assert rc !in p99;
    TopNDominates(Filter(cands, AboveP99), P99Key, Descending, TopCount, rc);
  }

  /** A candidate above P95 only that is not chosen means all ten places were
      taken, each by a cell above P99 or by one at least as far above its P95. */
  lemma TiersCompleteP95(cands: seq<RankedCell>, rc: RankedCell)
    requires rc in cands && AboveP95Only(rc) && rc !in Tiers(cands)
    ensures |Tiers(cands)| == TopCount
    ensures forall i :: 0 <= i < TopCount ==> AboveP99(Tiers(cands)[i]) || Tiers(cands)[i].p95Diff >= rc.p95Diff
  {
    var r := Tiers(cands);
    var p99 := P99Tier(cands);
    if |p99| < TopCount {
      var room := TopCount - |p99|;
      var p95 := P95Tier(cands, room);
      FilterComplete(cands, AboveP95Only, rc);
      assert r == p99 + p95;
      assert rc !in p95;
      TopNDominates(Filter(cands, AboveP95Only), P95Key, Descending, room, rc);
      forall i | 0 <= i < TopCount
        ensures AboveP99(r[i]) || r[i].p95Diff >= rc.p95Diff
      {
        if i >= |p99| {
          assert r[i] == p95[i - |p99|];
        }
      }
    }
  }

  /** A qualifying record above its P99 that is left out means ten records were
      chosen, each above its P99 by at least as much. */
  lemma SeverityRankingCompleteP99(data: seq<TrafficData>, c: TrafficData)
    requires c in data && Qualifies(c) && AboveP99(WithDiffs(c)) && WithDiffs(c) !in SeverityRanking(data)
    ensures |SeverityRanking(data)| == TopCount
    ensures forall i :: 0 <= i < TopCount ==>
      AboveP99(SeverityRanking(data)[i]) && SeverityRanking(data)[i].p99Diff >= WithDiffs(c).p99Diff
  {
    ProcessedComplete(data, c);
    TiersCompleteP99(Processed(data), WithDiffs(c));
  }

  /** A qualifying record above its P95 only that is left out means ten records
      were chosen, each above its P99 or above its P95 by at least as much. */
  lemma SeverityRankingCompleteP95(data: seq<TrafficData>, c: TrafficData)
    requires c in data && Qualifies(c) && AboveP95Only(WithDiffs(c)) && WithDiffs(c) !in SeverityRanking(data)
    ensures |SeverityRanking(data)| == TopCount
    ensures forall i :: 0 <= i < TopCount ==>
      AboveP99(SeverityRanking(data)[i]) || SeverityRanking(data)[i].p95Diff >= WithDiffs(c).p95Diff
  {
    ProcessedComplete(data, c);
    TiersCompleteP95(Processed(data), WithDiffs(c));
  }

  function RankedKeyOf(r: RankedCell): string {
    CellKeyOf(r.cell)
  }

  /** `getTop10SeverityCells`: the keys of the chosen cells, each once. */
  function GetTop10SeverityCells(data: seq<TrafficData>): (keys: seq<string>)
    ensures |keys| <= TopCount
    ensures NoDuplicates(keys)
    ensures forall i :: 0 <= i < |SeverityRanking(data)| ==> RankedKeyOf(SeverityRanking(data)[i]) in keys
    ensures InFirstOccurrenceOrder(keys, Map(SeverityRanking(data), RankedKeyOf))
  {
    var ranking := SeverityRanking(data);
    var mapped := Map(ranking, RankedKeyOf);
    assert forall i :: 0 <= i < |ranking| ==> mapped[i] in mapped;
    Dedup(mapped)
  }

  /** Every key names a qualifying cell of the input above its P95 or P99. */
  lemma Top10SeverityCellsSound(data: seq<TrafficData>, k: string)
    requires k in GetTop10SeverityCells(data)
    ensures exists c :: c in data && Qualifies(c) && CalculateSeverityLevel(Some(c)) != SeverityLevel.Normal && CellKeyOf(c) == k
  {
    var ranking := SeverityRanking(data);
    var mapped := Map(ranking, RankedKeyOf);
    assert GetTop10SeverityCells(data) == Dedup(mapped);
    assert k in mapped;
    var i :| 0 <= i < |mapped| && mapped[i] == k;
    SeverityRankingFromInput(data);
    var rc := ranking[i];
    assert FromInput(rc, data) && (AboveP99(rc) || AboveP95Only(rc));
    var c := rc.cell;
    SeverityLevelFromDifferences(Some(c));
    assert CellKeyOf(c) == k;
  }

  /** When the chosen cells lie at distinct positions, the keys list them in
      rank order. */
  lemma Top10SeverityCellsInRankOrder(data: seq<TrafficData>)
    requires forall i, j :: 0 <= i < j < |SeverityRanking(data)| ==>
      RankedKeyOf(SeverityRanking(data)[i]) != RankedKeyOf(SeverityRanking(data)[j])
    ensures |GetTop10SeverityCells(data)| == |SeverityRanking(data)|
    ensures forall i :: 0 <= i < |SeverityRanking(data)| ==> GetTop10SeverityCells(data)[i] == RankedKeyOf(SeverityRanking(data)[i])
  {
    var ranking := SeverityRanking(data);
    DedupOfDistinctKeys(ranking, RankedKeyOf);
    assert GetTop10SeverityCells(data) == Dedup(Map(ranking, RankedKeyOf));
  }
}

=== FILE: grouping.dfy ===
/** Grouping by a key in the manner of `s.reduce((acc, item) => { acc[k] ??= …;
    acc[k].push(item) }, {})` followed by `Object.values(acc)`: one group per
    distinct key, groups in order of the first occurrence of their key (string
    keys that are not array indices keep insertion order), and each group holding
    its items in input order. */
module Grouping {
  import opened Seqs

  datatype Group<K, T> = Group(key: K, items: seq<T>)

  /** The elements of s whose key is k, in input order. */
  function ItemsWithKey<K(==), T>(s: seq<T>, key: T -> K, k: K): seq<T> {
    if |s| == 0 then []
    else ItemsWithKey(s[..|s| - 1], key, k) + (if key(s[|s| - 1]) == k then [s[|s| - 1]] else [])
  }

  function Keys<K, T>(gs: seq<Group<K, T>>): (r: seq<K>)
    ensures |r| == |gs|
    ensures forall i :: 0 <= i < |gs| ==> r[i] == gs[i].key
  {
    if |gs| == 0 then [] else [gs[0].key] + Keys(gs[1..])
  }

  function SumSizes<K, T>(gs: seq<Group<K, T>>): nat {
    if |gs| == 0 then 0 else |gs[0].items| + SumSizes(gs[1..])
  }

  predicate DistinctKeys<K(==), T>(gs: seq<Group<K, T>>) {
    NoDuplicates(Keys(gs))
  }

  /** gs groups s by key: one non-empty group per distinct key of s, holding
      exactly the elements with that key in input order. */
  ghost predicate GroupsOf<K, T>(gs: seq<Group<K, T>>, s: seq<T>, key: T -> K) {
    && DistinctKeys(gs)
    && (forall i :: 0 <= i < |gs| ==> gs[i].items == ItemsWithKey(s, key, gs[i].key))
    && (forall i :: 0 <= i < |gs| ==> |gs[i].items| > 0)
    && (forall i :: 0 <= i < |s| ==> key(s[i]) in Keys(gs))
  }

  /** Appends x to the group of key k, opening a new group at the end when k has none. */
  function AddItem<K(==), T>(gs: seq<Group<K, T>>, k: K, x: T): (r: seq<Group<K, T>>)
    ensures SumSizes(r) == SumSizes(gs) + 1
    ensures Keys(r) == if k in Keys(gs) then Keys(gs) else Keys(gs) + [k]
  {
    if |gs| == 0 then [Group(k, [x])]
    else if gs[0].key == k then
      var r := [Group(k, gs[0].items + [x])] + gs[1..];
      assert r[1..] == gs[1..];
      assert Keys(r) == [k] + Keys(gs[1..]);
      r
    else
      var rest := AddItem(gs[1..], k, x);
      var r := [gs[0]] + rest;
      assert r[1..] == rest;
      r
  }

  lemma AddItemDistinct<K, T>(gs: seq<Group<K, T>>, k: K, x: T)
    requires DistinctKeys(gs)
    ensures DistinctKeys(AddItem(gs, k, x))
  {
    var ks := Keys(gs);
    if k !in ks {
      var ks' := ks + [k];
      forall i, j | 0 <= i < j < |ks'|
        ensures ks'[i] != ks'[j]
      {
        if j == |ks| {
          assert ks[i] in ks;
        }
      }
    }
  }

  lemma DistinctKeysTail<K, T>(gs: seq<Group<K, T>>)
    requires |gs| > 0 && DistinctKeys(gs)
    ensures DistinctKeys(gs[1..])
  {
    var ks, ts := Keys(gs), Keys(gs[1..]);
    forall a, b | 0 <= a < b < |ts|
      ensures ts[a] != ts[b]
    {
      assert ts[a] == ks[a + 1] && ts[b] == ks[b + 1];
    }
  }

  /** AddItem appends x to the one group with key k and leaves every other
      group as it was. */
  lemma {:induction false} AddItemItemAt<K, T>(gs: seq<Group<K, T>>, k: K, x: T, i: nat)
    requires DistinctKeys(gs) && i < |gs|
    ensures AddItem(gs, k, x)[i].items == gs[i].items + (if gs[i].key == k then [x] else [])
  {
    if gs[0].key == k {
      if i > 0 {
        assert Keys(gs)[0] != Keys(gs)[i];
      }
    } else if i > 0 {
      DistinctKeysTail(gs);
      AddItemItemAt(gs[1..], k, x, i - 1);
      assert AddItem(gs, k, x)[i] == AddItem(gs[1..], k, x)[i - 1];
    }
  }

  /** A key without a group gets a new last group holding just x. */
  lemma {:induction false} AddItemNewKey<K, T>(gs: seq<Group<K, T>>, k: K, x: T)
    requires k !in Keys(gs)
    ensures AddItem(gs, k, x)[|gs|] == Group(k, [x])
  {
    if |gs| > 0 {
      assert Keys(gs)[0] == gs[0].key;
      assert k !in Keys(gs[1..]) by {
        forall a | 0 <= a < |gs| - 1 ensures Keys(gs[1..])[a] != k {
          assert Keys(gs[1..])[a] == Keys(gs)[a + 1];
        }
      }
      AddItemNewKey(gs[1..], k, x);
      assert AddItem(gs, k, x)[|gs|] == AddItem(gs[1..], k, x)[|gs| - 1];
    }
  }

  lemma {:induction false} ItemsWithAbsentKey<K, T>(s: seq<T>, key: T -> K, k: K)
    requires forall i :: 0 <= i < |s| ==> key(s[i]) != k
    ensures ItemsWithKey(s, key, k) == []
  {
    if |s| > 0 {
      ItemsWithAbsentKey(s[..|s| - 1], key, k);
    }
  }

  /** Group i after adding x holds exactly the items of s + [x] with its key. */
  lemma AddItemGroupAt<K, T>(gs: seq<Group<K, T>>, s: seq<T>, key: T -> K, x: T, i: nat)
    requires GroupsOf(gs, s, key)
    requires i < |AddItem(gs, key(x), x)|
    ensures var g := AddItem(gs, key(x), x)[i];
      g.items == ItemsWithKey(s + [x], key, g.key) && |g.items| > 0
  {
    var s' := s + [x];
    var r := AddItem(gs, key(x), x);
    assert s'[..|s'| - 1] == s;
    if i == |gs| {
      assert Keys(r)[i] == key(x);
      assert key(x) !in Keys(gs);
      AddItemNewKey(gs, key(x), x);
      ItemsWithAbsentKey(s, key, key(x));
    } else {
      assert Keys(r)[i] == Keys(gs)[i];
      AddItemItemAt(gs, key(x), x, i);
    }
  }

  /** Adding x keeps every key of s + [x] among the group keys. */
  lemma AddItemCovers<K, T>(gs: seq<Group<K, T>>, s: seq<T>, key: T -> K, x: T)
    requires forall i :: 0 <= i < |s| ==> key(s[i]) in Keys(gs)
    ensures forall i :: 0 <= i < |s + [x]| ==> key((s + [x])[i]) in Keys(AddItem(gs, key(x), x))
  {
    var s', r := s + [x], AddItem(gs, key(x), x);
    forall i | 0 <= i < |s'|
      ensures key(s'[i]) in Keys(r)
    {
      if i < |s| {
        assert s'[i] == s[i];
      }
    }
  }

  lemma AddItemGroups<K, T>(gs: seq<Group<K, T>>, s: seq<T>, key: T -> K, x: T)
    requires GroupsOf(gs, s, key)
    ensures GroupsOf(AddItem(gs, key(x), x), s + [x], key)
  {
    var r := AddItem(gs, key(x), x);
    AddItemDistinct(gs, key(x), x);
    forall i | 0 <= i < |r|
      ensures r[i].items == ItemsWithKey(s + [x], key, r[i].key) && |r[i].items| > 0
    {
      AddItemGroupAt(gs, s, key, x, i);
    }
    AddItemCovers(gs, s, key, x);
  }

  /** Groups s by key, in order of first occurrence. */
  function GroupBy<K(==), T>(s: seq<T>, key: T -> K): (r: seq<Group<K, T>>)
    ensures GroupsOf(r, s, key)
    ensures SumSizes(r) == |s|
  {
    if |s| == 0 then []
    else
      var init := s[..|s| - 1];
      var x := s[|s| - 1];
      assert s == init + [x];
      var gs := GroupBy(init, key);
      AddItemGroups(gs, init, key, x);
      AddItem(gs, key(x), x)
  }
}

=== FILE: history.dfy ===
/** The data side of the history page (src/pages/History.tsx): the series
    its chart draws from a cell's history, and the two small controls that
    shape it, the hour-range slider and the weekday multi-select.

    The series maps every record to a sample (its instant, counts, total and
    weighted severity), keeps the samples whose local hour lies in the chosen
    range and whose weekday is selected, and sorts them by instant. When
    hourly averaging is on, the samples are grouped by date and hour, each
    group becomes one point at the start of its hour holding the mean of each
    metric, and the points are sorted by that instant. */
module History {
  import opened Wrappers
  import opened Seqs
  import opened Sorting
  import opened Grouping
  import opened Strings
  import opened Traffic
  import opened TrafficUtils
  import opened HostCalendar

  /** `DAYS_OF_WEEK`, indexed by `getDay`. */
  const DaysOfWeek: seq<string> := ["sunday", "monday", "tuesday", "wednesday", "thursday", "friday", "saturday"]

  /** One history record as the page derives it. */
  datatype Sample = Sample(timestamp: int, yellow: int, red: int, darkRed: int, total: int, severity: int)

  /** One point of the drawn series. */
  datatype SeriesPoint = SeriesPoint(timestamp: int, yellow: real, red: real, darkRed: real, total: real, severity: real)

  /** The chosen filter: the inclusive hour range and the selected weekday
      names. */
  datatype Selection = Selection(startHour: int, endHour: int, days: seq<string>)

  function ToSample(c: TrafficData, cal: Calendar): (s: Sample)
    ensures s.timestamp == Instant(cal, c.ts)
    ensures s.total == CalculateTotalTraffic(c)
    ensures s.severity == WeightedSeverity(c)
  {
    Sample(Instant(cal, c.ts), c.yellow, c.red, c.darkRed,
      c.yellow + c.red + c.darkRed, c.yellow + c.red * 2 + c.darkRed * 3)
  }

  /** The filter of the pipeline: the sample's local hour lies in the range
      (both ends included) and its weekday is selected. */
  predicate Keep(s: Sample, cal: Calendar, sel: Selection): (b: bool)
    ensures b ==> sel.startHour <= sel.endHour && |sel.days| > 0
  {
    var hour := cal.hourOf(s.timestamp);
    hour >= sel.startHour && hour <= sel.endHour && DaysOfWeek[cal.weekdayOf(s.timestamp)] in sel.days
  }

  function SampleTime(s: Sample): real {
    s.timestamp as real
  }

  function Samples(data: seq<TrafficData>, cal: Calendar): (r: seq<Sample>)
    ensures |r| == |data|
    ensures forall i :: 0 <= i < |data| ==> r[i] == ToSample(data[i], cal)
  {
    if |data| == 0 then [] else [ToSample(data[0], cal)] + Samples(data[1..], cal)
  }

  /** The samples that pass the filter, in input order. */
  function Kept(data: seq<TrafficData>, cal: Calendar, sel: Selection): seq<Sample> {
    Filter(Samples(data, cal), (s: Sample) => Keep(s, cal, sel))
  }

  /** The kept samples in ascending order of instant: a reordering of exactly
      the samples that pass the filter. */
  function FilteredSamples(data: seq<TrafficData>, cal: Calendar, sel: Selection): (r: seq<Sample>)
    ensures |r| <= |data|
    ensures multiset(r) == multiset(Kept(data, cal, sel))
    ensures forall i :: 0 <= i < |r| ==> Keep(r[i], cal, sel) && r[i] in Samples(data, cal)
    ensures forall i, j :: 0 <= i < j < |r| ==> r[i].timestamp <= r[j].timestamp
    ensures forall k :: KeyClass(r, SampleTime, k) == KeyClass(Kept(data, cal, sel), SampleTime, k)
  {
    var r := Sort(Kept(data, cal, sel), SampleTime, Ascending);
    assert forall i, j :: 0 <= i < j < |r| ==> InOrder(SampleTime(r[i]), SampleTime(r[j]), Ascending);
    r
  }

  /** No record that passes the filter is dropped: the series holds its
      sample as often as the history does. */
  lemma FilteredComplete(data: seq<TrafficData>, cal: Calendar, sel: Selection, i: nat)
    requires i < |data| && Keep(ToSample(data[i], cal), cal, sel)
    ensures ToSample(data[i], cal) in FilteredSamples(data, cal, sel)
    ensures multiset(FilteredSamples(data, cal, sel))[ToSample(data[i], cal)] == multiset(Samples(data, cal))[ToSample(data[i], cal)]
  {
    var all := Samples(data, cal);
    var x := ToSample(data[i], cal);
    assert all[i] == x;
    FilterKeepsCopies(all, (s: Sample) => Keep(s, cal, sel), x);
    assert x in multiset(all);
    assert x in multiset(FilteredSamples(data, cal, sel));
  }

  /** The bucket key `${toDateString()}-${getHours()}`. */
  function BucketKey(cal: Calendar): Sample -> string {
    (s: Sample) => cal.dateString(s.timestamp) + "-" + IntToString(cal.hourOf(s.timestamp))
  }

  function Yellows(items: seq<Sample>): (r: seq<real>)
    ensures |r| == |items| && forall i :: 0 <= i < |items| ==> r[i] == items[i].yellow as real
  {
    if |items| == 0 then [] else [items[0].yellow as real] + Yellows(items[1..])
  }

  function Reds(items: seq<Sample>): (r: seq<real>)
    ensures |r| == |items| && forall i :: 0 <= i < |items| ==> r[i] == items[i].red as real
  {
    if |items| == 0 then [] else [items[0].red as real] + Reds(items[1..])
  }

  function DarkReds(items: seq<Sample>): (r: seq<real>)
    ensures |r| == |items| && forall i :: 0 <= i < |items| ==> r[i] == items[i].darkRed as real
  {
    if |items| == 0 then [] else [items[0].darkRed as real] + DarkReds(items[1..])
  }

  function Totals(items: seq<Sample>): (r: seq<real>)
    ensures |r| == |items| && forall i :: 0 <= i < |items| ==> r[i] == items[i].total as real
  {
    if |items| == 0 then [] else [items[0].total as real] + Totals(items[1..])
  }

  function SeveritiesOf(items: seq<Sample>): (r: seq<real>)
    ensures |r| == |items| && forall i :: 0 <= i < |items| ==> r[i] == items[i].severity as real
  {
    if |items| == 0 then [] else [items[0].severity as real] + SeveritiesOf(items[1..])
  }

  /** One bucket's point: the start of the hour of the bucket's first sample,
      and the mean of each metric over the bucket. */
  function BucketPoint(g: Group<string, Sample>, cal: Calendar): SeriesPoint
    requires |g.items| > 0
  {
    SeriesPoint(cal.hourStart(g.items[0].timestamp),
      Mean(Yellows(g.items)), Mean(Reds(g.items)), Mean(DarkReds(g.items)),
      Mean(Totals(g.items)), Mean(SeveritiesOf(g.items)))
  }

  function BucketPoints(gs: seq<Group<string, Sample>>, cal: Calendar): (r: seq<SeriesPoint>)
    requires forall i :: 0 <= i < |gs| ==> |gs[i].items| > 0
    ensures |r| == |gs|
    ensures forall i :: 0 <= i < |gs| ==> r[i] == BucketPoint(gs[i], cal)
  {
    if |gs| == 0 then [] else [BucketPoint(gs[0], cal)] + BucketPoints(gs[1..], cal)
  }

  /** The reduce into (date, hour) buckets of the kept samples. */
  function HourBuckets(kept: seq<Sample>, cal: Calendar): (gs: seq<Group<string, Sample>>)
    ensures GroupsOf(gs, kept, BucketKey(cal))
    ensures SumSizes(gs) == |kept|
  {
    GroupBy(kept, BucketKey(cal))
  }

  function PointTime(p: SeriesPoint): real {
    p.timestamp as real
  }

  /** The hourly averages, sorted by the start of their hour: a reordering of
      exactly one point per bucket. */
  function HourlyAverages(kept: seq<Sample>, cal: Calendar): (r: seq<SeriesPoint>)
    ensures |r| == |HourBuckets(kept, cal)|
    ensures multiset(r) == multiset(BucketPoints(HourBuckets(kept, cal), cal))
    ensures forall i, j :: 0 <= i < j < |r| ==> r[i].timestamp <= r[j].timestamp
    ensures forall k :: KeyClass(r, PointTime, k) == KeyClass(BucketPoints(HourBuckets(kept, cal), cal), PointTime, k)
  {
    var points := BucketPoints(HourBuckets(kept, cal), cal);
    SortByCorrect(points, PointTime, Ascending);
    SortBy(points, PointTime, Ascending)
  }

  function AsPoint(s: Sample): SeriesPoint {
    SeriesPoint(s.timestamp, s.yellow as real, s.red as real, s.darkRed as real, s.total as real, s.severity as real)
  }

  function AsPoints(samples: seq<Sample>): (r: seq<SeriesPoint>)
    ensures |r| == |samples|
    ensures forall i :: 0 <= i < |samples| ==> r[i] == AsPoint(samples[i])
  {
    if |samples| == 0 then [] else [AsPoint(samples[0])] + AsPoints(samples[1..])
  }

  /** `processedData`. Absent or empty history gives an empty series. */
  function ProcessedData(history: Option<seq<TrafficData>>, cal: Calendar, sel: Selection, averaged: bool): (r: seq<SeriesPoint>)
    ensures history.None? || |history.value| == 0 ==> r == []
    ensures forall i, j :: 0 <= i < j < |r| ==> r[i].timestamp <= r[j].timestamp
    ensures history.Some? && !averaged ==> r == AsPoints(FilteredSamples(history.value, cal, sel))
    ensures history.Some? && |history.value| > 0 && averaged ==>
      r == HourlyAverages(FilteredSamples(history.value, cal, sel), cal)
  {
    if history.None? || |history.value| == 0 then []
    else
      var kept := FilteredSamples(history.value, cal, sel);
      if averaged then HourlyAverages(kept, cal) else AsPoints(kept)
  }

  /** Every averaged point is the point of one (date, hour) bucket: the
      bucket holds exactly the kept samples with that key, and the point's
      metrics are their means. */
  lemma HourlyAverageOfBucket(kept: seq<Sample>, cal: Calendar, i: nat)
    requires i < |HourlyAverages(kept, cal)|
    ensures exists j ::
      && 0 <= j < |HourBuckets(kept, cal)|
      && HourlyAverages(kept, cal)[i] == BucketPoint(HourBuckets(kept, cal)[j], cal)
      && HourBuckets(kept, cal)[j].items == ItemsWithKey(kept, BucketKey(cal), HourBuckets(kept, cal)[j].key)
  {
    SortByElement(BucketPoints(HourBuckets(kept, cal), cal), PointTime, Ascending, i);
  }

  /** Samples of one bucket share their local date and hour: the key keeps
      the hour after the last '-' it adds. */
  lemma BucketKeyDeterminesHour(cal: Calendar, a: Sample, b: Sample)
    requires '-' !in cal.dateString(a.timestamp) && '-' !in cal.dateString(b.timestamp)
    requires BucketKey(cal)(a) == BucketKey(cal)(b)
    ensures cal.dateString(a.timestamp) == cal.dateString(b.timestamp)
    ensures cal.hourOf(a.timestamp) == cal.hourOf(b.timestamp)
  {
    var da, db := cal.dateString(a.timestamp), cal.dateString(b.timestamp);
    var ha, hb := IntToString(cal.hourOf(a.timestamp)), IntToString(cal.hourOf(b.timestamp));
    KeySplits(da, ha);
    KeySplits(db, hb);
    assert BucketKey(cal)(a) == da + "-" + ha;
    assert BucketKey(cal)(b) == db + "-" + hb;
    assert [da, ha] == [db, hb];
    IntToStringInjective(cal.hourOf(a.timestamp), cal.hourOf(b.timestamp));
  }

  /** A bucket key splits at '-' back into its date and hour parts. */
  lemma KeySplits(date: string, hour: string)
    requires '-' !in date && AllDigits(hour)
    ensures Split(date + "-" + hour, '-') == [date, hour]
  {
    assert '-' !in hour by {
      assert forall k :: 0 <= k < |hour| ==> IsDigit(hour[k]);
    }
    assert date + "-" + hour == date + ['-'] + hour;
    SplitAfterPiece(date, '-', hour);
    SplitWithoutSeparator(hour, '-');
  }

  // ---- The hour-range slider -------------------------------------------------

  datatype Handle = Start | End

  /** The slider value for a dragged fraction of the track: the fraction is
      clamped to [0, 1] and the value rounded with `Math.round`. */
  function DragValue(lo: int, hi: int, fraction: real): (v: int)
    requires lo <= hi
    ensures lo <= v <= hi
    ensures var x := lo as real + Clamp01(fraction) * (hi - lo) as real; x - 0.5 < v as real <= x + 0.5
  {
    var p := Clamp01(fraction);
    var x := lo as real + p * (hi - lo) as real;
    ScaleBetween(p, (hi - lo) as real);
    RoundBetween(x, lo, hi);
    Round(x)
  }

  /** The fraction of the track, clamped to [0, 1]. */
  function Clamp01(fraction: real): (p: real)
    ensures 0.0 <= p <= 1.0
    ensures 0.0 <= fraction <= 1.0 ==> p == fraction
  {
    if fraction < 0.0 then 0.0 else if fraction > 1.0 then 1.0 else fraction
  }

  lemma ScaleBetween(p: real, d: real)
    requires 0.0 <= p <= 1.0 && d >= 0.0
    ensures 0.0 <= p * d <= d
  {
    assert d - p * d == (1.0 - p) * d;
  }

  /** The new range after dragging one handle to newValue: the start handle
      stops at the end handle and the end handle at the start handle. */
  function MoveHandle(handle: Handle, newValue: int, range: (int, int)): (r: (int, int))
    ensures handle == Start ==> r.1 == range.1 && r.0 <= r.1 && r.0 <= newValue && (r.0 == newValue || r.0 == range.1)
    ensures handle == End ==> r.0 == range.0 && r.0 <= r.1 && r.1 >= newValue && (r.1 == newValue || r.1 == range.0)
  {
    match handle
    case Start => (if newValue < range.1 then newValue else range.1, range.1)
    case End => (range.0, if newValue > range.0 then newValue else range.0)
  }

  /** A drag keeps an ordered range inside the slider's bounds ordered and
      inside them. */
  lemma DragKeepsRange(lo: int, hi: int, fraction: real, handle: Handle, range: (int, int))
    requires lo <= range.0 <= range.1 <= hi
    ensures var r := MoveHandle(handle, DragValue(lo, hi, fraction), range);
      lo <= r.0 <= r.1 <= hi
  {
  }

  // ---- The weekday multi-select ----------------------------------------------

  /** `selectedValues.filter(v => v !== value)`: every copy of the value goes,
      every other value stays as often as it was selected. */
  function Without(selected: seq<string>, value: string): (r: seq<string>)
    ensures value !in r
    ensures forall i :: 0 <= i < |r| ==> r[i] in selected
    ensures forall i :: 0 <= i < |selected| && selected[i] != value ==>
      selected[i] in r && multiset(r)[selected[i]] == multiset(selected)[selected[i]]
  {
    var r := Filter(selected, (v: string) => v != value);
    assert forall i :: 0 <= i < |selected| && selected[i] != value ==>
      multiset(r)[selected[i]] == multiset(selected)[selected[i]] by {
      forall i | 0 <= i < |selected| && selected[i] != value
        ensures multiset(r)[selected[i]] == multiset(selected)[selected[i]]
      {
        FilterKeepsCopies(selected, (v: string) => v != value, selected[i]);
      }
    }
    r
  }

  /** `handleToggle`: a selected value is removed, every copy of it; an
      unselected one is appended. */
  function Toggle(selected: seq<string>, value: string): (r: seq<string>)
    ensures value in r <==> value !in selected
    ensures value !in selected ==> r == selected + [value]
  {
    if value in selected then Without(selected, value) else selected + [value]
  }

  /** Toggling changes the membership of the toggled value only. */
  lemma ToggleOthers(selected: seq<string>, value: string, other: string)
    requires other != value
    ensures other in Toggle(selected, value) <==> other in selected
  {
    if value in selected && other in selected {
      FilterComplete(selected, (v: string) => v != value, other);
    }
  }

  /** Toggling an unselected value twice restores the selection. */
  lemma ToggleTwice(selected: seq<string>, value: string)
    requires value !in selected
    ensures Toggle(Toggle(selected, value), value) == selected
  {
    FilterKeepsAllBut(selected, value);
    FilterDropsLast(selected, value);
  }

  lemma {:induction false} FilterKeepsAllBut(s: seq<string>, value: string)
    requires value !in s
    ensures Filter(s, (v: string) => v != value) == s
  {
    if |s| > 0 {
      FilterKeepsAllBut(s[1..], value);
      assert s == [s[0]] + s[1..];
    }
  }

  lemma {:induction false} FilterDropsLast(s: seq<string>, value: string)
    ensures Filter(s + [value], (v: string) => v != value) == Filter(s, (v: string) => v != value)
  {
    if |s| == 0 {
      assert [value][1..] == [];
    } else {
      FilterDropsLast(s[1..], value);
      assert (s + [value])[1..] == s[1..] + [value];
    }
  }

  /** `handleRemove`: removes every copy of the value and keeps the rest. */
  lemma RemoveKeepsOthers(selected: seq<string>, value: string, other: string)
    requires other != value
    ensures other in Without(selected, value) <==> other in selected
  {
    if other in selected {
      FilterComplete(selected, (v: string) => v != value, other);
    }
  }

  /** A multi-select option. */
  datatype SelectOption = SelectOption(key: string, name: string)

  /** `handleSelectAll`: every option key, in option order. */
  function SelectAll(options: seq<SelectOption>): (r: seq<string>)
    ensures |r| == |options|
    ensures forall i :: 0 <= i < |options| ==> r[i] == options[i].key
    ensures forall o :: o in options ==> o.key in r
  {
    Map(options, (o: SelectOption) => o.key)
  }

  /** `handleClearAll`. */
  function ClearAll(): (r: seq<string>)
    ensures |r| == 0
  {
    []
  }

  /** With every weekday selected and the full hour range, the filter keeps
      every sample: the page's initial selection shows the whole history. */
  lemma InitialSelectionKeepsAll(s: Sample, cal: Calendar)
    ensures Keep(s, cal, Selection(0, 23, DaysOfWeek))
  {
  }
}

=== FILE: seqs.dfy ===
/** Sequence operations the dashboard performs through JavaScript's array
    methods: `filter`, `map`, `slice(0, n)`, `indexOf`, `reduce((a, b) => a + b, 0)`
    and insertion into a `Set` (which keeps first occurrences in order). */
module Seqs {

  /** `s.slice(0, n)`: the first n elements, or all of s when it is shorter. */
  function Take<T>(s: seq<T>, n: nat): (r: seq<T>)
    ensures |r| == if |s| < n then |s| else n
    ensures r == s[..|r|]
  {
    if |s| <= n then s else s[..n]
  }

  /** `s.filter(p)`: the elements satisfying p, in their original order. */
  function Filter<T>(s: seq<T>, p: T -> bool): (r: seq<T>)
    ensures |r| <= |s|
    ensures forall i :: 0 <= i < |r| ==> r[i] in s && p(r[i])
  {
    if |s| == 0 then []
    else
      var rest := Filter(s[1..], p);
      assert forall i :: 1 <= i < |s| ==> s[i] == s[1..][i - 1];
      if p(s[0]) then [s[0]] + rest else rest
  }

  /** Filter drops nothing that satisfies p. */
  lemma {:induction false} FilterComplete<T>(s: seq<T>, p: T -> bool, x: T)
    requires x in s && p(x)
    ensures x in Filter(s, p)
  {
    if s[0] != x {
      FilterComplete(s[1..], p, x);
    }
  }

  /** Filter keeps every copy of an element that satisfies p. */
  lemma {:induction false} FilterKeepsCopies<T>(s: seq<T>, p: T -> bool, x: T)
    requires p(x)
    ensures multiset(Filter(s, p))[x] == multiset(s)[x]
  {
    if |s| > 0 {
      FilterKeepsCopies(s[1..], p, x);
      assert s == [s[0]] + s[1..];
    }
  }

  /** Filter keeps each element at most as often as s holds it. */
  lemma {:induction false} FilterSubMultiset<T>(s: seq<T>, p: T -> bool)
    ensures multiset(Filter(s, p)) <= multiset(s)
  {
    if |s| > 0 {
      FilterSubMultiset(s[1..], p);
      assert s == [s[0]] + s[1..];
    }
  }

  /** `s.map(f)`. */
  function Map<T, U>(s: seq<T>, f: T -> U): (r: seq<U>)
    ensures |r| == |s|
    ensures forall i :: 0 <= i < |s| ==> r[i] == f(s[i])
  {
    if |s| == 0 then [] else [f(s[0])] + Map(s[1..], f)
  }

  predicate NoDuplicates<T(==)>(s: seq<T>) {
    forall i, j :: 0 <= i < j < |s| ==> s[i] != s[j]
  }

  /** The values of r come in the order of their first occurrences in s. */
  predicate InFirstOccurrenceOrder<T(==)>(r: seq<T>, s: seq<T>) {
    forall i, j :: 0 <= i < j < |r| ==> IndexOf(s, r[i]) < IndexOf(s, r[j])
  }

  /** `Array.from(new Set(s))`: every value once, at the place of its first occurrence. */
  function Dedup<T(==,!new)>(s: seq<T>): (r: seq<T>)
    ensures NoDuplicates(r)
    ensures forall x :: x in r <==> x in s
    ensures |r| <= |s|
    ensures InFirstOccurrenceOrder(r, s)
  {
    if |s| == 0 then []
    else
      var init, last := s[..|s| - 1], s[|s| - 1];
      assert s == init + [last];
      var d := Dedup(init);
      IndexOfSnoc(init, last);
      if last in d then d else d + [last]
  }

  /** A sequence without repeated values passes through `new Set` unchanged. */
  lemma {:induction false} DedupOfDistinct<T(!new)>(s: seq<T>)
    requires NoDuplicates(s)
    ensures Dedup(s) == s
  {
    if |s| > 0 {
      var init, last := s[..|s| - 1], s[|s| - 1];
      DistinctSplit(s);
      DedupOfDistinct(init);
      assert s == init + [last];
      DedupSnoc(init, last);
    }
  }

  /** Without repeats, the last value is new to the rest, which has no repeats. */
  lemma DistinctSplit<T>(s: seq<T>)
    requires |s| > 0 && NoDuplicates(s)
    ensures NoDuplicates(s[..|s| - 1]) && s[|s| - 1] !in s[..|s| - 1]
  {
  }

  /** Keys that differ pairwise pass through `new Set` as they are. */
  lemma DedupOfDistinctKeys<T, K(!new)>(s: seq<T>, key: T -> K)
    requires forall i, j :: 0 <= i < j < |s| ==> key(s[i]) != key(s[j])
    ensures |Dedup(Map(s, key))| == |s|
    ensures forall i :: 0 <= i < |s| ==> Dedup(Map(s, key))[i] == key(s[i])
  {
    DedupOfDistinct(Map(s, key));
  }

  /** `new Set` over one more value: the value is added at the end when new. */
  lemma DedupSnoc<T(!new)>(init: seq<T>, last: T)
    ensures Dedup(init + [last]) == if last in init then Dedup(init) else Dedup(init) + [last]
  {
    var s := init + [last];
    assert s[..|s| - 1] == init;
  }

  /** `s.indexOf(x)`: the first position of x, or -1 when x does not occur. */
  function IndexOf<T(==)>(s: seq<T>, x: T): (r: int)
    ensures -1 <= r < |s|
    ensures r == -1 <==> x !in s
    ensures 0 <= r ==> s[r] == x && x !in s[..r]
  {
    if |s| == 0 then -1
    else if s[0] == x then 0
    else
      var i := IndexOf(s[1..], x);
      assert s[1..][..if i < 0 then 0 else i] == s[1..if i < 0 then 1 else i + 1];
      if i == -1 then -1 else i + 1
  }

  /** Appending a value moves no first occurrence, and a new value is found
      at the end. */
  lemma {:induction false} IndexOfSnoc<T>(s: seq<T>, a: T)
    ensures forall x :: x in s ==> IndexOf(s + [a], x) == IndexOf(s, x)
    ensures a !in s ==> IndexOf(s + [a], a) == |s|
  {
    if |s| > 0 {
      IndexOfSnoc(s[1..], a);
      assert (s + [a])[1..] == s[1..] + [a];
    }
  }

  /** `s.reduce((a, b) => a + b, 0)`. */
  function Sum(s: seq<real>): real {
    if |s| == 0 then 0.0 else s[0] + Sum(s[1..])
  }

  /** The arithmetic mean of a non-empty sequence (JavaScript gives NaN for an empty one). */
  function Mean(s: seq<real>): real
    requires |s| > 0
  {
    Sum(s) / (|s| as real)
  }

  lemma {:induction false} SumBounds(s: seq<real>, lo: real, hi: real)
    requires forall i :: 0 <= i < |s| ==> lo <= s[i] <= hi
    ensures (|s| as real) * lo <= Sum(s) <= (|s| as real) * hi
  {
    if |s| > 0 {
      SumBounds(s[1..], lo, hi);
    }
  }

  /** A mean lies between any lower and upper bound of its samples. */
  lemma MeanBounds(s: seq<real>, lo: real, hi: real)
    requires |s| > 0
    requires forall i :: 0 <= i < |s| ==> lo <= s[i] <= hi
    ensures lo <= Mean(s) <= hi
  {
    SumBounds(s, lo, hi);
    var n := |s| as real;
    assert Sum(s) / n >= lo by {
      assert Sum(s) >= n * lo;
    }
    assert Sum(s) / n <= hi by {
      assert Sum(s) <= n * hi;
    }
  }

  /** `Math.round`: the nearest integer, halves rounded up. */
  function Round(x: real): (n: int)
    ensures x - 0.5 < n as real <= x + 0.5
  {
    (x + 0.5).Floor
  }

  /** A rounded value stays within integer bounds of the value. */
  lemma RoundBetween(x: real, lo: int, hi: int)
    requires lo as real <= x <= hi as real
    ensures lo <= Round(x) <= hi
  {
  }

  /** Filters by predicates that agree on every element pick the same elements. */
  lemma {:induction false} FilterCongruent<T>(s: seq<T>, p: T -> bool, q: T -> bool)
    requires forall i :: 0 <= i < |s| ==> p(s[i]) == q(s[i])
    ensures Filter(s, p) == Filter(s, q)
  {
    if |s| > 0 {
      FilterCongruent(s[1..], p, q);
    }
  }

  predicate ExactlyOne(a: bool, b: bool, c: bool) {
    (a && !b && !c) || (!a && b && !c) || (!a && !b && c)
  }

  /** When every element satisfies exactly one of three predicates, the three
      filters together count every element once. */
  lemma {:induction false} PartitionCounts<T>(s: seq<T>, a: T -> bool, b: T -> bool, c: T -> bool)
    requires forall i :: 0 <= i < |s| ==> ExactlyOne(a(s[i]), b(s[i]), c(s[i]))
    ensures |Filter(s, a)| + |Filter(s, b)| + |Filter(s, c)| == |s|
  {
    if |s| > 0 {
      assert ExactlyOne(a(s[0]), b(s[0]), c(s[0]));
      PartitionCounts(s[1..], a, b, c);
    }
  }
}

=== FILE: sorting.dfy ===
/** A stable sort by a numeric key, the behaviour JavaScript guarantees for
    `Array.prototype.sort` with a comparator such as `(a, b) => key(b) - key(a)`
    (Descending) or `(a, b) => key(a) - key(b)` (Ascending). */
module Sorting {
  import opened Seqs

  datatype Direction = Ascending | Descending

  /** Key a may stand before key b in a sequence sorted in direction dir. */
  predicate InOrder(a: real, b: real, dir: Direction) {
    match dir
    case Ascending => a <= b
    case Descending => a >= b
  }

  predicate Sorted<T>(s: seq<T>, key: T -> real, dir: Direction) {
    forall i, j :: 0 <= i < j < |s| ==> InOrder(key(s[i]), key(s[j]), dir)
  }

  /** The elements of s whose key is k, in their order in s. A sort is stable
      exactly when it leaves every such class unchanged. */
  function KeyClass<T>(s: seq<T>, key: T -> real, k: real): seq<T> {
    if |s| == 0 then []
    else (if key(s[0]) == k then [s[0]] else []) + KeyClass(s[1..], key, k)
  }

  predicate IsPrefix<T(==)>(a: seq<T>, b: seq<T>) {
    |a| <= |b| && a == b[..|a|]
  }

  /** Inserts x before the first element it may precede: elements with an equal
      key that are already in s stay after x, which keeps the sort stable. */
  function Insert<T>(x: T, s: seq<T>, key: T -> real, dir: Direction): (r: seq<T>)
    ensures |r| == |s| + 1
    ensures multiset(r) == multiset(s) + multiset{x}
  {
    if |s| == 0 then [x]
    else if InOrder(key(x), key(s[0]), dir) then [x] + s
    else
      assert s == [s[0]] + s[1..];
      [s[0]] + Insert(x, s[1..], key, dir)
  }

  lemma KeyClassCons<T>(a: T, t: seq<T>, key: T -> real, k: real)
    ensures KeyClass([a] + t, key, k) == (if key(a) == k then [a] else []) + KeyClass(t, key, k)
  {
    assert ([a] + t)[0] == a;
    assert ([a] + t)[1..] == t;
  }

  /** Insert adds x to the class of its own key and to no other class. */
  lemma {:induction false} InsertKeyClass<T>(x: T, s: seq<T>, key: T -> real, dir: Direction, k: real)
    ensures KeyClass(Insert(x, s, key, dir), key, k) == (if key(x) == k then [x] else []) + KeyClass(s, key, k)
  {
    if |s| == 0 {
      KeyClassCons(x, [], key, k);
    } else if InOrder(key(x), key(s[0]), dir) {
      KeyClassCons(x, s, key, k);
    } else {
      var rest := Insert(x, s[1..], key, dir);
      InsertKeyClass(x, s[1..], key, dir, k);
      KeyClassCons(s[0], rest, key, k);
      KeyClassCons(s[0], s[1..], key, k);
      assert s == [s[0]] + s[1..];
      assert key(x) != key(s[0]);
    }
  }

  lemma InsertMembers<T>(x: T, s: seq<T>, key: T -> real, dir: Direction, y: T)
    ensures y in Insert(x, s, key, dir) <==> y == x || y in s
  {
    var r := Insert(x, s, key, dir);
    assert y in r <==> y in multiset(r);
    assert y in s <==> y in multiset(s);
  }

  /** Every element of a sorted s may stand after its first element, and so
      may anything the first element may stand before. */
  lemma HeadBeforeInsert<T>(x: T, s: seq<T>, key: T -> real, dir: Direction)
    requires |s| > 0 && Sorted(s, key, dir) && InOrder(key(s[0]), key(x), dir)
    ensures forall j :: 0 <= j < |Insert(x, s[1..], key, dir)| ==>
      InOrder(key(s[0]), key(Insert(x, s[1..], key, dir)[j]), dir)
  {
    var rest := Insert(x, s[1..], key, dir);
    forall j | 0 <= j < |rest|
      ensures InOrder(key(s[0]), key(rest[j]), dir)
    {
      var y := rest[j];
      InsertMembers(x, s[1..], key, dir, y);
      if y != x {
        var k :| 0 <= k < |s[1..]| && s[1..][k] == y;
        assert s[k + 1] == y;
      }
    }
  }

  /** Insert keeps a sorted sequence sorted. */
  lemma {:induction false} InsertSorted<T>(x: T, s: seq<T>, key: T -> real, dir: Direction)
    requires Sorted(s, key, dir)
    ensures Sorted(Insert(x, s, key, dir), key, dir)
  {
    if |s| > 0 && !InOrder(key(x), key(s[0]), dir) {
      var rest := Insert(x, s[1..], key, dir);
      assert Sorted(s[1..], key, dir) by {
        forall i, j | 0 <= i < j < |s[1..]|
          ensures InOrder(key(s[1..][i]), key(s[1..][j]), dir)
        {
          assert s[1..][i] == s[i + 1] && s[1..][j] == s[j + 1];
        }
      }
      InsertSorted(x, s[1..], key, dir);
      HeadBeforeInsert(x, s, key, dir);
      var r := Insert(x, s, key, dir);
      assert r == [s[0]] + rest;
      forall i, j | 0 <= i < j < |r|
        ensures InOrder(key(r[i]), key(r[j]), dir)
      {
        assert r[j] == rest[j - 1];
        if i > 0 {
          assert r[i] == rest[i - 1];
        }
      }
    }
  }

  /** Stable insertion sort of s by key in direction dir. Its correctness
      is stated by SortByCorrect. */
  function SortBy<T>(s: seq<T>, key: T -> real, dir: Direction): (r: seq<T>)
    ensures |r| == |s|
  {
    if |s| == 0 then [] else Insert(s[0], SortBy(s[1..], key, dir), key, dir)
  }

  /** SortBy permutes its input into key order, and stably so: every key class
      keeps its order. */
  lemma {:induction false} SortByCorrect<T>(s: seq<T>, key: T -> real, dir: Direction)
    ensures multiset(SortBy(s, key, dir)) == multiset(s)
    ensures Sorted(SortBy(s, key, dir), key, dir)
    ensures forall k :: KeyClass(SortBy(s, key, dir), key, k) == KeyClass(s, key, k)
  {
    if |s| > 0 {
      var rest := SortBy(s[1..], key, dir);
      SortByCorrect(s[1..], key, dir);
      assert s == [s[0]] + s[1..];
      InsertSorted(s[0], rest, key, dir);
      forall k ensures KeyClass(Insert(s[0], rest, key, dir), key, k) == KeyClass(s, key, k) {
        InsertKeyClass(s[0], rest, key, dir, k);
      }
    }
  }

  /** An element of a sorted sequence that did not make it into the first n is
      preceded by n elements, each of which may stand before it. */
  lemma TakeOfSortedDominates<T>(sorted: seq<T>, n: nat, key: T -> real, dir: Direction, c: T)
    requires Sorted(sorted, key, dir)
    requires c in sorted && c !in Take(sorted, n)
    ensures |Take(sorted, n)| == n
    ensures forall i :: 0 <= i < n ==> InOrder(key(sorted[i]), key(c), dir)
  {
    var j :| 0 <= j < |sorted| && sorted[j] == c;
  }

  /** Cutting a sequence short cuts every key class short. */
  lemma {:induction false} KeyClassOfTake<T>(s: seq<T>, n: nat, key: T -> real, k: real)
    ensures IsPrefix(KeyClass(Take(s, n), key, k), KeyClass(s, key, k))
  {
    if |s| > 0 && n > 0 {
      KeyClassOfTake(s[1..], n - 1, key, k);
      assert Take(s, n)[1..] == Take(s[1..], n - 1);
    }
  }

  lemma SortByMembers<T>(s: seq<T>, key: T -> real, dir: Direction)
    ensures forall x :: x in SortBy(s, key, dir) <==> x in s
  {
    var r := SortBy(s, key, dir);
    SortByCorrect(s, key, dir);
    forall x ensures x in r <==> x in s {
      assert x in r <==> x in multiset(r);
      assert x in s <==> x in multiset(s);
    }
  }

  /** Every element of the sorted sequence is an element of the input. */
  lemma SortByElement<T>(s: seq<T>, key: T -> real, dir: Direction, i: nat)
    requires i < |s|
    ensures exists j :: 0 <= j < |s| && SortBy(s, key, dir)[i] == s[j]
  {
    var r := SortBy(s, key, dir);
    SortByCorrect(s, key, dir);
    assert r[i] in multiset(r);
  }

  /** A stable sort of s by key: `[...s].sort(comparator)`. */
  function Sort<T>(s: seq<T>, key: T -> real, dir: Direction): (r: seq<T>)
    ensures |r| == |s| && multiset(r) == multiset(s)
    ensures forall i :: 0 <= i < |r| ==> r[i] in s
    ensures forall i, j :: 0 <= i < j < |r| ==> InOrder(key(r[i]), key(r[j]), dir)
    ensures forall k :: KeyClass(r, key, k) == KeyClass(s, key, k)
  {
    var r := SortBy(s, key, dir);
    SortByCorrect(s, key, dir);
    assert forall i :: 0 <= i < |r| ==> r[i] in s by {
      forall i | 0 <= i < |r| ensures r[i] in s {
        assert r[i] in multiset(r);
      }
    }
    r
  }

  /** The first n elements of s after a stable sort by key: the "sort, then
      slice(0, n)" idiom. */
  function TopN<T>(s: seq<T>, key: T -> real, dir: Direction, n: nat): (r: seq<T>)
    ensures |r| == if |s| < n then |s| else n
    ensures forall i :: 0 <= i < |r| ==> r[i] in s
    ensures forall i, j :: 0 <= i < j < |r| ==> InOrder(key(r[i]), key(r[j]), dir)
  {
    var sorted := SortBy(s, key, dir);
    SortByMembers(s, key, dir);
    SortByCorrect(s, key, dir);
    Take(sorted, n)
  }

  /** An element of s left out of TopN means TopN is full and each of its
      elements may stand before the one left out. */
  lemma TopNDominates<T>(s: seq<T>, key: T -> real, dir: Direction, n: nat, c: T)
    requires c in s && c !in TopN(s, key, dir, n)
    ensures |TopN(s, key, dir, n)| == n
    ensures forall i :: 0 <= i < n ==> InOrder(key(TopN(s, key, dir, n)[i]), key(c), dir)
  {
    SortByMembers(s, key, dir);
    SortByCorrect(s, key, dir);
    TakeOfSortedDominates(SortBy(s, key, dir), n, key, dir, c);
  }

  /** TopN is stable: for each key value, the chosen elements with that key are
      the first ones of s with that key, in their order in s. */
  lemma TopNStable<T>(s: seq<T>, key: T -> real, dir: Direction, n: nat, k: real)
    ensures IsPrefix(KeyClass(TopN(s, key, dir, n), key, k), KeyClass(s, key, k))
  {
    SortByCorrect(s, key, dir);
    KeyClassOfTake(SortBy(s, key, dir), n, key, k);
  }

  /** Two keys that order every pair of elements alike. */
  ghost predicate SameOrder<T(!new)>(key1: T -> real, key2: T -> real) {
    forall a, b :: key1(a) <= key1(b) <==> key2(a) <= key2(b)
  }

  lemma {:induction false} InsertSameOrder<T(!new)>(x: T, s: seq<T>, key1: T -> real, key2: T -> real, dir: Direction)
    requires SameOrder(key1, key2)
    ensures Insert(x, s, key1, dir) == Insert(x, s, key2, dir)
  {
    if |s| > 0 {
      InsertSameOrder(x, s[1..], key1, key2, dir);
    }
  }

  /** Sorting by either of two keys that order all elements alike gives the same
      sequence; in particular, shifting every key by one constant changes nothing. */
  lemma {:induction false} SortBySameOrder<T(!new)>(s: seq<T>, key1: T -> real, key2: T -> real, dir: Direction)
    requires SameOrder(key1, key2)
    ensures SortBy(s, key1, dir) == SortBy(s, key2, dir)
  {
    if |s| > 0 {
      SortBySameOrder(s[1..], key1, key2, dir);
      InsertSameOrder(s[0], SortBy(s[1..], key1, dir), key1, key2, dir);
    }
  }
}

=== FILE: stats_bar.dfy ===
/** The summary counts of src/components/StatsBar.tsx. In severity mode every
    cell is counted under the level `calculateSeverityLevel` gives it; in
    traffic mode the cells are counted by their most severe non-empty bucket,
    with the cells of no bucket left out of the three counts. */
module StatsBar {
  import opened Wrappers
  import opened Seqs
  import opened Traffic
  import TrafficUtils

  /** The four figures the bar shows, for the mode it was rendered in. */
  datatype Stats =
    | SeverityStats(total: nat, high: nat, moderate: nat, normal: nat)
    | TrafficStats(total: nat, critical: nat, high: nat, moderate: nat)

  function Level(d: TrafficData): TrafficUtils.SeverityLevel {
    TrafficUtils.CalculateSeverityLevel(Some(d))
  }

  predicate LevelHigh(d: TrafficData) { Level(d) == TrafficUtils.SeverityLevel.High }
  predicate LevelModerate(d: TrafficData) { Level(d) == TrafficUtils.SeverityLevel.Moderate }
  predicate LevelNormal(d: TrafficData) { Level(d) == TrafficUtils.SeverityLevel.Normal }

  /** The traffic-mode tests, as the bar writes them. */
  predicate CountsCritical(d: TrafficData) { d.darkRed > 0 }
  predicate CountsHigh(d: TrafficData) { d.red > 0 && d.darkRed == 0 }
  predicate CountsModerate(d: TrafficData) { d.yellow > 0 && d.red == 0 && d.darkRed == 0 }

  /** A cell none of the three traffic-mode tests counts. */
  predicate Uncounted(d: TrafficData) {
    !CountsCritical(d) && !CountsHigh(d) && !CountsModerate(d)
  }

  /** The bar's figures. In severity mode the three levels account for every
      cell; in traffic mode the three tests exclude each other, so no cell is
      counted twice and the counts never exceed the total. */
  function GetStats(data: seq<TrafficData>, mode: ViewMode): (r: Stats)
    ensures r.total == |data|
    ensures mode.SeverityView? ==> r.SeverityStats? && r.high + r.moderate + r.normal == r.total
    ensures mode.TrafficView? ==>
      r.TrafficStats? && r.critical + r.high + r.moderate + |Filter(data, Uncounted)| == r.total
  {
    match mode
    case SeverityView =>
      PartitionCounts(data, LevelHigh, LevelModerate, LevelNormal);
      SeverityStats(|data|, |Filter(data, LevelHigh)|, |Filter(data, LevelModerate)|, |Filter(data, LevelNormal)|)
    case TrafficView =>
      var critical, high, moderate := Filter(data, CountsCritical), Filter(data, CountsHigh), Filter(data, CountsModerate);
      TrafficPartition(data);
      TrafficStats(|data|, |critical|, |high|, |moderate|)
  }

  /** The three traffic-mode tests and the uncounted remainder split the cells. */
  lemma {:induction false} TrafficPartition(s: seq<TrafficData>)
    ensures |Filter(s, CountsCritical)| + |Filter(s, CountsHigh)| + |Filter(s, CountsModerate)| + |Filter(s, Uncounted)| == |s|
  {
    if |s| > 0 {
      TrafficPartition(s[1..]);
    }
  }

  /** The severity-mode counts are the cells whose latest severity exceeds
      P99, and those that exceed only P95, as the percentile differences show. */
  lemma SeverityStatsByDifferences(data: seq<TrafficData>)
    ensures GetStats(data, SeverityView).high ==
      |Filter(data, (d: TrafficData) => TrafficUtils.CalculateSeverityDifferences(Some(d)).p99Diff > 0.0)|
    ensures GetStats(data, SeverityView).moderate ==
      |Filter(data, (d: TrafficData) => var g := TrafficUtils.CalculateSeverityDifferences(Some(d)); g.p99Diff <= 0.0 && g.p95Diff > 0.0)|
  {
    forall d: TrafficData {
      TrafficUtils.SeverityLevelFromDifferences(Some(d));
    }
    FilterCongruent(data, LevelHigh,
      (d: TrafficData) => TrafficUtils.CalculateSeverityDifferences(Some(d)).p99Diff > 0.0);
    FilterCongruent(data, LevelModerate,
      (d: TrafficData) => var g := TrafficUtils.CalculateSeverityDifferences(Some(d)); g.p99Diff <= 0.0 && g.p95Diff > 0.0);
  }

  function TrafficLevel(d: TrafficData): TrafficUtils.TrafficLevel {
    TrafficUtils.GetTrafficSeverityLevel(d)
  }

  /** With non-negative counts the traffic-mode figures agree with
      `getTrafficSeverityLevel`: critical, high and moderate count the Critical,
      High and Medium cells, and the cells left out are exactly those with no
      incidents at all. */
  lemma TrafficStatsByLevel(data: seq<TrafficData>)
    requires forall i :: 0 <= i < |data| ==> NonNegativeCounts(data[i])
    ensures GetStats(data, TrafficView).critical ==
      |Filter(data, (d: TrafficData) => TrafficLevel(d) == TrafficUtils.TrafficLevel.Critical)|
    ensures GetStats(data, TrafficView).high ==
      |Filter(data, (d: TrafficData) => TrafficLevel(d) == TrafficUtils.TrafficLevel.High)|
    ensures GetStats(data, TrafficView).moderate ==
      |Filter(data, (d: TrafficData) => TrafficLevel(d) == TrafficUtils.TrafficLevel.Medium)|
    ensures GetStats(data, TrafficView).total - GetStats(data, TrafficView).critical
      - GetStats(data, TrafficView).high - GetStats(data, TrafficView).moderate ==
      |Filter(data, (d: TrafficData) => TrafficLevel(d) == TrafficUtils.TrafficLevel.Normal)|
  {
    forall i | 0 <= i < |data| {
      TrafficUtils.TrafficLevelByBuckets(data[i]);
    }
    FilterCongruent(data, CountsCritical, (d: TrafficData) => TrafficLevel(d) == TrafficUtils.TrafficLevel.Critical);
    FilterCongruent(data, CountsHigh, (d: TrafficData) => TrafficLevel(d) == TrafficUtils.TrafficLevel.High);
    FilterCongruent(data, CountsModerate, (d: TrafficData) => TrafficLevel(d) == TrafficUtils.TrafficLevel.Medium);
    FilterCongruent(data, Uncounted, (d: TrafficData) => TrafficLevel(d) == TrafficUtils.TrafficLevel.Normal);
  }
}

=== FILE: strings.dfy ===
/** The string operations of JavaScript the dashboard relies on: decimal
    printing of integers (template literals, `toString()`), `Number(s)` on
    decimal text, `split` on one character, `includes`, `endsWith`, `slice`,
    `replace` of the first occurrence, a global one-character `replace`, and
    `padStart(2, "0")`. Strings are sequences of Dafny `char`, that is of
    Unicode scalar values; JavaScript's strings are UTF-16 code units, which
    differ only for lone surrogates. */
module Strings {
  import opened Wrappers

  predicate IsDigit(c: char) {
    '0' <= c <= '9'
  }

  predicate AllDigits(s: string) {
    forall i :: 0 <= i < |s| ==> IsDigit(s[i])
  }

  function DigitChar(d: nat): (c: char)
    requires d < 10
    ensures IsDigit(c)
    ensures c as int - '0' as int == d
  {
    ('0' as int + d) as char
  }

  /** The value of a string of decimal digits, read most significant digit first;
      the empty string reads as 0, as `Number("")` does. */
  function DigitsValue(s: string): nat
    requires AllDigits(s)
  {
    if |s| == 0 then 0
    else 10 * DigitsValue(s[..|s| - 1]) + (s[|s| - 1] as int - '0' as int)
  }

  /** `String(n)` for a non-negative integer: its shortest decimal form. */
  function NatToString(n: nat): (s: string)
    ensures 1 <= |s|
    ensures AllDigits(s)
    ensures |s| > 1 ==> s[0] != '0'
    ensures DigitsValue(s) == n
    ensures n < 10 <==> |s| == 1
  {
    if n < 10 then [DigitChar(n)]
    else
      var p := NatToString(n / 10);
      var s := p + [DigitChar(n % 10)];
      assert s[..|s| - 1] == p;
      s
  }

  /** `String(i)` for any integer: a '-' sign before the digits of a negative one. */
  function IntToString(i: int): (s: string)
    ensures 1 <= |s|
    ensures s[0] == '-' <==> i < 0
    ensures 0 <= i ==> AllDigits(s)
  {
    if i < 0 then "-" + NatToString(-i) else NatToString(i)
  }

  lemma NatToStringTwoDigits(n: nat)
    requires 10 <= n < 100
    ensures |NatToString(n)| == 2
  {
    assert NatToString(n) == NatToString(n / 10) + [DigitChar(n % 10)];
  }

  /** `Number(s)` on the strings this model needs: "" reads as 0, a run of
      decimal digits as its value, and '-' followed by digits as the negated
      value. None stands for every other string (NaN or a form such as
      " 1", "+1", "1e3" or "0x1" that the model does not cover). */
  function NumberOf(s: string): (r: Option<int>)
    ensures AllDigits(s) ==> r == Some(DigitsValue(s) as int)
    ensures r.Some? && r.value < 0 ==> |s| > 1 && s[0] == '-'
  {
    if AllDigits(s) then Some(DigitsValue(s) as int)
    else if |s| > 1 && s[0] == '-' && AllDigits(s[1..]) then Some(-(DigitsValue(s[1..]) as int))
    else None
  }

  /** Reading back the decimal form of an integer gives the integer. */
  lemma NumberOfIntToString(i: int)
    ensures NumberOf(IntToString(i)) == Some(i)
  {
    if i < 0 {
      var s := IntToString(i);
      assert s[1..] == NatToString(-i);
      assert !AllDigits(s) by {
        assert !IsDigit(s[0]);
      }
    }
  }

  /** Distinct integers print differently. */
  lemma IntToStringInjective(i: int, j: int)
    requires IntToString(i) == IntToString(j)
    ensures i == j
  {
    NumberOfIntToString(i);
    NumberOfIntToString(j);
  }

  /** `s.split(sep)` for a one-character separator: the pieces between separators. */
  function Split(s: string, sep: char): (r: seq<string>)
    ensures |r| >= 1
    ensures forall i :: 0 <= i < |r| ==> sep !in r[i]
  {
    if |s| == 0 then [""]
    else
      var rest := Split(s[1..], sep);
      if s[0] == sep then [""] + rest
      else [[s[0]] + rest[0]] + rest[1..]
  }

  /** `parts.join(sep)`. */
  function Join(parts: seq<string>, sep: char): string
    requires |parts| >= 1
  {
    if |parts| == 1 then parts[0] else parts[0] + [sep] + Join(parts[1..], sep)
  }

  /** Joining the pieces of a split with the same separator restores the string. */
  lemma {:induction false} JoinSplit(s: string, sep: char)
    ensures Join(Split(s, sep), sep) == s
  {
    if |s| > 0 {
      var rest := Split(s[1..], sep);
      JoinSplit(s[1..], sep);
      if s[0] == sep {
        assert ([""] + rest)[1..] == rest;
      } else {
        var r := [[s[0]] + rest[0]] + rest[1..];
        if |rest| == 1 {
          assert r == [[s[0]] + rest[0]];
        } else {
          assert r[1..] == rest[1..];
          assert Join(rest, sep) == rest[0] + [sep] + Join(rest[1..], sep);
        }
      }
    }
  }

  /** Splitting a separator-free piece followed by a separator yields that piece first. */
  lemma {:induction false} SplitAfterPiece(a: string, sep: char, b: string)
    requires sep !in a
    ensures Split(a + [sep] + b, sep) == [a] + Split(b, sep)
  {
    if |a| == 0 {
      assert a + [sep] + b == [sep] + b;
      assert ([sep] + b)[1..] == b;
    } else {
      SplitAfterPiece(a[1..], sep, b);
      assert (a + [sep] + b)[1..] == a[1..] + [sep] + b;
      assert [a[0]] + a[1..] == a;
    }
  }

  /** A string without the separator splits into itself alone. */
  lemma {:induction false} SplitWithoutSeparator(a: string, sep: char)
    requires sep !in a
    ensures Split(a, sep) == [a]
  {
    if |a| > 0 {
      SplitWithoutSeparator(a[1..], sep);
      assert [a[0]] + a[1..] == a;
    }
  }

  /** t occurs in s starting at position i. */
  predicate OccursAt(s: string, t: string, i: int) {
    0 <= i && i + |t| <= |s| && s[i..i + |t|] == t
  }

  /** `s.includes(t)`. */
  function Includes(s: string, t: string): (b: bool)
    ensures b <==> exists i :: OccursAt(s, t, i)
    decreases |s|
  {
    if |t| > |s| then false
    else if s[..|t|] == t then
      assert OccursAt(s, t, 0);
      true
    else
      var b := Includes(s[1..], t);
      assert forall i :: OccursAt(s[1..], t, i) <==> OccursAt(s, t, i + 1) by {
        forall i ensures OccursAt(s[1..], t, i) <==> OccursAt(s, t, i + 1) {
          if 0 <= i && i + |t| <= |s[1..]| {
            assert s[1..][i..i + |t|] == s[i + 1..i + 1 + |t|];
          }
        }
      }
      assert !OccursAt(s, t, 0);
      assert (exists i :: OccursAt(s, t, i)) ==> b by {
        if exists i :: OccursAt(s, t, i) {
          var i :| OccursAt(s, t, i);
          assert OccursAt(s[1..], t, i - 1);
        }
      }
      b
  }

  /** Text built as a + (b + c) starts with a and ends with c. */
  lemma PrefixAndSuffix(a: string, b: string, c: string)
    ensures var s := a + (b + c); s[..|a|] == a && |c| <= |s| && s[|s| - |c|..] == c
  {
    var s := a + (b + c);
    assert s[|s| - |c|..] == c by {
      forall i | 0 <= i < |c| ensures s[|s| - |c| + i] == c[i] {}
    }
  }

  /** `s.endsWith(t)`. */
  predicate EndsWith(s: string, t: string) {
    |t| <= |s| && s[|s| - |t|..] == t
  }

  /** r is s with its first `from`, if any, turned into `to`: every other
      position is unchanged. */
  predicate ReplacesFirst(s: string, r: string, from: char, to: char) {
    && |r| == |s|
    && (forall i :: 0 <= i < |s| && s[i] != from ==> r[i] == s[i])
    && (forall i :: 0 <= i < |s| && s[i] == from ==> r[i] == (if from in s[..i] then from else to))
  }

  lemma ReplacesFirstHead(t: string, from: char, to: char)
    ensures ReplacesFirst([from] + t, [to] + t, from, to)
  {
    var s, r := [from] + t, [to] + t;
    forall i | 0 < i < |s| && s[i] == from ensures r[i] == from && from in s[..i] {
      assert s[..i][0] == from;
    }
  }

  lemma ReplacesFirstCons(c: char, t: string, rest: string, from: char, to: char)
    requires c != from && ReplacesFirst(t, rest, from, to)
    ensures ReplacesFirst([c] + t, [c] + rest, from, to)
  {
    var s, r := [c] + t, [c] + rest;
    forall i | 0 < i < |s| && s[i] == from
      ensures r[i] == (if from in s[..i] then from else to)
    {
      assert s[i] == t[i - 1];
      assert s[..i] == [c] + t[..i - 1];
    }
  }

  /** `s.replace(from, to)` with one-character strings: only the first occurrence changes. */
  function ReplaceFirst(s: string, from: char, to: char): (r: string)
    ensures ReplacesFirst(s, r, from, to)
    ensures from !in s ==> r == s
  {
    if |s| == 0 then s
    else if s[0] == from then
      ReplacesFirstHead(s[1..], from, to);
      assert s == [from] + s[1..];
      [to] + s[1..]
    else
      var rest := ReplaceFirst(s[1..], from, to);
      ReplacesFirstCons(s[0], s[1..], rest, from, to);
      assert s == [s[0]] + s[1..];
      [s[0]] + rest
  }

  /** `s.replace(/from/g, to)` with one-character strings: every occurrence changes. */
  function ReplaceAll(s: string, from: char, to: char): (r: string)
    ensures |r| == |s|
    ensures forall i :: 0 <= i < |s| ==> r[i] == if s[i] == from then to else s[i]
  {
    if |s| == 0 then s
    else [if s[0] == from then to else s[0]] + ReplaceAll(s[1..], from, to)
  }

  /** `s.padStart(2, "0")`. */
  function PadStart2(s: string): (r: string)
    ensures |r| == if |s| < 2 then 2 else |s|
    ensures EndsWith(r, s)
    ensures forall i :: 0 <= i < |r| - |s| ==> r[i] == '0'
  {
    if |s| >= 2 then s else if |s| == 1 then "0" + s else "00"
  }
}

=== FILE: time_format.dfy ===
/** Display formats of src/lib/timeFormat.ts. The chart label is built from
    the calendar fields of a date; the two long formats take the host's
    localized "en-IN" text (given here as a parameter, since `Intl` is not
    modelled) and post-process it: every '/' becomes '-', and " IST" is
    appended when the time zone is requested and the text lacks it. */
module TimeFormat {
  import opened Strings

  /** `n.toString().padStart(2, "0")`. */
  function TwoDigits(n: int): string {
    PadStart2(IntToString(n))
  }

  /** A number below 100 prints as exactly two digits that read back as it. */
  lemma TwoDigitsRoundTrip(n: nat)
    requires n < 100
    ensures |TwoDigits(n)| == 2 && AllDigits(TwoDigits(n))
    ensures DigitsValue(TwoDigits(n)) == n
  {
    var s := IntToString(n);
    if n < 10 {
      var t := TwoDigits(n);
      assert t == "0" + s;
      assert t[..1] == "0";
    } else {
      NatToStringTwoDigits(n);
    }
  }

  /** `formatChartTime`: "DD/MM HH:MM" from the day of the month, the
      zero-based month, the hour and the minute. */
  function FormatChartTime(day: int, month0: int, hours: int, minutes: int): (r: string)
    ensures |r| >= 11
  {
    TwoDigits(day) + "/" + TwoDigits(month0 + 1) + " " + TwoDigits(hours) + ":" + TwoDigits(minutes)
  }

  /** Calendar fields as a host Date reports them. */
  predicate ValidFields(day: int, month0: int, hours: int, minutes: int) {
    1 <= day <= 31 && 0 <= month0 <= 11 && 0 <= hours <= 23 && 0 <= minutes <= 59
  }

  lemma LabelSlices(a: string, b: string, c: string, d: string)
    requires |a| == 2 && |b| == 2 && |c| == 2 && |d| == 2
    ensures var r := a + "/" + b + " " + c + ":" + d;
      && |r| == 11 && r[2] == '/' && r[5] == ' ' && r[8] == ':'
      && r[0..2] == a && r[3..5] == b && r[6..8] == c && r[9..11] == d
  {
  }

  /** For calendar fields the label has exactly 11 characters with its
      separators at fixed places, and each two-digit field reads back as its
      value, the month as the zero-based month plus one. */
  lemma ChartTimeLayout(day: int, month0: int, hours: int, minutes: int)
    requires ValidFields(day, month0, hours, minutes)
    ensures var r := FormatChartTime(day, month0, hours, minutes);
      && |r| == 11
      && r[2] == '/' && r[5] == ' ' && r[8] == ':'
      && AllDigits(r[0..2]) && DigitsValue(r[0..2]) == day
      && AllDigits(r[3..5]) && DigitsValue(r[3..5]) == month0 + 1
      && AllDigits(r[6..8]) && DigitsValue(r[6..8]) == hours
      && AllDigits(r[9..11]) && DigitsValue(r[9..11]) == minutes
  {
    TwoDigitsRoundTrip(day);
    TwoDigitsRoundTrip(month0 + 1);
    TwoDigitsRoundTrip(hours);
    TwoDigitsRoundTrip(minutes);
    LabelSlices(TwoDigits(day), TwoDigits(month0 + 1), TwoDigits(hours), TwoDigits(minutes));
  }

  /** The label determines the calendar fields it was built from. */
  lemma ChartTimeInjective(d1: int, m1: int, h1: int, n1: int, d2: int, m2: int, h2: int, n2: int)
    requires ValidFields(d1, m1, h1, n1) && ValidFields(d2, m2, h2, n2)
    requires FormatChartTime(d1, m1, h1, n1) == FormatChartTime(d2, m2, h2, n2)
    ensures d1 == d2 && m1 == m2 && h1 == h2 && n1 == n2
  {
    ChartTimeLayout(d1, m1, h1, n1);
    ChartTimeLayout(d2, m2, h2, n2);
  }

  /** The post-processing shared by `formatDetailedTime` and `formatRangeTime`. */
  function PostProcess(localized: string, includeTimeZone: bool): (r: string)
    ensures '/' !in r
    ensures includeTimeZone ==> Includes(r, "IST")
    ensures !includeTimeZone ==> |r| == |localized|
    ensures |localized| <= |r|
    ensures forall i :: 0 <= i < |localized| ==> r[i] == if localized[i] == '/' then '-' else localized[i]
  {
    var f := ReplaceAll(localized, '/', '-');
    if includeTimeZone && !Includes(f, "IST") then
      var r := f + " IST";
      assert OccursAt(r, "IST", |f| + 1);
      r
    else f
  }

  /** `formatDetailedTime`, given the localized text of the date. */
  function FormatDetailedTime(localized: string): (r: string)
    ensures '/' !in r && Includes(r, "IST")
  {
    PostProcess(localized, true)
  }

  /** `formatRangeTime`, given the localized text of the date: its time zone
      option is off, so nothing is appended. */
  function FormatRangeTime(localized: string): (r: string)
    ensures '/' !in r && |r| == |localized|
  {
    PostProcess(localized, false)
  }

  lemma ReplaceAllAbsent(s: string, from: char, to: char)
    requires from !in s
    ensures ReplaceAll(s, from, to) == s
  {
  }

  /** Post-processing is idempotent: formatted text passes through unchanged,
      so " IST" is never appended twice. */
  lemma PostProcessIdempotent(localized: string, includeTimeZone: bool)
    ensures PostProcess(PostProcess(localized, includeTimeZone), includeTimeZone) == PostProcess(localized, includeTimeZone)
  {
    ReplaceAllAbsent(PostProcess(localized, includeTimeZone), '/', '-');
  }

  /** " IST" is appended exactly when the localized text, after the slash
      replacement, lacks "IST"; text that already names the zone keeps its
      length. */
  lemma DetailedAppendsOnlyWhenAbsent(localized: string)
    ensures Includes(ReplaceAll(localized, '/', '-'), "IST") ==> |FormatDetailedTime(localized)| == |localized|
    ensures !Includes(ReplaceAll(localized, '/', '-'), "IST") ==> FormatDetailedTime(localized) == ReplaceAll(localized, '/', '-') + " IST"
  {
  }
}

=== FILE: time_utils.dfy ===
/** Timestamp handling of src/lib/timeUtils.ts: how `parseISTTimestamp`
    reshapes the server's timestamp text before handing it to the host's date
    parser, and the "time ago" phrase of `getHoursAgo`. The host's parser and
    clock are not modelled: the parser is a given function from text to an
    instant in milliseconds, and the current instant is a parameter. */
module TimeUtils {
  import opened Wrappers
  import opened Strings

  const MsPerMinute: int := 60000
  const MsPerHour: int := 3600000

  /** What `parseISTTimestamp` builds its Date from: the current instant, or
      the host's parse of a text. */
  datatype DateSource = CurrentTime | Parsed(text: string)

  /** The string dispatch of `parseISTTimestamp`. A missing or empty timestamp
      means now. ISO text (it contains 'T') loses a trailing 'Z', so that the
      host reads it as local time; other text has its first space turned into
      'T'. */
  function DateArgument(ts: Option<string>): (a: DateSource)
    ensures a == CurrentTime <==> ts.None? || ts.value == ""
    ensures a.Parsed? ==> |a.text| == |ts.value| || |a.text| == |ts.value| - 1
    ensures ts.Some? && Includes(ts.value, "T") && EndsWith(ts.value, "Z") ==> a == Parsed(ts.value[..|ts.value| - 1])
    ensures ts.Some? && Includes(ts.value, "T") && !EndsWith(ts.value, "Z") ==> a == Parsed(ts.value)
    ensures ts.Some? && ts.value != "" && !Includes(ts.value, "T") ==> a.Parsed? && ReplacesFirst(ts.value, a.text, ' ', 'T')
  {
    if ts.None? || ts.value == "" then CurrentTime
    else
      var s := ts.value;
      if Includes(s, "T") then
        if EndsWith(s, "Z") then Parsed(s[..|s| - 1]) else Parsed(s)
      else Parsed(ReplaceFirst(s, ' ', 'T'))
  }

  /** `parseISTTimestamp`, given the current instant and the host's parser. */
  function ParseISTTimestamp(ts: Option<string>, now: int, parse: string -> int): (t: int)
    ensures ts.None? ==> t == now
    ensures DateArgument(ts).Parsed? ==> t == parse(DateArgument(ts).text)
  {
    match DateArgument(ts)
    case CurrentTime => now
    case Parsed(text) => parse(text)
  }

  lemma NotIncludesChar(s: string, c: char)
    requires c !in s
    ensures !Includes(s, [c])
  {
    forall i ensures !OccursAt(s, [c], i) {
      if 0 <= i && i + 1 <= |s| {
        assert s[i..i + 1] == [s[i]];
      }
    }
  }

  lemma IncludesChar(s: string, i: nat)
    requires i < |s|
    ensures Includes(s, [s[i]])
  {
    assert s[i..i + 1] == [s[i]];
    assert OccursAt(s, [s[i]], i);
  }

  /** The server's ISO shape "date" + "T" + "time" + "Z" reaches the host
      parser without its 'Z', as local-time text. */
  lemma IsoShape(date: string, time: string)
    ensures DateArgument(Some(date + "T" + time + "Z")) == Parsed(date + "T" + time)
  {
    var iso := date + "T" + time + "Z";
    IncludesChar(iso, |date|);
    assert EndsWith(iso, "Z");
    assert iso[..|iso| - 1] == date + "T" + time;
  }

  /** The spaced shape "date" + " " + "time" reaches the host parser as
      "date" + "T" + "time": only the first space changes. */
  lemma SpacedShape(date: string, time: string)
    requires 'T' !in date && 'T' !in time && ' ' !in date
    ensures DateArgument(Some(date + " " + time)) == Parsed(date + "T" + time)
  {
    var spaced := date + " " + time;
    assert 'T' !in spaced by {
      forall i | 0 <= i < |spaced| ensures spaced[i] != 'T' {
        if i < |date| {
          assert spaced[i] == date[i];
        } else if i > |date| {
          assert spaced[i] == time[i - |date| - 1];
        }
      }
    }
    NotIncludesChar(spaced, 'T');
    var r := ReplaceFirst(spaced, ' ', 'T');
    assert spaced[..|date|] == date;
    forall i | 0 <= i < |r| ensures r[i] == (date + "T" + time)[i] {
      if i > |date| {
        assert spaced[..i][|date|] == ' ';
      }
    }
  }

  /** The server writes one moment either as "date" + "T" + "time" + "Z" or as
      "date" + " " + "time"; both shapes reach the host parser as the same
      text, so they denote the same instant. */
  lemma TimestampShapesAgree(date: string, time: string, now: int, parse: string -> int)
    requires 'T' !in date && 'T' !in time && ' ' !in date
    ensures ParseISTTimestamp(Some(date + "T" + time + "Z"), now, parse)
         == ParseISTTimestamp(Some(date + " " + time), now, parse)
  {
    IsoShape(date, time);
    SpacedShape(date, time);
  }

  /** "" for one, "s" for any other count. */
  function Plural(n: int): string {
    if n == 1 then "" else "s"
  }

  /** The phrase before " ago" for a nonzero number of elapsed minutes. */
  function AgoStem(minutes: int, hours: int): string {
    if minutes < 60 then IntToString(minutes) + " minute" + Plural(minutes)
    else if hours < 24 then
      var rem := minutes % 60;
      if rem == 0 then IntToString(hours) + " hour" + Plural(hours)
      else IntToString(hours) + "h " + IntToString(rem) + "m"
    else
      var days := hours / 24;
      if days == 1 then "1 day" else IntToString(days) + " days"
  }

  /** `getHoursAgo`, given the elapsed milliseconds `now - date`. Minutes and
      hours are floored, as `Math.floor` does; the remainder and the day count
      are only taken of positive numbers, where JavaScript's `%` and `/` agree
      with Dafny's. */
  function GetHoursAgo(diffMs: int): (r: string)
    ensures r == "Just now" <==> 0 <= diffMs < MsPerMinute
    ensures r != "Just now" ==> EndsWith(r, " ago")
  {
    var minutes := diffMs / MsPerMinute;
    if minutes == 0 then "Just now"
    else
      var r := AgoStem(minutes, diffMs / MsPerHour) + " ago";
      assert r[|r| - 1] == 'o' && r[|r| - 4..] == " ago";
      r
  }

  lemma {:induction false} MulAtLeast(k: int, d: int)
    requires k >= 1 && d > 0
    ensures k * d >= d
  {
    if k > 1 {
      MulAtLeast(k - 1, d);
      assert k * d == (k - 1) * d + d;
    }
  }

  /** Quotient and remainder are unique. */
  lemma DivMod(a: int, d: int, q: int, rem: int)
    requires d > 0 && a == q * d + rem && 0 <= rem < d
    ensures a / d == q && a % d == rem
  {
    var q0, r0 := a / d, a % d;
    assert a == q0 * d + r0;
    if q0 < q {
      MulAtLeast(q - q0, d);
    } else if q < q0 {
      MulAtLeast(q0 - q, d);
    }
  }

  /** The whole hours elapsed are the whole minutes elapsed divided by 60, so
      the "Nh Mm" phrase splits the elapsed minutes exactly: 60·N + M of them. */
  lemma HoursFromMinutes(diffMs: int)
    ensures diffMs / MsPerHour == (diffMs / MsPerMinute) / 60
    ensures 60 * (diffMs / MsPerHour) + (diffMs / MsPerMinute) % 60 == diffMs / MsPerMinute
  {
    var m := diffMs / MsPerMinute;
    var r := diffMs % MsPerMinute;
    assert diffMs == 60 * MsPerMinute * (m / 60) + MsPerMinute * (m % 60) + r;
    assert 0 <= MsPerMinute * (m % 60) + r < MsPerHour;
  }

  /** From one to fifty-nine whole minutes: "1 minute ago", "N minutes ago". */
  lemma MinutesAgo(diffMs: int, m: int)
    requires 1 <= m < 60 && m * MsPerMinute <= diffMs < (m + 1) * MsPerMinute
    ensures GetHoursAgo(diffMs) == IntToString(m) + (if m == 1 then " minute ago" else " minutes ago")
  {
    DivMod(diffMs, MsPerMinute, m, diffMs - m * MsPerMinute);
  }

  /** Whole hours under a day: "1 hour ago", "N hours ago". */
  lemma WholeHoursAgo(diffMs: int, h: int)
    requires 1 <= h < 24 && h * MsPerHour <= diffMs < h * MsPerHour + MsPerMinute
    ensures GetHoursAgo(diffMs) == IntToString(h) + (if h == 1 then " hour ago" else " hours ago")
  {
    DivMod(diffMs, MsPerMinute, 60 * h, diffMs - h * MsPerHour);
    DivMod(diffMs, MsPerHour, h, diffMs - h * MsPerHour);
    DivMod(60 * h, 60, h, 0);
  }

  /** Hours and leftover minutes under a day: "Nh Mm ago". */
  lemma HoursAndMinutesAgo(diffMs: int, h: int, m: int)
    requires 1 <= h < 24 && 1 <= m < 60
    requires h * MsPerHour + m * MsPerMinute <= diffMs < h * MsPerHour + (m + 1) * MsPerMinute
    ensures GetHoursAgo(diffMs) == IntToString(h) + "h " + IntToString(m) + "m ago"
  {
    var minutes := 60 * h + m;
    DivMod(diffMs, MsPerMinute, minutes, diffMs - minutes * MsPerMinute);
    DivMod(diffMs, MsPerHour, h, diffMs - h * MsPerHour);
    DivMod(minutes, 60, h, m);
  }

  /** A day or more: the whole days, "1 day ago" or "N days ago". */
  lemma DaysAgo(diffMs: int, d: int)
    requires 1 <= d && d * 24 * MsPerHour <= diffMs < (d + 1) * 24 * MsPerHour
    ensures GetHoursAgo(diffMs) == if d == 1 then "1 day ago" else IntToString(d) + " days ago"
  {
    var hours := diffMs / MsPerHour;
    assert 24 * d <= hours < 24 * (d + 1);
    DivMod(hours, 24, d, hours - 24 * d);
    assert diffMs / MsPerMinute >= 60;
  }
}

=== FILE: traffic_map_grid.dfy ===
/** The colouring and layout of the map grid in
    src/components/TrafficMapGrid.tsx: each of the 24 × 16 cells becomes a tile
    with its geographic box, a fill colour and opacity chosen from the cell's
    record, its 1-based grid number, and, when top-10 highlighting is on and
    the cell is selected, a rank badge. Map drawing itself is left to Leaflet
    and is not modelled. */
module TrafficMapGrid {
  import opened Wrappers
  import opened Seqs
  import opened Strings
  import opened Traffic
  import opened GridBoundaries
  import GridUtils
  import TimeUtils
  import TrafficUtils

  /** A tile's fill colour and fill opacity. */
  datatype CellColor = CellColor(fill: string, opacity: real)

  /** The pale fill of a cell with nothing to show. */
  const NeutralFill: string := "#f1f5f9"
  const Neutral: CellColor := CellColor(NeutralFill, 0.15)

  const DarkRedFill: string := "#7f1d1d"
  const RedFill: string := "#dc2626"
  const AmberFill: string := "#ca8a04"
  const YellowFill: string := "#eab308"

  /** The fill severity mode gives each level. */
  function SeverityFill(l: TrafficUtils.SeverityLevel): string {
    match l
    case High => RedFill
    case Moderate => AmberFill
    case Normal => NeutralFill
  }

  /** The fill traffic mode gives each level of `getTrafficSeverityLevel`. */
  function TrafficFill(l: TrafficUtils.TrafficLevel): string {
    match l
    case Critical => DarkRedFill
    case High => RedFill
    case Medium => YellowFill
    case Normal => NeutralFill
  }

  /** `getCellColor`. A missing cell is neutral. Severity mode reads the
      percentile differences: above P99 is red, above P95 only is amber. Traffic
      mode is neutral for a zero total and otherwise takes the most severe
      positive bucket. A coloured cell is drawn more opaque when it is a top-10
      cell; a neutral one is not. The severity fill is the one its
      `calculateSeverityLevel` level calls for. */
  function GetCellColor(cell: Option<TrafficData>, mode: ViewMode, isTop10: bool): (r: CellColor)
    ensures cell.None? ==> r == Neutral
    ensures mode.SeverityView? ==> r.fill == SeverityFill(TrafficUtils.CalculateSeverityLevel(cell))
    ensures r.fill == NeutralFill <==> r == Neutral
  {
    if cell.None? then Neutral
    else
      var c := cell.value;
      var total := TrafficUtils.CalculateTotalTraffic(c);
      match mode
      case SeverityView =>
        var diffs := TrafficUtils.CalculateSeverityDifferences(cell);
        TrafficUtils.SeverityLevelFromDifferences(cell);
        if diffs.p99Diff > 0.0 then CellColor(RedFill, if isTop10 then 0.35 else 0.25)
        else if diffs.p95Diff > 0.0 then CellColor(AmberFill, if isTop10 then 0.35 else 0.25)
        else Neutral
      case TrafficView =>
        if total == 0 then Neutral
        else if c.darkRed > 0 then CellColor(DarkRedFill, if isTop10 then 0.4 else 0.3)
        else if c.red > 0 then CellColor(RedFill, if isTop10 then 0.35 else 0.25)
        else if c.yellow > 0 then CellColor(YellowFill, if isTop10 then 0.35 else 0.25)
        else Neutral
  }

  /** With non-negative counts, the traffic-mode fill is the one the cell's
      `getTrafficSeverityLevel` level calls for. */
  lemma TrafficColorByLevel(c: TrafficData, isTop10: bool)
    requires NonNegativeCounts(c)
    ensures GetCellColor(Some(c), TrafficView, isTop10).fill == TrafficFill(TrafficUtils.GetTrafficSeverityLevel(c))
  {
    TrafficUtils.TrafficLevelByBuckets(c);
  }

  /** Being a top-10 cell changes only the opacity, and only upwards: it
      raises exactly the coloured cells, by a tenth. */
  lemma Top10OnlyRaisesOpacity(cell: Option<TrafficData>, mode: ViewMode)
    ensures GetCellColor(cell, mode, true).fill == GetCellColor(cell, mode, false).fill
    ensures GetCellColor(cell, mode, false) != Neutral ==>
      GetCellColor(cell, mode, true).opacity == GetCellColor(cell, mode, false).opacity + 0.1
    ensures GetCellColor(cell, mode, false) == Neutral ==> GetCellColor(cell, mode, true) == Neutral
  {
  }

  /** A JavaScript `Map` filled by `set(key(item), item)` for each item in
      order: every key present, a later item replacing an earlier one. */
  function LastByKey<T, K>(s: seq<T>, key: T -> K): (m: map<K, T>)
    ensures forall i :: 0 <= i < |s| ==> key(s[i]) in m
    ensures forall k :: k in m ==> key(m[k]) == k && m[k] in s
  {
    if |s| == 0 then map[]
    else
      var init, last := s[..|s| - 1], s[|s| - 1];
      assert forall i :: 0 <= i < |init| ==> init[i] == s[i];
      LastByKey(init, key)[key(last) := last]
  }

  /** The map keeps, for each key, the last item with that key. */
  lemma {:induction false} LastByKeyWins<T, K>(s: seq<T>, key: T -> K, i: nat)
    requires i < |s|
    requires forall j :: i < j < |s| ==> key(s[j]) != key(s[i])
    ensures LastByKey(s, key)[key(s[i])] == s[i]
  {
    if i < |s| - 1 {
      var init := s[..|s| - 1];
      assert forall j :: i < j < |init| ==> init[j] == s[j];
      LastByKeyWins(init, key, i);
    }
  }

  /** The map knows no key that no item has. */
  lemma {:induction false} LastByKeyAbsent<T, K>(s: seq<T>, key: T -> K, k: K)
    requires forall i :: 0 <= i < |s| ==> key(s[i]) != k
    ensures k !in LastByKey(s, key)
  {
    if |s| > 0 {
      var init := s[..|s| - 1];
      assert forall i :: 0 <= i < |init| ==> init[i] == s[i];
      LastByKeyAbsent(init, key, k);
    }
  }

  /** The `dataMap` of the component: each record under its cell key. */
  function DataMap(data: seq<TrafficData>): (m: map<string, TrafficData>)
    ensures forall i :: 0 <= i < |data| ==> GridUtils.CellKeyOf(data[i]) in m
    ensures forall k :: k in m ==> GridUtils.CellKeyOf(m[k]) == k && m[k] in data
  {
    LastByKey(data, GridUtils.CellKeyOf)
  }

  /** `Array.from(top10Cells).indexOf(cellKey) + 1`: the 1-based place of a
      key in the selection, 0 for a key it lacks. */
  function RankBadge(top10Cells: seq<string>, key: string): (b: int)
    ensures key in top10Cells ==> 1 <= b <= |top10Cells| && top10Cells[b - 1] == key
    ensures key !in top10Cells ==> b == 0
  {
    IndexOf(top10Cells, key) + 1
  }

  /** Different selected keys get different ranks. */
  lemma RankBadgeInjective(top10Cells: seq<string>, k1: string, k2: string)
    requires k1 in top10Cells && k2 in top10Cells && k1 != k2
    ensures RankBadge(top10Cells, k1) != RankBadge(top10Cells, k2)
  {
  }

  /** `Map.prototype.get`. */
  function Lookup(m: map<string, TrafficData>, key: string): (r: Option<TrafficData>)
    ensures r.Some? <==> key in m
    ensures r.Some? ==> r.value == m[key]
  {
    if key in m then Some(m[key]) else None
  }

  /** One drawn tile. */
  datatype Tile = Tile(x: int, y: int, bounds: CellBounds, color: CellColor, number: string, rank: Option<int>)

  /** The tile of column x and row y: the record under its key, if any, its
      colour, the grid number "x+1,y+1", and the rank of its key among the
      selected cells when it is highlighted. */
  function RenderTile(dataMap: map<string, TrafficData>, x: int, y: int, mode: ViewMode,
                      highlightTop10: bool, top10Cells: seq<string>): (t: Tile)
    ensures t.x == x && t.y == y
    ensures t.rank.Some? <==> highlightTop10 && GridUtils.CreateCellKey(x, y) in top10Cells
    ensures t.rank.Some? ==> t.rank.value == RankBadge(top10Cells, GridUtils.CreateCellKey(x, y))
    ensures t.color == GetCellColor(Lookup(dataMap, GridUtils.CreateCellKey(x, y)), mode, t.rank.Some?)
  {
    var key := GridUtils.CreateCellKey(x, y);
    var cell := Lookup(dataMap, key);
    var isTop10 := highlightTop10 && key in top10Cells;
    Tile(x, y, GetCellBounds(x, y), GetCellColor(cell, mode, isTop10),
         IntToString(x + 1) + "," + IntToString(y + 1),
         if isTop10 then Some(RankBadge(top10Cells, key)) else None)
  }

  /** The grid effect: every cell in row-major order, rows north to south. */
  function RenderGrid(data: seq<TrafficData>, mode: ViewMode, highlightTop10: bool, top10Cells: seq<string>): (tiles: seq<Tile>)
    ensures |tiles| == Rows * Cols
    ensures forall i :: 0 <= i < |tiles| ==> InGrid(tiles[i].x, tiles[i].y)
    ensures forall i :: 0 <= i < |tiles| && tiles[i].rank.Some? ==> 1 <= tiles[i].rank.value <= |top10Cells|
  {
    var m := DataMap(data);
    seq(Rows * Cols, (i: int) requires 0 <= i < Rows * Cols => RenderTile(m, i % Cols, i / Cols, mode, highlightTop10, top10Cells))
  }

  /** The selection the grid is given (the `top10Cells` of its parent):
      nothing when highlighting is off, otherwise the top-10 cells of the
      mode. Either way every rank badge reads 1 to 10. */
  function SelectTop10(data: seq<TrafficData>, mode: ViewMode, highlightTop10: bool): (keys: seq<string>)
    ensures |keys| <= GridUtils.TopCount && NoDuplicates(keys)
    ensures !highlightTop10 ==> keys == []
  {
    if !highlightTop10 then []
    else match mode
      case SeverityView => GridUtils.GetTop10SeverityCells(data)
      case TrafficView => GridUtils.GetTop10TrafficCells(data)
  }

  /** Cell (x, y) is drawn once, at position y·COLS + x. */
  lemma TileAt(data: seq<TrafficData>, mode: ViewMode, highlightTop10: bool, top10Cells: seq<string>, x: int, y: int)
    requires InGrid(x, y)
    ensures 0 <= y * Cols + x < Rows * Cols
    ensures RenderGrid(data, mode, highlightTop10, top10Cells)[y * Cols + x] ==
      RenderTile(DataMap(data), x, y, mode, highlightTop10, top10Cells)
  {
    var i := y * Cols + x;
    TimeUtils.DivMod(i, Cols, y, x);
    var tiles := RenderGrid(data, mode, highlightTop10, top10Cells);
    assert tiles[i] == RenderTile(DataMap(data), i % Cols, i / Cols, mode, highlightTop10, top10Cells);
  }

  /** A cell no record names is drawn neutral, whatever its rank. */
  lemma AbsentCellNeutral(data: seq<TrafficData>, mode: ViewMode, highlightTop10: bool, top10Cells: seq<string>, x: int, y: int)
    requires InGrid(x, y)
    requires forall i :: 0 <= i < |data| ==> GridUtils.CellKeyOf(data[i]) != GridUtils.CreateCellKey(x, y)
    ensures RenderGrid(data, mode, highlightTop10, top10Cells)[y * Cols + x].color == Neutral
  {
    TileAt(data, mode, highlightTop10, top10Cells, x, y);
    LastByKeyAbsent(data, GridUtils.CellKeyOf, GridUtils.CreateCellKey(x, y));
    assert Lookup(DataMap(data), GridUtils.CreateCellKey(x, y)) == None;
  }

  /** A cell is coloured from the last record that names it. */
  lemma PresentCellColor(data: seq<TrafficData>, mode: ViewMode, highlightTop10: bool, top10Cells: seq<string>, i: nat)
    requires i < |data| && InGrid(data[i].x, data[i].y)
    requires forall j :: i < j < |data| ==> GridUtils.CellKeyOf(data[j]) != GridUtils.CellKeyOf(data[i])
    ensures var key := GridUtils.CellKeyOf(data[i]);
      RenderGrid(data, mode, highlightTop10, top10Cells)[data[i].y * Cols + data[i].x].color ==
      GetCellColor(Some(data[i]), mode, highlightTop10 && key in top10Cells)
  {
    var x, y := data[i].x, data[i].y;
    TileAt(data, mode, highlightTop10, top10Cells, x, y);
    LastByKeyWins(data, GridUtils.CellKeyOf, i);
    assert Lookup(DataMap(data), GridUtils.CreateCellKey(x, y)) == Some(data[i]);
  }

  /** Distinct grid positions have distinct cell keys. */
  lemma KeysDistinct(x1: nat, y1: nat, x2: nat, y2: nat)
    requires x1 != x2 || y1 != y2
    ensures GridUtils.CreateCellKey(x1, y1) != GridUtils.CreateCellKey(x2, y2)
  {
    if GridUtils.CreateCellKey(x1, y1) == GridUtils.CreateCellKey(x2, y2) {
      GridUtils.CellKeyInjective(x1, y1, x2, y2);
      assert false;
    }
  }

  /** Distinct row-major positions name distinct cells. */
  lemma PositionsDistinct(i: nat, j: nat)
    requires i != j
    ensures i % Cols != j % Cols || i / Cols != j / Cols
  {
    assert i == (i / Cols) * Cols + i % Cols;
    assert j == (j / Cols) * Cols + j % Cols;
  }

  /** No two tiles show the same rank badge. */
  lemma RanksDistinct(data: seq<TrafficData>, mode: ViewMode, highlightTop10: bool, top10Cells: seq<string>, i: int, j: int)
    requires 0 <= i < j < Rows * Cols
    requires RenderGrid(data, mode, highlightTop10, top10Cells)[i].rank.Some?
    requires RenderGrid(data, mode, highlightTop10, top10Cells)[j].rank.Some?
    ensures RenderGrid(data, mode, highlightTop10, top10Cells)[i].rank != RenderGrid(data, mode, highlightTop10, top10Cells)[j].rank
  {
    var tiles, m := RenderGrid(data, mode, highlightTop10, top10Cells), DataMap(data);
    assert tiles[i] == RenderTile(m, i % Cols, i / Cols, mode, highlightTop10, top10Cells);
    assert tiles[j] == RenderTile(m, j % Cols, j / Cols, mode, highlightTop10, top10Cells);
    PositionsDistinct(i, j);
    var ki, kj := GridUtils.CreateCellKey(i % Cols, i / Cols), GridUtils.CreateCellKey(j % Cols, j / Cols);
    KeysDistinct(i % Cols, i / Cols, j % Cols, j / Cols);
    RankBadgeInjective(top10Cells, ki, kj);
  }
}

=== FILE: traffic_types.dfy ===
/** The record every part of the dashboard works on: one grid cell's incident
    counts and severity statistics for one snapshot or historical sample. */
module Traffic {
  import opened Wrappers

  /** A cell record. The three counts are the incidents in the escalating
      yellow, red and dark-red buckets. The four statistics may be absent from a
      record (`undefined`), so each is an Option; JavaScript code tests them by
      truthiness, which treats a present 0 like an absent value (see Truthy).
      `ts` is the server's timestamp text, or None for `null`. */
  datatype TrafficData = TrafficData(
    x: int,
    y: int,
    yellow: int,
    red: int,
    darkRed: int,
    latestSeverity: Option<real>,
    p95: Option<real>,
    p99: Option<real>,
    thresholdP95: Option<real>,
    ts: Option<string>)

  /** Which classification a grid view shows: incident counts or the latest
      severity against its percentiles. */
  datatype ViewMode = TrafficView | SeverityView

  /** JavaScript truthiness of an optional number: present and not zero. */
  predicate Truthy(m: Option<real>) {
    m.Some? && m.value != 0.0
  }

  /** The counts are non-negative, as the response schemas demand. */
  predicate NonNegativeCounts(c: TrafficData) {
    c.yellow >= 0 && c.red >= 0 && c.darkRed >= 0
  }

  /** The weighted severity score yellow + 2·red + 3·dark_red that the history
      views compute from the counts. */
  function WeightedSeverity(c: TrafficData): int {
    c.yellow + 2 * c.red + 3 * c.darkRed
  }
}

=== FILE: traffic_utils.dfy ===
/** The two cell classifiers and the derived quantities they use
    (src/lib/trafficUtils.ts). */
module TrafficUtils {
  import opened Wrappers
  import opened Traffic

  /** Percentile classification: how the latest severity compares with the
      cell's own historical P95 and P99. */
  datatype SeverityLevel = High | Moderate | Normal

  /** Count classification: the most severe non-empty incident bucket. */
  datatype TrafficLevel = Critical | High | Medium | Normal

  datatype SeverityDiffs = SeverityDiffs(p95Diff: real, p99Diff: real)

  /** The guard `cell?.latest_severity && cell?.p95 && cell?.p99`: the cell
      exists and all three statistics are truthy (present and non-zero). */
  predicate HasAllMetrics(cell: Option<TrafficData>) {
    cell.Some? && Truthy(cell.value.latestSeverity) && Truthy(cell.value.p95) && Truthy(cell.value.p99)
  }

  function Latest(cell: Option<TrafficData>): real
    requires HasAllMetrics(cell)
  {
    cell.value.latestSeverity.value
  }

  function P95(cell: Option<TrafficData>): real
    requires HasAllMetrics(cell)
  {
    cell.value.p95.value
  }

  function P99(cell: Option<TrafficData>): real
    requires HasAllMetrics(cell)
  {
    cell.value.p99.value
  }

  /** `calculateSeverityLevel`. A missing cell, or one with any of the three
      statistics absent or zero, is Normal; otherwise the latest severity is
      compared strictly with P99 first and P95 second. */
  function CalculateSeverityLevel(cell: Option<TrafficData>): (r: SeverityLevel)
    ensures !HasAllMetrics(cell) ==> r == SeverityLevel.Normal
    ensures HasAllMetrics(cell) ==> (r == SeverityLevel.High <==> Latest(cell) > P99(cell))
    ensures HasAllMetrics(cell) ==>
      (r == SeverityLevel.Moderate <==> Latest(cell) <= P99(cell) && Latest(cell) > P95(cell))
  {
    if !HasAllMetrics(cell) then SeverityLevel.Normal
    else
      var latest, p95, p99 := cell.value.latestSeverity.value, cell.value.p95.value, cell.value.p99.value;
      if latest == 0.0 && p95 == 0.0 && p99 == 0.0 then
        // The explicit all-zero case of the source; the guard above already excludes it.
        SeverityLevel.Normal
      else if latest > p99 then SeverityLevel.High
      else if latest > p95 then SeverityLevel.Moderate
      else SeverityLevel.Normal
  }

  /** `calculateSeverityDifferences`: how far the latest severity lies above
      P95 and P99, or (0, 0) under the same guard as the classifier. */
  function CalculateSeverityDifferences(cell: Option<TrafficData>): (r: SeverityDiffs)
    ensures !HasAllMetrics(cell) ==> r == SeverityDiffs(0.0, 0.0)
    ensures HasAllMetrics(cell) ==> r.p95Diff == Latest(cell) - P95(cell)
    ensures HasAllMetrics(cell) ==> r.p99Diff == Latest(cell) - P99(cell)
  {
    if !HasAllMetrics(cell) then SeverityDiffs(0.0, 0.0)
    else
      var c := cell.value;
      SeverityDiffs(c.latestSeverity.value - c.p95.value, c.latestSeverity.value - c.p99.value)
  }

  /** The level is a function of the differences alone: High exactly when the
      P99 difference is positive, Moderate exactly when only the P95 difference
      is, Normal otherwise. */
  lemma SeverityLevelFromDifferences(cell: Option<TrafficData>)
    ensures var d := CalculateSeverityDifferences(cell);
      && (CalculateSeverityLevel(cell) == SeverityLevel.High <==> d.p99Diff > 0.0)
      && (CalculateSeverityLevel(cell) == SeverityLevel.Moderate <==> d.p99Diff <= 0.0 && d.p95Diff > 0.0)
      && (CalculateSeverityLevel(cell) == SeverityLevel.Normal <==> d.p99Diff <= 0.0 && d.p95Diff <= 0.0)
  {
  }

  /** A record whose three statistics are all zero is Normal. */
  lemma AllZeroTripleIsNormal(c: TrafficData)
    requires c.latestSeverity == Some(0.0) && c.p95 == Some(0.0) && c.p99 == Some(0.0)
    ensures CalculateSeverityLevel(Some(c)) == SeverityLevel.Normal
    ensures CalculateSeverityDifferences(Some(c)) == SeverityDiffs(0.0, 0.0)
  {
  }

  /** `calculateTotalTraffic`: the number of incidents over all three buckets. */
  function CalculateTotalTraffic(c: TrafficData): (r: int)
    ensures NonNegativeCounts(c) ==> r >= 0
    ensures NonNegativeCounts(c) ==> (r == 0 <==> c.yellow == 0 && c.red == 0 && c.darkRed == 0)
    ensures NonNegativeCounts(c) ==> r >= c.yellow && r >= c.red && r >= c.darkRed
  {
    c.yellow + c.red + c.darkRed
  }

  /** `getTrafficSeverityLevel`: Normal when the total is zero, otherwise the
      first of dark red, red that is positive, otherwise Medium. */
  function GetTrafficSeverityLevel(c: TrafficData): (r: TrafficLevel)
    ensures r == TrafficLevel.Normal <==> CalculateTotalTraffic(c) == 0
    ensures r == TrafficLevel.Critical <==> CalculateTotalTraffic(c) != 0 && c.darkRed > 0
    ensures r == TrafficLevel.High <==> CalculateTotalTraffic(c) != 0 && c.darkRed <= 0 && c.red > 0
    ensures NonNegativeCounts(c) && r == TrafficLevel.Medium ==> c.yellow > 0 && c.red == 0 && c.darkRed == 0
  {
    var total := CalculateTotalTraffic(c);
    if total == 0 then TrafficLevel.Normal
    else if c.darkRed > 0 then TrafficLevel.Critical
    else if c.red > 0 then TrafficLevel.High
    else TrafficLevel.Medium
  }

  /** With non-negative counts the level is decided by the counts alone,
      most severe bucket first, without computing the total. */
  lemma TrafficLevelByBuckets(c: TrafficData)
    requires NonNegativeCounts(c)
    ensures GetTrafficSeverityLevel(c) ==
      if c.darkRed > 0 then TrafficLevel.Critical
      else if c.red > 0 then TrafficLevel.High
      else if c.yellow > 0 then TrafficLevel.Medium
      else TrafficLevel.Normal
  {
  }
}

=== FILE: validation.dfy ===
/** The response schemas of src/lib/validation.ts. An API response is a JSON
    value; a schema is a predicate on one record, an array schema demands that
    every element satisfy it, and each `validate*` function either returns the
    parsed records or fails with one fixed message. Parsing keeps the known
    fields only, as a zod object schema strips unknown keys; the result is the
    shared TrafficData record (plus `latest_ts` for sustained records). */
module Validation {
  import opened Wrappers
  import opened Seqs
  import opened Traffic
  import Constants
  import GridBoundaries

  /** A JSON value as `JSON.parse` produces it. Objects map each key to its
      value; a key that is absent reads as `undefined`. */
  datatype Json =
    | JNull
    | JBool(b: bool)
    | JNum(n: real)
    | JStr(s: string)
    | JArray(items: seq<Json>)
    | JObject(fields: map<string, Json>)

  /** A sustained record: the cell data and the time of its latest sample. */
  datatype SustainedData = SustainedData(cell: TrafficData, latestTs: Option<string>)

  const CurrentError: string := "Invalid current traffic data received from API"
  const HistoricalError: string := "Invalid historical traffic data received from API"
  const SustainedError: string := "Invalid sustained traffic data received from API"

  /** The value stored under a key of an object, None when the key is absent
      or the value is not an object. */
  function Field(j: Json, k: string): Option<Json> {
    if j.JObject? && k in j.fields then Some(j.fields[k]) else None
  }

  predicate IsInt(n: real) {
    n.Floor as real == n
  }

  /** `z.number().min(0)`. */
  predicate NonNegNumber(v: Option<Json>) {
    v.Some? && v.value.JNum? && v.value.n >= 0.0
  }

  /** `z.number().int().min(0)`. */
  predicate NonNegInt(v: Option<Json>) {
    NonNegNumber(v) && IsInt(v.value.n)
  }

  /** `z.number().int().min(0).max(hi)`. */
  predicate IntUpTo(v: Option<Json>, hi: int) {
    NonNegInt(v) && v.value.n <= hi as real
  }

  /** `z.number().min(0).optional()`: absent, or a non-negative number. */
  predicate OptionalNonNeg(v: Option<Json>) {
    v.None? || NonNegNumber(v)
  }

  /** `z.string().nullable()`: present, and a string or null. */
  predicate NullableString(v: Option<Json>) {
    v.Some? && (v.value.JNull? || v.value.JStr?)
  }

  /** The fields every schema shares: the cell coordinates of the 15 by 21
      grid the API serves and the three incident counts. */
  predicate ValidCellFields(j: Json) {
    && j.JObject?
    && IntUpTo(Field(j, "x"), 14)
    && IntUpTo(Field(j, "y"), 20)
    && NonNegInt(Field(j, "yellow"))
    && NonNegInt(Field(j, "red"))
    && NonNegInt(Field(j, "dark_red"))
  }

  /** `HistoricalTrafficDataSchema`: the statistics are optional. */
  predicate ValidHistorical(j: Json): (b: bool)
    ensures b ==> 0 <= IntOf(Field(j, "x")) <= 14 && 0 <= IntOf(Field(j, "y")) <= 20
    ensures b ==> IntOf(Field(j, "yellow")) >= 0 && IntOf(Field(j, "red")) >= 0 && IntOf(Field(j, "dark_red")) >= 0
    ensures b ==> Field(j, "ts").Some?
  {
    && ValidCellFields(j)
    && NullableString(Field(j, "ts"))
    && OptionalNonNeg(Field(j, "latest_severity"))
    && OptionalNonNeg(Field(j, "p95"))
    && OptionalNonNeg(Field(j, "p99"))
    && OptionalNonNeg(Field(j, "threshold_p95"))
  }

  /** `CurrentTrafficDataSchema`: latest severity, P95 and P99 are required. */
  predicate ValidCurrent(j: Json): (b: bool)
    ensures b ==> ValidHistorical(j)
    ensures b ==> NumberOf(Field(j, "latest_severity")).Some? && NumberOf(Field(j, "p95")).Some? && NumberOf(Field(j, "p99")).Some?
  {
    && ValidCellFields(j)
    && NonNegNumber(Field(j, "latest_severity"))
    && NonNegNumber(Field(j, "p95"))
    && NonNegNumber(Field(j, "p99"))
    && NullableString(Field(j, "ts"))
    && OptionalNonNeg(Field(j, "threshold_p95"))
  }

  /** `SustainedTrafficDataSchema`: latest severity, the P95 threshold and
      `latest_ts` are required; P95, P99 and `ts` are optional. */
  predicate ValidSustained(j: Json): (b: bool)
    ensures b ==> 0 <= IntOf(Field(j, "x")) <= 14 && 0 <= IntOf(Field(j, "y")) <= 20
    ensures b ==> NumberOf(Field(j, "latest_severity")).Some? && NumberOf(Field(j, "threshold_p95")).Some?
    ensures b ==> Field(j, "latest_ts").Some?
  {
    && ValidCellFields(j)
    && NonNegNumber(Field(j, "latest_severity"))
    && NonNegNumber(Field(j, "threshold_p95"))
    && NullableString(Field(j, "latest_ts"))
    && OptionalNonNeg(Field(j, "p95"))
    && OptionalNonNeg(Field(j, "p99"))
    && (Field(j, "ts").None? || NullableString(Field(j, "ts")))
  }

  function IntOf(v: Option<Json>): int {
    if v.Some? && v.value.JNum? then v.value.n.Floor else 0
  }

  function NumberOf(v: Option<Json>): Option<real> {
    if v.Some? && v.value.JNum? then Some(v.value.n) else None
  }

  function TextOf(v: Option<Json>): Option<string> {
    if v.Some? && v.value.JStr? then Some(v.value.s) else None
  }

  /** The parsed record: the known fields, with absent statistics as None and
      a null timestamp as None. */
  function DecodeRecord(j: Json): TrafficData {
    TrafficData(
      IntOf(Field(j, "x")), IntOf(Field(j, "y")),
      IntOf(Field(j, "yellow")), IntOf(Field(j, "red")), IntOf(Field(j, "dark_red")),
      NumberOf(Field(j, "latest_severity")), NumberOf(Field(j, "p95")),
      NumberOf(Field(j, "p99")), NumberOf(Field(j, "threshold_p95")),
      TextOf(Field(j, "ts")))
  }

  function DecodeSustained(j: Json): SustainedData {
    SustainedData(DecodeRecord(j), TextOf(Field(j, "latest_ts")))
  }

  /** `z.array(schema).parse`, followed by the catch that replaces any schema
      error with one fixed message. */
  function ValidateArray<T>(data: Json, valid: Json -> bool, decode: Json -> T, message: string): (r: Result<seq<T>, string>)
    ensures r.Success? <==> data.JArray? && forall i :: 0 <= i < |data.items| ==> valid(data.items[i])
    ensures r.Failure? ==> r.error == message
    ensures r.Success? ==> |r.value| == |data.items| && forall i :: 0 <= i < |r.value| ==> r.value[i] == decode(data.items[i])
  {
    if data.JArray? && forall i :: 0 <= i < |data.items| ==> valid(data.items[i]) then
      Success(Map(data.items, decode))
    else
      Failure(message)
  }

  /** `validateCurrentTrafficData`. */
  function ValidateCurrent(data: Json): (r: Result<seq<TrafficData>, string>)
    ensures r.Success? <==> data.JArray? && forall i :: 0 <= i < |data.items| ==> ValidCurrent(data.items[i])
    ensures r.Failure? ==> r.error == CurrentError
  {
    ValidateArray(data, ValidCurrent, DecodeRecord, CurrentError)
  }

  /** `validateHistoricalTrafficData`. */
  function ValidateHistorical(data: Json): (r: Result<seq<TrafficData>, string>)
    ensures r.Success? <==> data.JArray? && forall i :: 0 <= i < |data.items| ==> ValidHistorical(data.items[i])
    ensures r.Failure? ==> r.error == HistoricalError
  {
    ValidateArray(data, ValidHistorical, DecodeRecord, HistoricalError)
  }

  /** `validateSustainedTrafficData`. */
  function ValidateSustained(data: Json): (r: Result<seq<SustainedData>, string>)
    ensures r.Success? <==> data.JArray? && forall i :: 0 <= i < |data.items| ==> ValidSustained(data.items[i])
    ensures r.Failure? ==> r.error == SustainedError
  {
    ValidateArray(data, ValidSustained, DecodeSustained, SustainedError)
  }

  /** What a record that passed the shared checks promises its consumers. */
  predicate InCellSchema(c: TrafficData) {
    0 <= c.x <= 14 && 0 <= c.y <= 20 && NonNegativeCounts(c)
  }

  predicate NonNegOption(m: Option<real>) {
    m.None? || m.value >= 0.0
  }

  /** The records the current schema describes. */
  predicate InCurrentSchema(c: TrafficData) {
    && InCellSchema(c)
    && c.latestSeverity.Some? && c.p95.Some? && c.p99.Some?
    && NonNegOption(c.latestSeverity) && NonNegOption(c.p95) && NonNegOption(c.p99)
    && NonNegOption(c.thresholdP95)
  }

  /** The records the historical schema describes. */
  predicate InHistoricalSchema(c: TrafficData) {
    && InCellSchema(c)
    && NonNegOption(c.latestSeverity) && NonNegOption(c.p95) && NonNegOption(c.p99)
    && NonNegOption(c.thresholdP95)
  }

  /** Every record that validated against the current schema is in range. */
  lemma CurrentRecordInSchema(j: Json)
    requires ValidCurrent(j)
    ensures InCurrentSchema(DecodeRecord(j))
  {
  }

  /** Every record that validated against the historical schema is in range. */
  lemma HistoricalRecordInSchema(j: Json)
    requires ValidHistorical(j)
    ensures InHistoricalSchema(DecodeRecord(j))
  {
  }

  /** Every record that validated against the sustained schema is in range
      and carries a latest severity and a P95 threshold. */
  lemma SustainedRecordInSchema(j: Json)
    requires ValidSustained(j)
    ensures InHistoricalSchema(DecodeSustained(j).cell)
    ensures DecodeSustained(j).cell.latestSeverity.Some? && DecodeSustained(j).cell.thresholdP95.Some?
  {
  }

  /** A successful validation yields only in-range records. */
  lemma ValidatedCurrentInSchema(data: Json)
    requires ValidateCurrent(data).Success?
    ensures forall i :: 0 <= i < |ValidateCurrent(data).value| ==> InCurrentSchema(ValidateCurrent(data).value[i])
  {
    var r := ValidateCurrent(data).value;
    forall i | 0 <= i < |r| ensures InCurrentSchema(r[i]) {
      CurrentRecordInSchema(data.items[i]);
    }
  }

  /** The current schema is stricter than the historical one: current data
      passes historical validation and parses to the same records. */
  lemma CurrentIsHistorical(data: Json)
    requires ValidateCurrent(data).Success?
    ensures ValidateHistorical(data) == ValidateCurrent(data)
  {
  }

  /** The keys a record may carry. */
  const RecordKeys: set<string> :=
    {"x", "y", "yellow", "red", "dark_red", "latest_severity", "p95", "p99", "threshold_p95", "ts"}

  /** The value the server sends under each key for a record: absent
      statistics are left out and a missing timestamp is null. */
  function EncodedField(c: TrafficData, k: string): Option<Json> {
    if k == "x" then Some(JNum(c.x as real))
    else if k == "y" then Some(JNum(c.y as real))
    else if k == "yellow" then Some(JNum(c.yellow as real))
    else if k == "red" then Some(JNum(c.red as real))
    else if k == "dark_red" then Some(JNum(c.darkRed as real))
    else if k == "latest_severity" then NumberField(c.latestSeverity)
    else if k == "p95" then NumberField(c.p95)
    else if k == "p99" then NumberField(c.p99)
    else if k == "threshold_p95" then NumberField(c.thresholdP95)
    else if k == "ts" then Some(if c.ts.Some? then JStr(c.ts.value) else JNull)
    else None
  }

  function NumberField(m: Option<real>): Option<Json> {
    if m.Some? then Some(JNum(m.value)) else None
  }

  /** The JSON object the server sends for a record. */
  function EncodeRecord(c: TrafficData): (j: Json)
    ensures j.JObject?
    ensures forall k :: Field(j, k) == EncodedField(c, k)
  {
    JObject(map k | k in RecordKeys && EncodedField(c, k).Some? :: EncodedField(c, k).value)
  }

  /** Parsing inverts the server's encoding. */
  lemma DecodeEncode(c: TrafficData)
    ensures DecodeRecord(EncodeRecord(c)) == c
  {
  }

  /** The historical schema accepts exactly the encodings of in-range records. */
  lemma EncodeHistorical(c: TrafficData)
    ensures ValidHistorical(EncodeRecord(c)) <==> InHistoricalSchema(c)
  {
  }

  /** The current schema accepts exactly the encodings of in-range records
      that carry the three statistics. */
  lemma EncodeCurrent(c: TrafficData)
    ensures ValidCurrent(EncodeRecord(c)) <==> InCurrentSchema(c)
  {
  }

  /** Validating the server's encoding of in-range records gives back those
      records. */
  lemma ValidateEncoded(cs: seq<TrafficData>)
    requires forall i :: 0 <= i < |cs| ==> InCurrentSchema(cs[i])
    ensures ValidateCurrent(JArray(Map(cs, EncodeRecord))) == Success(cs)
  {
    var items := Map(cs, EncodeRecord);
    forall i | 0 <= i < |items| ensures ValidCurrent(items[i]) && DecodeRecord(items[i]) == cs[i] {
      EncodeCurrent(cs[i]);
      DecodeEncode(cs[i]);
    }
    var r := ValidateCurrent(JArray(items)).value;
    assert r == cs;
  }

  /** A validated record names a cell whose history URL can be built for any
      whitelisted window, and that URL names the record's own cell. */
  lemma ValidatedCellHasHistoryUrl(j: Json, duration: string)
    requires ValidCellFields(j) && duration in Constants.DurationOptions
    ensures var r := Constants.BuildHistoryUrl(Field(j, "x").value.n, Field(j, "y").value.n, duration);
      && r.Success?
      && Constants.ParseHistoryUrl(r.value) == Some(Constants.HistoryQuery(DecodeRecord(j).x, DecodeRecord(j).y, duration))
  {
    Constants.HistoryUrlRoundTrip(Field(j, "x").value.n, Field(j, "y").value.n, duration);
  }

  /** The API's 15 by 21 grid lies inside the 16 by 24 grid the map draws:
      every validated record names a cell with geographic bounds inside the
      bounding box, and the map's last column and last three rows never
      receive data. */
  lemma ValidatedCellOnMap(j: Json)
    requires ValidCellFields(j)
    ensures GridBoundaries.InGrid(DecodeRecord(j).x, DecodeRecord(j).y)
    ensures DecodeRecord(j).x < GridBoundaries.Cols - 1 && DecodeRecord(j).y < GridBoundaries.Rows - 3
  {
  }
}

=== FILE: wrappers.dfy ===
/** Failure-carrying datatypes shared by the whole model.
    - Option<T> stands for a JavaScript value that may be `undefined`/`null`;
    - Result<R, E> stands for a function that either returns or throws. */
module Wrappers {

  datatype Option<+T> = None | Some(value: T) {

    /** Returns the value in Some, or the given default when None. */
    function GetOr(default: T): T {
      match this
      case Some(v) => v
      case None => default
    }
  }

  datatype Result<+R, +E> = Success(value: R) | Failure(error: E) {

    /** Converts a Result to an Option, dropping the error. */
    function ToOption(): Option<R> {
      match this
      case Success(v) => Some(v)
      case Failure(_) => None
    }
  }
}
